=== FILE: README.md ===
# ai-tools: a Dafny model of the formatting, pricing, chat and naming core

This project models the deterministic layer of the `ai-tools` Python
package, a set of helpers around the OpenAI, Anthropic and Google model
APIs. The parts it covers:

- **Message formatters.** `format_claude_messages`, `format_openai_messages`
  and `format_gemini_messages` turn generic messages into provider content
  blocks. A generic message is a string or a dict with `text`, `code` or
  `image`, plus an optional `cache` key.
  - Modules `Messages`, `ClaudeFormat`, `OpenAIFormat` and `GeminiFormat`.
  - `Paths` models POSIX `os.path.splitext`; `Text` has the string
    primitives.
- **The model catalog.** `Catalog` holds `ALL_LLMS`, `ALL_IMAGE_GENERATORS`
  and `ALL_SPEECH_REC` as constant maps built the way the source merges
  them. `LegacyCatalog` and `LegacyModels` hold the two older copies.
- **Cost and dispatch.** `Usage` models `log_token_usage` and the usage
  totals of a chat. `Dispatch` models the guards and the provider switch
  of `prompt_llm`, and the response dicts of `prompt_claude` and
  `prompt_openai`.
- **The chat.** `Chat` models `chat_with_llm`:
  - the opening;
  - the turn step on the formatted transcript, with and without a
    prefilled reply;
  - the sliding window of `cache_control` markers;
  - the usage totals priced when the chat ends.

  The replies the model streams and the lines the user types are
  parameters. A chat is a finite sequence of turns. `RunChat` is the chat
  as written; `RunChatCorrected` applies the two corrections listed under
  "## Findings" (the echo of bare strings and the cost of a chat without
  replies).
- **Small helpers.** `Naming` models the three identical copies of
  `increment_file_name`, the last-digit loop of `create_image.py` and
  `filenamify`. `Audio` models the mp3 path and `log_transcription_cost`.
  `Vision` models the `image_url` substitution of `ask_gpt4v`.

**Conventions:**
- Python exceptions become the `Error` constructors of a `Result`:
  - a failed `assert` becomes a specific error;
  - a `KeyError` becomes `MissingKey` or `UnknownModel`;
  - an `IndexError` becomes `IndexOutOfRange`;
  - indexing a `str` with a key (a `TypeError`) becomes `KeyOnString`;
  - a `ValueError` becomes `UnsupportedProvider`.
- The file system is a finite set of existing paths.
- The base64 content of a file is an uninterpreted function `encode`.
- Prices and costs are `real`.

## Model

| member | source | states |
|---|---|---|
| Messages.ImageMediaType | aitools/third_party_apis/anthropic_tools.py:55-66 | An image is accepted exactly when its lower-cased extension is png, jpg, jpeg, gif or webp. A rejection carries the extension. The media type is `image/jpeg` for `jpg` and `image/` + ext otherwise. |
| Messages.ImageMediaTypeOfName | aitools/third_party_apis/anthropic_tools.py:55-59 | Take a file `root.e` whose root has a name. It is accepted exactly when `e`, lower-cased, is on the whitelist, with the corresponding media type. |
| Messages.ImageExtensionOfName | aitools/third_party_apis/anthropic_tools.py:55-56 | The extension checked for `root.e` is `e` in lower case. |
| Messages.StripDottedExtension | aitools/third_party_apis/anthropic_tools.py:56 | Stripping dots from `.e` gives back `e` when `e` has no dot or slash. |
| Messages.HiddenImageRejected | aitools/third_party_apis/anthropic_tools.py:55-57 | A hidden file such as `.png` has no extension, so it is rejected with an empty extension. |
| Messages.HiddenFileHasNoExtension | aitools/third_party_apis/google_tools.py:47 | `splitext` gives a hidden file name an empty extension. |
| Paths.SplitExtShape | aitools/third_party_apis/anthropic_tools.py:55 | `splitext` splits a path into root and extension that rebuild it. The extension is empty, or one dot followed by characters that are neither dot nor slash. A non-empty extension follows a root with a name. A non-empty path has a non-empty root. |
| Paths.SplitExtJoin | aitools/media_tools/audio_tools.py:14 | Joining a root that has a name with a dot-extension is undone by `splitext`. |
| Paths.SplitExtInsert | aitools/media_tools/utils.py:29-32 | Inserting dot-free text between root and extension keeps the extension and extends the root. |
| Text.NatToStringInjective | aitools/media_tools/utils.py:32 | Distinct version numbers print as distinct decimal strings. |
| Text.ParseNatToString | create_image.py:21 | `str(n)` parses back to `n`. |
| ClaudeFormat.KeyPrecedence | aitools/third_party_apis/anthropic_tools.py:44-68 | `text` beats `code`, which beats `image`. Code becomes ```` ```\n ```` + code + ```` \n``` ````. An accepted image becomes a base64 block with its media type. A dict with none of the three keys adds no block. |
| ClaudeFormat.BlockOf | aitools/third_party_apis/anthropic_tools.py:44-68 | A message fails only as an image with an unsupported extension, with that error. Otherwise it adds one block, or none when it has no payload, and the block is unmarked. |
| ClaudeFormat.FormatClaudeMessages | aitools/third_party_apis/anthropic_tools.py:72-88 | Role `system` gives the bare block list. Any other role gives one message with that role. The output has as many blocks as the loop produced. With `cache_messages` the final block is marked, and an empty content is an `IndexError`. |
| ClaudeFormat.ContentIsPlainContent | aitools/third_party_apis/anthropic_tools.py:41-68 | With markers erased, the content is the in-order concatenation of each message's own block. Its length is the number of messages with a payload. |
| ClaudeFormat.ContentOkIff | aitools/third_party_apis/anthropic_tools.py:54-70 | Formatting succeeds exactly when every image has a supported extension and every message with a `cache` key has some block at or before it to mark. |
| ClaudeFormat.ContentMarkers | aitools/third_party_apis/anthropic_tools.py:69-70 | Block `j` is marked exactly when some message with a `cache` key was processed while `j` was the last block. |
| ClaudeFormat.FormatMarkers | aitools/third_party_apis/anthropic_tools.py:69-73 | In the output, a block is marked exactly when a `cache` key marked it, or when it is the final block and `cache_messages` is set. |
| ClaudeFormat.FormatBlocks | aitools/third_party_apis/anthropic_tools.py:72-73 | When the loop succeeds, and has a block if `cache_messages` is set, formatting succeeds. The output is the content, with its final block marked when `cache_messages` is set. |
| ClaudeFormat.ContentNormalized | aitools/third_party_apis/anthropic_tools.py:42-43 | Replacing every bare string by `{"text": s}` leaves the content unchanged. |
| ClaudeFormat.FormatBareAsText | aitools/third_party_apis/anthropic_tools.py:42-48 | A bare string at any position is formatted exactly like `{"text": s}`. |
| ClaudeFormat.FormatRoleOnlyWraps | aitools/third_party_apis/anthropic_tools.py:75-86 | Every role succeeds or fails together. The blocks are the same as the bare list of role `system`. |
| ClaudeFormat.PlainContentIgnoresCacheKeys | aitools/third_party_apis/anthropic_tools.py:69-70 | `cache` keys change no text or image field. Without them the loop produces exactly the reference concatenation. |
| ClaudeFormat.CacheFlagsOnlyMark | aitools/third_party_apis/anthropic_tools.py:44-73 | The cache keys and the cache flag change only markers. Dropping both gives the same blocks with the markers erased. |
| ClaudeFormat.ErrorsIgnoreFileContents | aitools/third_party_apis/anthropic_tools.py:57-60 | A rejected image fails before any file is read: the outcome does not depend on file contents. |
| OpenAIFormat.BlockOf | aitools/third_party_apis/openai_tools.py:47-64 | A message adds one block, or none without a payload. An image always becomes `data:image/jpeg;base64,` + its encoding. |
| OpenAIFormat.FormatOpenAIMessages | aitools/third_party_apis/openai_tools.py:66-82 | The output is always one message carrying the given role, `system` included. It holds one block per message with a payload. |
| OpenAIFormat.ContentAppend | aitools/third_party_apis/openai_tools.py:44-64 | Formatting two lists in turn is formatting them concatenated: each message is handled on its own. |
| OpenAIFormat.BlockOfMessageAt | aitools/third_party_apis/openai_tools.py:44-64 | The block of message `i` sits at the position given by how many messages up to `i` have a payload, so order is kept. |
| OpenAIFormat.ContentNormalized | aitools/third_party_apis/openai_tools.py:45-46 | Replacing bare strings by `{"text": s}` leaves the content unchanged. |
| OpenAIFormat.FormatBareAsText | aitools/third_party_apis/openai_tools.py:45-51 | A bare string is formatted like `{"text": s}`, and the output does not depend on `cache_messages`. |
| OpenAIFormat.CacheFlagIgnored | aitools/third_party_apis/openai_tools.py:25-82 | For every message list and role, the output with `cache_messages` on equals the output with it off. |
| OpenAIFormat.CodeIsFenced | aitools/third_party_apis/openai_tools.py:52-56 | A code message becomes the text ```` ```html\n ```` + code + ```` \n``` ````. |
| OpenAIFormat.AnyImageAccepted | aitools/third_party_apis/openai_tools.py:57-64 | Any image path is accepted with no extension check, and its URL is `data:image/jpeg;base64,` + its encoding. |
| OpenAIFormat.PromptOpenAIResponse | aitools/third_party_apis/openai_tools.py:125-130 | The response has exactly the input, cache-read and output counters. Input plus cache-read equals the reported prompt tokens. |
| OpenAIFormat.PromptOpenAICostDefined | aitools/third_party_apis/openai_tools.py:127-128 | For an OpenAI model, the response of `prompt_openai` can be priced exactly unless cached tokens are reported for `gpt-3.5-turbo`, which has no cache-read price. |
| OpenAIFormat.SystemPromptSplitIntoCharacters | aitools/third_party_apis/openai_tools.py:111 | As written, a string system prompt becomes one text block per character: 28 blocks for the default prompt. |
| OpenAIFormat.SystemPromptIsOneBlock | aitools/third_party_apis/openai_tools.py:111-113 | Corrected, a string system prompt becomes one system message with one text block. |
| OpenAIFormat.CheckImageSize | aitools/third_party_apis/openai_tools.py:186-187 | A request passes exactly when the model is an OpenAI image generator and the size is listed for it. An unknown model is a `KeyError`, and an unlisted size is rejected. |
| OpenAIFormat.ImageSizeGuard | aitools/third_party_apis/openai_tools.py:186-189 | Every size that passes is an OpenAI size. `dall-e-2` rejects 1792x1024, `dall-e-3` rejects 256x256, and `recraft` is unknown here. |
| GeminiFormat.PartOf | aitools/third_party_apis/google_tools.py:37-58 | A message fails only as an unsupported image. Otherwise it adds one part, or none without a payload. |
| GeminiFormat.FormatGeminiMessages | aitools/third_party_apis/google_tools.py:60-75 | Formatting succeeds exactly when every part does. Role `system` gives a single parts dict, not a list. |
| GeminiFormat.PartsOkIff | aitools/third_party_apis/google_tools.py:46-58 | The parts succeed exactly when every image passes the whitelist. There is one part per message with a payload. |
| GeminiFormat.TextPassesThrough | aitools/third_party_apis/google_tools.py:38-41 | A text message is appended as the dict itself, extra keys included. A bare string becomes `{"text": s}`. |
| GeminiFormat.CodeIsFenced | aitools/third_party_apis/google_tools.py:42-45 | A code message becomes `{"text": "```\n" + code + "\n```"}`. |
| GeminiFormat.RoleWrapping | aitools/third_party_apis/google_tools.py:60-73 | `user` gives role `user`, `assistant` gives role `model`, and `system` gives `{"parts": ...}`. None of them depends on `cache_messages`. |
| GeminiFormat.SameImageCheckAsClaude | aitools/third_party_apis/google_tools.py:47-51 | Without cache keys, the Gemini formatter succeeds exactly when every image passes the whitelist, and so exactly when `format_claude_messages` (user role, no `cache_messages`) succeeds on the same list. |
| Catalog.Tag | aitools/third_party_apis/models.py:162-168 | Tagging a table keeps its keys and copies each entry with the given provider and `max_temp`. |
| Catalog.TagGenerators | aitools/third_party_apis/models.py:170-174 | Tagging a generator table keeps its keys and size lists and adds the provider. |
| Catalog.LookupLlm | aitools/third_party_apis/models.py:162-168 | A lookup succeeds exactly for catalog keys, with the entry. Any other key is a `KeyError` naming the model. |
| Catalog.TablesDisjoint | aitools/third_party_apis/models.py:28-134 | The OpenAI, Anthropic and Google tables have pairwise disjoint keys, so no merge overwrites an entry. |
| Catalog.AllLlmsProvenance | aitools/third_party_apis/models.py:162-168 | The keys of `ALL_LLMS` are the union of the three tables. Each entry is its source entry tagged with that table's provider and `max_temp`. |
| Catalog.MaxTempByProvider | aitools/third_party_apis/models.py:162-168 | Every entry's provider is openai, anthropic or google. `max_temp` is 1 for anthropic models and 2 for the others. |
| Catalog.CachePrices | aitools/third_party_apis/models.py:28-134 | Only anthropic entries have a cache-write price. Exactly `gpt-3.5-turbo` and the Google models lack a cache-read price. |
| Catalog.PricesPositive | aitools/third_party_apis/models.py:28-134 | Input and output prices are positive, and cache prices are not negative. |
| Catalog.LlmNamesMatchCatalog | aitools/third_party_apis/models.py:4-180 | Each table's keys are exactly its model-name literal type, and the catalog's keys are exactly `LLMsList`. |
| Catalog.ImageGeneratorsProvenance | aitools/third_party_apis/models.py:170-174 | The image generators are `dall-e-2` and `dall-e-3`, tagged openai, and `recraft`, tagged recraft, with their size lists unchanged. Every OpenAI size is an `OpenaiImageSizes` value. |
| Catalog.SpeechRecProvenance | aitools/third_party_apis/models.py:176-178 | `ALL_SPEECH_REC` maps `whisper-1` to cost 0.0006 per minute, provider openai. |
| LegacyCatalog.AllLlmsProvenance | third_party_apis/models.py:61-65 | The legacy `ALL_LLMS` is the disjoint union of its OpenAI and Anthropic tables, tagged with provider and `max_temp` 2 or 1. |
| LegacyCatalog.EntriesByProvider | third_party_apis/models.py:11-59 | Every legacy entry is openai with `max_temp` 2, or anthropic with `max_temp` 1. Exactly the anthropic entries carry cache prices. |
| LegacyCatalog.NamesAndSpeechRec | third_party_apis/models.py:67-71 | `whisper-1` is openai with cost 0.0006 per minute. The catalog keys are exactly `LLMsList`. |
| LegacyModels.TagProvider | media_tools/models.py:27-28 | Tagging keeps the keys and copies every field, adding only the provider. |
| LegacyModels.AllModelsProvenance | media_tools/models.py:45-46 | OpenAI-table entries get provider openai and Anthropic-table entries get anthropic, otherwise unchanged. No entry has cache prices. |
| LegacyModels.AllModelsKeys | media_tools/models.py:4-9 | The keys of `ALL_MODELS` are exactly the `ModelsList` literal. |
| Usage.LogTokenUsage | aitools/media_tools/text_tools.py:19-27 | The cost is computed exactly when input and output counts are present, the model is known, and every non-zero cache count has a price. It is then `(in·p_in + out·p_out + cw·p_cw + cr·p_cr) / 10^6`. Otherwise it fails with the first `KeyError` the source raises. |
| Usage.CacheRate | aitools/media_tools/text_tools.py:26-27 | A cache price is looked up only when its token count is non-zero. A missing price is then a `KeyError`. |
| Usage.PricedCost | aitools/media_tools/text_tools.py:24-27 | The four-term sum succeeds exactly on priceable usage and equals the linear cost. |
| Usage.MissingCacheCountsAreZero | aitools/media_tools/text_tools.py:21-22 | Absent cache counters cost the same as counters set to 0. |
| Usage.GptFourOMillionInputTokens | aitools/media_tools/text_tools.py:24 | One million input tokens on `gpt-4o` cost 2.5. |
| Usage.CostNonNegative | aitools/media_tools/text_tools.py:24-27 | Non-negative counts never give a negative cost. |
| Usage.AddUsage | aitools/media_tools/text_tools.py:177-179 | Adding a response to the totals adds every key containing `token` and ignores every other key. |
| Usage.TotalsAreSums | aitools/media_tools/text_tools.py:151 | Starting from `{}`, the totals hold exactly the token keys some response reported, each the sum over the responses. |
| Usage.LinearCostAdd | aitools/media_tools/text_tools.py:24-27 | The cost is additive over usage dicts. |
| Usage.TotalCostIsSumOfCosts | aitools/media_tools/text_tools.py:221 | When every response can be priced, pricing the totals gives the sum of the per-response costs. |
| Dispatch.SelectBackend | aitools/media_tools/text_tools.py:71-78 | openai and anthropic select their module. Any other provider is a `ValueError` naming it. |
| Dispatch.CheckRequest | aitools/media_tools/text_tools.py:66-69 | A request passes exactly when the model is known, `max_tokens <= output_limit` and `0 <= temperature <= max_temp`. Each failure has the error of the first check that fails. |
| Dispatch.GuardBoundaries | aitools/media_tools/text_tools.py:68-69 | The limit itself and the temperature bounds pass. One token more, or a temperature just outside `[0, max_temp]`, is rejected. |
| Dispatch.DefaultsAccepted | aitools/media_tools/text_tools.py:46-47 | The default `max_tokens` (1000, and 1024 in chat) and temperature 1 pass for every model. |
| Dispatch.SupportedModels | aitools/media_tools/text_tools.py:71-78 | A catalog model is dispatched exactly when it is an OpenAI or Anthropic model. Google models are a `ValueError` naming google. |
| Dispatch.PromptClaudeResponse | aitools/third_party_apis/anthropic_tools.py:129-133 | The response dict of `prompt_claude` has exactly the text and the input and output counts. |
| Dispatch.PromptClaude | aitools/third_party_apis/anthropic_tools.py:116-133 | `prompt_claude` succeeds exactly when the wrapped system prompt and the messages both format. |
| Dispatch.PromptOpenAI | aitools/third_party_apis/openai_tools.py:125-130 | The `prompt_openai` response splits the prompt tokens into input and cache-read counts. |
| Dispatch.PromptLlm | aitools/media_tools/text_tools.py:66-92 | Success implies the guards passed and the provider is supported, and the answer is the reply's text. A failed guard is that guard's error, and an unsupported provider is a `ValueError`. |
| Dispatch.GoogleNeverPrompted | aitools/media_tools/text_tools.py:77-78 | A Google model never gets an answer. Past the guards it fails with a `ValueError` naming google. |
| Dispatch.OpenAIPromptCost | aitools/media_tools/text_tools.py:82-92 | For an OpenAI model past the guards, prompting succeeds exactly unless `gpt-3.5-turbo` reports cached tokens. The logged cost is the linear cost of the split counts. |
| Dispatch.AnthropicPromptCost | aitools/media_tools/text_tools.py:82-92 | For an Anthropic model past the guards, prompting succeeds exactly when the system prompt and the messages pass the image and cache-key checks. The cost is that of the input and output counts. |
| Dispatch.AnthropicDispatch | aitools/media_tools/text_tools.py:75-90 | An Anthropic model's answer is `prompt_claude`'s outcome, priced on its two counters. |
| Dispatch.ClaudeResponseCost | aitools/media_tools/text_tools.py:90 | Logging a `prompt_claude` response never fails and prices only input and output. |
| Chat.DropMarker | aitools/media_tools/text_tools.py:184 | The `del` succeeds exactly when the message's last block is marked. An empty content is an `IndexError` and an unmarked block a `KeyError`. On success it unmarks that block and changes nothing else. |
| Chat.ExtendLastText | aitools/media_tools/text_tools.py:185 | Appending the reply succeeds exactly when the last message ends in a text block. It changes only the last message. |
| Chat.DropMarkerAppend | aitools/media_tools/text_tools.py:182-184 | Deleting a marker from a transcript with one more message hits the same message. |
| Chat.AnsweredPrefill | aitools/media_tools/text_tools.py:155-199 | With a prefill, the reply half of a turn equals that of a turn without one whose reply is prefill + reply. The `-4` delete hits the message the `-3` delete would. |
| Chat.PrefillAsReply | aitools/media_tools/text_tools.py:155-185 | A whole turn with a prefill is the turn whose reply is the prefill followed by the streamed text. |
| Chat.TurnShape | aitools/media_tools/text_tools.py:181-212 | A turn appends exactly an assistant message (prefill + reply) and a one-block user message, marked exactly when caching is on. Earlier messages keep their role and their blocks, markers aside. |
| Chat.UncachedTurn | aitools/media_tools/text_tools.py:181-212 | With caching off a turn never fails and touches no earlier message. |
| Chat.DeleteHitsMarker | aitools/media_tools/text_tools.py:182-190 | In the window, the message at `-3`, and at `-4` after a prefill, is the same one and is marked, so the `del` never raises. |
| Chat.PruneWindow | aitools/media_tools/text_tools.py:188-190 | In the window, the `-3` delete succeeds and leaves exactly the newest message with a marker on its last block. |
| Chat.TurnKeepsWindow | aitools/media_tools/text_tools.py:155-212 | With caching on, a turn on a window never fails and yields a window: messages alternate user/assistant, and exactly the two newest user messages carry a marker on their last block. |
| Chat.WindowMarksTwoNewestUsers | aitools/media_tools/text_tools.py:183 | In a window, the messages whose last block carries a marker are exactly the two newest user messages, or the only one at the start. Earlier blocks are covered by the rows below. |
| Chat.TurnsKeepWindow | aitools/media_tools/text_tools.py:152-218 | With caching on, any number of turns from a window succeed, keep the window, and add two messages each. |
| Chat.TurnKeepsEarlierBlocks | aitools/media_tools/text_tools.py:182-190 | A turn changes at most the last block of an earlier message. Every other block keeps its content and marker, so "only last blocks are marked" is preserved. |
| Chat.TurnsKeepOnlyLastMarked | aitools/media_tools/text_tools.py:152-218 | Any number of successful turns preserve "only last blocks are marked". |
| Chat.WindowMarkedBlocks | aitools/media_tools/text_tools.py:183-189 | In a window where only last blocks are marked, the marked blocks are exactly the last blocks of the two newest user messages. |
| Chat.OpeningOnlyLastMarked | aitools/third_party_apis/anthropic_tools.py:69-73 | With caching on and no `cache` key in the opening list, the opening marks only its final block. |
| Chat.CachedChatMarksTwoBlocks | aitools/media_tools/text_tools.py:146-212 | With caching on and no `cache` key in the opening list, after any number of turns the transcript's marked blocks are exactly the last blocks of the two newest user messages: two blocks, or one before the first turn. |
| Chat.OpeningCacheKeyMarkerStays | aitools/third_party_apis/anthropic_tools.py:69-70 | A `cache` key in the opening list leaves a marker no turn removes: `[{"text": "a", "cache": True}, "b"]` opens with both blocks marked, and after any number of cached turns the first block is still marked, beside the window's markers. |
| Chat.FirstBlockStays | aitools/media_tools/text_tools.py:182-190 | In a message of two or more blocks, the first block survives any number of cached turns unchanged. |
| Chat.UncachedTurnsSucceed | aitools/media_tools/text_tools.py:152-218 | With caching off, any number of turns succeed and add two messages each. |
| Chat.OpenAITurnAppends | aitools/media_tools/text_tools.py:155-212 | On the OpenAI transcript, a turn appends the assistant message prefill + reply and a one-block user message. |
| Chat.OpenAITurnsSucceed | aitools/media_tools/text_tools.py:152-218 | On the OpenAI transcript, any number of turns succeed and add two messages each. |
| Chat.StreamClaudeResponse | aitools/third_party_apis/anthropic_tools.py:164-173 | The `stream_claude` dict has the input and output counters, plus both cache counters exactly when caching. |
| Chat.StreamOpenAIResponse | aitools/third_party_apis/openai_tools.py:165-171 | The `stream_openai` dict has only the input and output counters. |
| Chat.OpeningMessages | aitools/media_tools/text_tools.py:131-136 | Given messages are used as they are. With none, the chat opens with `{"text": first input}`. |
| Chat.ClaudeOpening | aitools/media_tools/text_tools.py:146-149 | The Anthropic opening succeeds exactly when both lists format. It is one user message, and a cache window when caching. |
| Chat.OpenAIOpening | aitools/media_tools/text_tools.py:146-149 | The OpenAI opening cannot fail and is one user message. |
| Chat.StartChat | aitools/media_tools/text_tools.py:111-149 | An unknown model is a `KeyError` and an unsupported provider a `ValueError`. After those checks, a failing echo (as written) is the chat's error, raised before anything is formatted; on success the session holds what the echo printed. Caching stays on exactly for Anthropic, and the opening transcript is then a cache window. |
| Chat.BareTextStopsTheChat | aitools/media_tools/text_tools.py:140-144 | As written, a chat with `gpt-4o` opened with the bare string "summarise this text" fails with the echo's `TypeError`. |
| Chat.ConverseSucceeds | aitools/media_tools/text_tools.py:152-218 | Once a chat has opened, every sequence of turns succeeds. |
| Chat.ResponsesPriceable | aitools/media_tools/text_tools.py:166-179 | Every streamed response of a chat can be priced with the chat's model. |
| Chat.ChatCompletes | aitools/media_tools/text_tools.py:95-223 | As written, a chat that opens and receives at least one reply ends without error. Its logged cost is the sum of the per-turn costs. |
| Chat.ChatWithoutRepliesFails | aitools/media_tools/text_tools.py:151-221 | As written, a chat that opens and is ended before its first reply fails on the final log with `KeyError('input_tokens')`. |
| Chat.CorrectedChatCompletes | aitools/media_tools/text_tools.py:95-223 | Corrected (bare strings normalised before the echo, zero cost without replies): once opened, a chat echoes the corrected lines and ends without error after any number of turns, including none. Its logged cost is the sum of the per-turn costs. |
| Chat.ChatCost | aitools/media_tools/text_tools.py:220-221 | Corrected final cost: for a non-empty chat it is the source's pricing of the totals. |
| Chat.EmptyChatCost | aitools/media_tools/text_tools.py:151 | As written, a chat ended before any reply prices `{}` and raises `KeyError('input_tokens')`. Corrected, it costs 0. |
| Chat.Echo | aitools/media_tools/text_tools.py:140-144 | The corrected echo prints at most one line per message. |
| Chat.EchoOfTextMessages | aitools/media_tools/text_tools.py:140-144 | When every message carries text, the corrected echo prints one line per message, in order, each with that message's text. |
| Chat.EchoLineOf | aitools/media_tools/text_tools.py:141-144 | The corrected echo prints a message's text whenever its payload is text. |
| Chat.EchoAsWrittenOnDicts | aitools/media_tools/text_tools.py:140-144 | On dict messages, the echo as written agrees with the corrected echo and never fails. |
| Chat.EchoOfBareStrings | aitools/media_tools/text_tools.py:140-144 | As written, a bare string containing "text" raises a `TypeError`, and the string "image" prints `[Image]`. The corrected echo prints both strings as text. |
| Naming.IncrementFileName | aitools/media_tools/utils.py:24-34 | The result does not exist. An unused path is returned unchanged. Otherwise the result is `root + "_v" + N + ext` for the least `N >= 2` that does not exist. |
| Naming.IncrementIsUnique | utils.py:8-12 | The least-free-version result is unique, so the specification determines the result of all three copies. |
| Naming.VersionedKeepsExtension | media_tools/utils.py:38-41 | A versioned name keeps the extension. Its root is the original root + `_v` + N, never a stacked suffix. |
| Naming.VersionedIsNew | aitools/media_tools/utils.py:32 | A versioned name never equals the original path. |
| Naming.VersionedInjective | aitools/media_tools/utils.py:31-32 | Different versions give different names. |
| Naming.IncrementExample | utils.py:10-12 | When a path and its `_v2` name exist, the result is the `_v3` name built on the original root. |
| Naming.BumpName | create_image.py:19-24 | One step fails exactly on the empty path (`base[-1]` on an empty string). |
| Naming.BumpRaisesRank | create_image.py:20-24 | One step keeps the extension and strictly raises a rank, so the loop terminates on a finite set. |
| Naming.FreeImagePath | create_image.py:17-24 | An unused path is kept. The result does not exist, keeps the extension, and is the first free name on the step chain. The loop can fail only by reaching the empty path. |
| Naming.BumpPastNine | create_image.py:20-21 | `x9.png` becomes `x10.png`. |
| Naming.BumpAppendsOne | create_image.py:22-24 | `img.png` becomes `img1.png`. |
| Naming.FilenamifyCharwise | aitools/media_tools/utils.py:41-42 | `filenamify` works character by character and keeps order: a space becomes `_`, other ASCII punctuation (including `_`) is deleted, and everything else is lower-cased. |
| Naming.FilenamifyShape | aitools/media_tools/utils.py:41-42 | The output is no longer than the input and has no upper-case letter and no space. Its only punctuation is `_`. |
| Naming.UnderscoresCountSpaces | aitools/media_tools/utils.py:41 | The output has exactly as many `_` as the input has spaces. |
| Naming.FilenamifyNotIdempotent | aitools/media_tools/utils.py:41-42 | `"x y"` becomes `"x_y"`, which becomes `"xy"`: applying `filenamify` twice differs from applying it once. |
| Audio.Mp3TargetShape | aitools/media_tools/audio_tools.py:14 | The conversion target ends in `.mp3` and keeps the original root when that root has a name. Converting it again gives the same path. A `.mp3` file is its own target. |
| Audio.TranscriptionSource | aitools/media_tools/audio_tools.py:68-71 | The transcribed file ends in `.mp3`. It is the input exactly when the input ends in `.mp3`, and the conversion target otherwise. |
| Audio.UpperCaseMp3Converted | aitools/media_tools/audio_tools.py:68 | The test is case-sensitive: `x.MP3` is converted to `x.mp3`. |
| Audio.RoundHalfEvenUnique | aitools/media_tools/audio_tools.py:40 | `round` gives the integer within one half, taking the even one at a tie. |
| Audio.RoundHalfEvenTies | aitools/media_tools/audio_tools.py:40 | 0.5 rounds to 0, 1.5 and 2.5 to 2, and 90.4 to 90. |
| Audio.LogTranscriptionCost | aitools/media_tools/audio_tools.py:40-46 | Succeeds exactly for catalog models, else a `KeyError`. `minutes·60 + seconds` is the rounded duration, with `0 <= seconds < 60`. The cost is the printed duration, in minutes, times the catalog's per-minute price. |
| Audio.DurationSplitUnique | aitools/media_tools/audio_tools.py:45-46 | The split is the only one with seconds in `[0, 60)`. |
| Audio.TranscriptionCostIsPerMinute | aitools/media_tools/audio_tools.py:41-43 | Whole minutes cost that many times the per-minute price, and under half a second costs nothing. |
| Audio.WhisperExample | aitools/media_tools/audio_tools.py:40-50 | With `whisper-1`, 90.4 seconds gives `1m 30s` and a cost of 0.0009. |
| Audio.TranscriptionCostNonNegative | aitools/media_tools/audio_tools.py:43 | A non-negative duration never costs a negative amount. |
| Vision.SubstituteItem | openai_llms.py:37-38 | An `image_url` item gets the new URL and keeps its other fields. Every other item is unchanged. A missing `type`, or a missing `image_url` dict on an image item, is a `KeyError`. |
| Vision.SubstituteItemsSpec | openai_llms.py:36-38 | The inner loop succeeds exactly on well-formed items. It keeps their number and order and updates exactly the `image_url` items. |
| Vision.SubstituteMessageSpec | openai_llms.py:35-38 | One message succeeds exactly when it is well-formed. Non-user messages are untouched, even with image items. |
| Vision.InsertImageSpec | openai_llms.py:34-38 | The substitution succeeds exactly when every message is well-formed. It keeps the number, order and roles of the messages, leaves non-user messages alone, and updates exactly the `image_url` items of user messages. |
| Vision.AllImagesShareTheUrl | openai_llms.py:22-38 | Every image item of every user message gets the same `data:image/jpeg;base64,` URL, however many there are, although the docstring allows one. |
| Vision.InsertImageIdempotent | openai_llms.py:34-38 | Running the substitution twice gives the same result as running it once. |
| Vision.SubstituteItemsIdempotent | openai_llms.py:36-38 | The inner loop is idempotent. |
| Vision.StringContentRejected | openai_llms.py:36-37 | A user message whose content is a non-empty string raises a `TypeError` on its first character. |

## Left out

- SDK and HTTP calls (`prompt_*` request bodies, `stream_*`, `generate_image_via_*`, `transcribe_via_openai`, the `requests.post` of `ask_gpt4v`) are foreign calls. Their replies and token counts are parameters (`Reply`, `StreamReply`, `TurnInput`).
- Environment checks and client construction at import time are configuration I/O.
- `encode_image` reads a file. It is the function parameter `encode`.
- `os.path.exists` becomes membership in a finite set of paths. The set may contain paths that no file system could hold.
- Naming.FreeImagePath: the empty path counts as existing only when the set says so. A real file system never reports `""` as existing, so the failure case cannot happen there.
- `convert_to_mp3`'s overwrite prompt and the `ffmpeg` subprocess are console and process I/O. Only the target path is modelled.
- `print`, `input`, `tabulate`, `log_time`, `countdown` and `time.sleep` are console and timing output. The user's lines are parameters.
- Chat: a chat ends only after a whole turn. The program's usual end, Ctrl-C at the `input("User: ")` prompt (text_tools.py:204), comes after the reply has been appended and its usage added, but before the user message. The model's final transcript then has one user message more than the program's. `chat_with_llm` never returns that transcript, and the logged cost is the same. An interrupt while reply k+1 streams (or at the `Assistant: ` print) leaves the usage of k replies, so it logs the same cost as the model's chat of k turns. With k = 0 this is `Chat.ChatWithoutRepliesFails`. The one thing such an interrupt leaves that the model lacks is a prefill assistant message already appended to the transcript. It is not modelled, and the program never returns that transcript either.
- Usage and Audio: float arithmetic and the `:.5f` formatting are modelled as exact `real` arithmetic. Rounding errors are not modelled.
- Audio.LogTranscriptionCost: the duration is an exact real rounded half to even. A float argument is not modelled.
- Naming.FilenamifyShape, Naming.FilenamifyCharwise: `str.lower` and `string.punctuation` are modelled for ASCII only. Unicode case mapping is not.
- Messages.ImageMediaType: the extension is lower-cased for ASCII only. Acceptance is unaffected, since no non-ASCII extension lowers to a whitelisted one, but the extension carried by the rejection can differ (`.PNÉ` carries `pnÉ` where Python gives `pné`).
- Chat.TurnsKeepWindow: the window only speaks of each message's last block. A marker that a `cache` key of the opening list puts on an earlier block is never removed, so the whole transcript then has more than two markers (Chat.OpeningCacheKeyMarkerStays). The two-marker bound is proved only without such keys (Chat.CachedChatMarksTwoBlocks).
- Naming.BumpName: `str.isdigit` is modelled for the ASCII digits only. Other Unicode digits are not.
- Vision: only the keys the loop reads are modelled. A content item that is not a dict, or an `image_url` value that is not a dict, is not modelled.
- Vision: `ask_gpt4v` rewrites the caller's dicts in place; the model treats messages as values and returns a new list or an error. Two consequences are not modelled. When the loop fails partway, the `image_url` items it already rewrote stay rewritten in the caller's list, while `InsertImage` returns only the error. A dict shared between messages (the same item or `image_url` dict in a user and an assistant message) is rewritten through every reference, so a non-user message can change too; the model assumes no dict is shared.
- `translate` in `aitools/media_tools/text_tools.py` is a call of `prompt_llm` with fixed arguments. It adds nothing to the model of `prompt_llm`.
- Templates, scripts (`debug_ui.py`, `read.py`, `read_handwriting.py`, `listen.py`), thin legacy wrappers, `image_tools.py`, `recraft_tools.py` and `setup.py` are not part of this model. They only call into the core or into SDKs.

## Findings

| source | as written | input that shows it | evidently intended | confidence | as-written member | corrected member |
|---|---|---|---|---|---|---|
| aitools/third_party_apis/openai_tools.py:111 | A string `system_prompt`, including the default, is passed to `format_openai_messages` unwrapped. The loop then iterates its characters, one text block each. | `prompt_openai(msgs)` with the default prompt gives 28 one-character system blocks | Wrap a string in a list first, as `prompt_claude` does at anthropic_tools.py:116-117, giving one system text block | not executed | OpenAIFormat.SystemPromptSplitIntoCharacters | OpenAIFormat.SystemPromptIsOneBlock |
| aitools/media_tools/text_tools.py:221 | `usage` starts as `{}` (line 151). `log_token_usage(usage, model)` reads `usage['input_tokens']`. | a chat ended with Ctrl-C before the first reply raises `KeyError: 'input_tokens'` at exit | An empty chat logs zero usage and zero cost | not executed | Chat.ChatWithoutRepliesFails | Chat.CorrectedChatCompletes |
| aitools/media_tools/text_tools.py:140-144 | The echo tests `'text' in m` on the raw message. For a bare string this is a substring test, and `m['text']` then indexes a `str`. | `chat_with_llm(["summarise this text"])` raises `TypeError`; `chat_with_llm(["image"])` prints `User: [Image]` | Echo the normalised message, as every formatter treats a bare string as `{"text": s}` | not executed | Chat.BareTextStopsTheChat | Chat.CorrectedChatCompletes |

=== FILE: audio.dfy ===
/** The path and cost logic of `aitools/media_tools/audio_tools.py`: the mp3
    conversion target, the choice of the file to transcribe, and the
    duration split and cost of `log_transcription_cost`. */
module Audio {
  import opened Results
  import opened Text
  import opened Paths
  import opened Catalog

  /** `os.path.splitext(filepath)[0] + ".mp3"`, the file `convert_to_mp3` writes. */
  function Mp3Target(p: string): string {
    SplitExt(p).0 + ".mp3"
  }

  lemma Mp3IsExtension()
    ensures IsExtension(".mp3")
  {
  }

  /** The target always ends in `.mp3`; when the original root has a stem it
      is the target's root, so converting the target again gives the same
      path, and a path that already has the `.mp3` extension is its own target. */
  lemma Mp3TargetShape(p: string)
    ensures EndsWith(Mp3Target(p), ".mp3")
    ensures HasStem(SplitExt(p).0) ==> SplitExt(Mp3Target(p)) == (SplitExt(p).0, ".mp3")
    ensures HasStem(SplitExt(p).0) ==> Mp3Target(Mp3Target(p)) == Mp3Target(p)
    ensures SplitExt(p).1 == ".mp3" ==> Mp3Target(p) == p
  {
    var t := Mp3Target(p);
    assert t[|t| - 4..] == ".mp3";
    SplitExtShape(p);
    if HasStem(SplitExt(p).0) {
      Mp3IsExtension();
      SplitExtJoin(SplitExt(p).0, ".mp3");
    }
  }

  /** The file `transcribe` sends: a path ending in `.mp3` as is (the test is
      case-sensitive), any other path converted first. */
  function TranscriptionSource(p: string): (r: string)
    ensures EndsWith(r, ".mp3")
    ensures r == p <==> EndsWith(p, ".mp3")
    ensures !EndsWith(p, ".mp3") ==> r == Mp3Target(p)
  {
    Mp3TargetShape(p);
    if EndsWith(p, ".mp3") then p else Mp3Target(p)
  }

  /** An upper-case `.MP3` file is not recognised and is converted to a
      lower-case `.mp3` sibling. */
  lemma UpperCaseMp3Converted(root: string)
    requires HasStem(root)
    ensures TranscriptionSource(root + ".MP3") == root + ".mp3"
  {
    var p := root + ".MP3";
    assert p[|p| - 4..] == ".MP3";
    assert IsExtension(".MP3");
    SplitExtJoin(root, ".MP3");
  }

  // ---------------------------------------------------------------------------
  // `log_transcription_cost`

  /** Python's `round(x)` for a float: the nearest integer, ties to even. */
  function RoundHalfEven(x: real): (n: int)
    ensures -0.5 <= x - n as real <= 0.5
  {
    var f := x.Floor;
    var d := x - f as real;
    if d < 0.5 then f else if d > 0.5 then f + 1 else if f % 2 == 0 then f else f + 1
  }

  /** Rounding is determined by its two rules: an integer within one half of
      `x`, and an even one when `x` lies exactly halfway. */
  lemma RoundHalfEvenUnique(x: real, n: int)
    requires -0.5 <= x - n as real <= 0.5
    requires x - n as real == 0.5 || x - n as real == -0.5 ==> n % 2 == 0
    ensures RoundHalfEven(x) == n
  {
    var f := x.Floor;
    var r := RoundHalfEven(x);
    assert f as real <= x < f as real + 1.0;
    if x - f as real == 0.5 {
      assert n == f || n == f + 1;
      assert (f + 1) % 2 == 0 <==> f % 2 != 0;
    }
  }

  /** Ties go to the even neighbour: 0.5 to 0, 1.5 and 2.5 to 2. */
  lemma RoundHalfEvenTies()
    ensures RoundHalfEven(0.5) == 0 && RoundHalfEven(1.5) == 2 && RoundHalfEven(2.5) == 2
    ensures RoundHalfEven(90.4) == 90
  {
    RoundHalfEvenUnique(0.5, 0);
    RoundHalfEvenUnique(1.5, 2);
    RoundHalfEvenUnique(2.5, 2);
    RoundHalfEvenUnique(90.4, 90);
  }

  /** The two lines `log_transcription_cost` prints. */
  datatype TranscriptionLog = TranscriptionLog(minutes: int, seconds: int, cost: real)

  /** `log_transcription_cost(duration, model)`: the duration rounded to
      whole seconds, split with floor division (which equals Dafny's
      division for the positive divisor 60), and priced per minute, so the
      printed cost is the printed duration at the catalog rate. An unknown
      model is a `KeyError`. */
  function LogTranscriptionCost(duration: real, model: string): (r: Result<TranscriptionLog>)
    ensures r.Ok? <==> model in AllSpeechRec
    ensures r.Err? ==> r.error == UnknownModel(model)
    ensures r.Ok? ==> r.value.minutes * 60 + r.value.seconds == RoundHalfEven(duration)
    ensures r.Ok? ==> 0 <= r.value.seconds < 60
    ensures r.Ok? ==> r.value.cost
                      == (r.value.minutes as real + r.value.seconds as real / 60.0) * AllSpeechRec[model].costPerMin
  {
    if model !in AllSpeechRec then Err(UnknownModel(model))
    else
      var durationSec := RoundHalfEven(duration);
      var cost := durationSec as real / 60.0 * AllSpeechRec[model].costPerMin;
      Ok(TranscriptionLog(durationSec / 60, durationSec % 60, cost))
  }

  /** The split is the only one with seconds in `[0, 60)`. */
  lemma DurationSplitUnique(total: int, minutes: int, seconds: int)
    requires minutes * 60 + seconds == total && 0 <= seconds < 60
    requires LogTranscriptionCost(total as real, "whisper-1").Ok?
    ensures LogTranscriptionCost(total as real, "whisper-1").value.minutes == minutes
    ensures LogTranscriptionCost(total as real, "whisper-1").value.seconds == seconds
  {
    RoundHalfEvenUnique(total as real, total);
    var r := LogTranscriptionCost(total as real, "whisper-1").value;
    assert (r.minutes - minutes) * 60 == seconds - r.seconds;
  }

  /** The cost is linear in the rounded duration: a whole number of minutes
      costs that many times the catalog's per-minute price, and nothing is
      charged below half a second. */
  lemma TranscriptionCostIsPerMinute(model: string, minutes: int)
    requires model in AllSpeechRec
    ensures LogTranscriptionCost((minutes * 60) as real, model).value.cost
         == minutes as real * AllSpeechRec[model].costPerMin
    ensures LogTranscriptionCost(0.4, model).value.cost == 0.0
  {
    RoundHalfEvenUnique((minutes * 60) as real, minutes * 60);
    RoundHalfEvenUnique(0.4, 0);
  }

  /** With `whisper-1`, 90.4 seconds print as `1m 30s` and cost $0.0009. */
  lemma WhisperExample()
    ensures LogTranscriptionCost(90.4, "whisper-1") == Ok(TranscriptionLog(1, 30, 0.0009))
  {
    SpeechRecProvenance();
    RoundHalfEvenUnique(90.4, 90);
  }

  /** Costs are never negative for non-negative durations. */
  lemma TranscriptionCostNonNegative(duration: real, model: string)
    requires duration >= 0.0 && model in AllSpeechRec
    ensures LogTranscriptionCost(duration, model).value.cost >= 0.0
  {
    SpeechRecProvenance();
  }
}

=== FILE: catalog.dfy ===
/** The static model catalog of `aitools/third_party_apis/models.py`: one table
    per provider, merged into `ALL_LLMS`, `ALL_IMAGE_GENERATORS` and
    `ALL_SPEECH_REC` with a `provider` tag and the provider's `max_temp`. */
module Catalog {
  import opened Results

  datatype Provider = OpenAI | Anthropic | Google | Recraft {
    /** The `provider` string stored in the catalog. */
    function Name(): string {
      match this
      case OpenAI => "openai"
      case Anthropic => "anthropic"
      case Google => "google"
      case Recraft => "recraft"
    }
  }

  /** One LLM table entry. Prices are dollars per million tokens; a cache
      price the table does not list is `None`. */
  datatype ModelData = ModelData(
    inputLimit: int,
    outputLimit: int,
    inputCostPerM: real,
    outputCostPerM: real,
    cacheWriteCostPerM: Option<real>,
    cacheReadCostPerM: Option<real>)

  /** An `ALL_LLMS` entry: the table entry plus `provider` and `max_temp`. */
  datatype LlmEntry = LlmEntry(data: ModelData, provider: Provider, maxTemp: real)

  datatype ImageGenerator = ImageGenerator(sizes: seq<string>, provider: Provider)

  datatype SpeechRecognizer = SpeechRecognizer(costPerMin: real, provider: Provider)

  // The model-name literal types.
  const OpenaiLlmNames: seq<string> := ["gpt-4o", "gpt-4o-mini", "o1-mini", "gpt-3.5-turbo"]
  const OpenaiImageGeneratorNames: seq<string> := ["dall-e-2", "dall-e-3"]
  const OpenaiSpeechRecNames: seq<string> := ["whisper-1"]
  const OpenaiImageSizes: seq<string> := ["256x256", "512x512", "1024x1024", "1792x1024", "1024x1792"]
  const AnthropicLlmNames: seq<string> := ["claude-3-5-sonnet-20241022", "claude-3-5-sonnet-20240620", "claude-3-haiku-20240307"]
  const GoogleLlmNames: seq<string> := ["gemini-1.5-flash", "gemini-1.5-flash-8b", "gemini-1.5-pro"]
  const RecraftImageGeneratorNames: seq<string> := ["recraft"]
  const RecraftImageSizes: seq<string> := [
    "1024x1024", "1365x1024", "1024x1365", "1536x1024", "1024x1536", "1820x1024", "1024x1820", "1024x2048",
    "2048x1024", "1434x1024", "1024x1434", "1024x1280", "1280x1024", "1024x1707", "1707x1024"]
  /** `LLMsList = AnthropicLLMs | OpenaiLLMs | GoogleLLMs` */
  const LlmNames: seq<string> := AnthropicLlmNames + OpenaiLlmNames + GoogleLlmNames

  const OpenaiMaxTemp: real := 2.0
  const AnthropicMaxTemp: real := 1.0
  const GoogleMaxTemp: real := 2.0

  const OpenaiLlms: map<string, ModelData> := map[
    "gpt-4o" := ModelData(128000, 16384, 2.50, 10.0, None, Some(1.25)),
    "gpt-4o-mini" := ModelData(128000, 16384, 0.15, 0.60, None, Some(0.075)),
    "o1-mini" := ModelData(128000, 65536, 3.00, 12.00, None, Some(1.50)),
    "gpt-3.5-turbo" := ModelData(16385, 4096, 0.50, 1.50, None, None)
  ]

  const AnthropicLlms: map<string, ModelData> := map[
    "claude-3-5-sonnet-20241022" := ModelData(200000, 8192, 3.0, 15.0, Some(3.75), Some(0.3)),
    "claude-3-5-sonnet-20240620" := ModelData(200000, 8192, 3.0, 15.0, Some(3.75), Some(0.3)),
    "claude-3-haiku-20240307" := ModelData(200000, 4096, 0.25, 1.25, Some(0.3), Some(0.03))
  ]

  const GoogleLlms: map<string, ModelData> := map[
    "gemini-1.5-flash" := ModelData(1048576, 8192, 0.075, 0.30, None, None),
    "gemini-1.5-flash-8b" := ModelData(1048576, 8192, 0.0375, 0.15, None, None),
    "gemini-1.5-pro" := ModelData(2097152, 8192, 1.25, 5.0, None, None)
  ]

  const OpenaiImageGenerators: map<string, seq<string>> := map[
    "dall-e-2" := ["256x256", "512x512", "1024x1024"],
    "dall-e-3" := ["1024x1024", "1792x1024", "1024x1792"]
  ]

  const RecraftImageGenerators: map<string, seq<string>> := map["recraft" := RecraftImageSizes]

  const OpenaiSpeechRec: map<string, real> := map["whisper-1" := 0.0006]

  /** One merge loop: `{**model_data, "provider": p, **INFO}` for every entry. */
  function Tag(table: map<string, ModelData>, provider: Provider, maxTemp: real): (r: map<string, LlmEntry>)
    ensures r.Keys == table.Keys
    ensures forall k :: k in table ==> r[k] == LlmEntry(table[k], provider, maxTemp)
  {
    map k | k in table :: LlmEntry(table[k], provider, maxTemp)
  }

  /** `ALL_LLMS`: the three loops in order; a later loop would overwrite an
      earlier key, as Dafny's right-biased `+` does. */
  const AllLlms: map<string, LlmEntry> :=
    Tag(OpenaiLlms, OpenAI, OpenaiMaxTemp) + Tag(AnthropicLlms, Anthropic, AnthropicMaxTemp) + Tag(GoogleLlms, Google, GoogleMaxTemp)

  function TagGenerators(table: map<string, seq<string>>, provider: Provider): (r: map<string, ImageGenerator>)
    ensures r.Keys == table.Keys
    ensures forall k :: k in table ==> r[k] == ImageGenerator(table[k], provider)
  {
    map k | k in table :: ImageGenerator(table[k], provider)
  }

  /** `ALL_IMAGE_GENERATORS` */
  const AllImageGenerators: map<string, ImageGenerator> :=
    TagGenerators(OpenaiImageGenerators, OpenAI) + TagGenerators(RecraftImageGenerators, Recraft)

  /** `ALL_SPEECH_REC` */
  const AllSpeechRec: map<string, SpeechRecognizer> :=
    map k | k in OpenaiSpeechRec :: SpeechRecognizer(OpenaiSpeechRec[k], OpenAI)

  /** `ALL_LLMS[model]`, whose `KeyError` is an unknown model. */
  function LookupLlm(model: string): (r: Result<LlmEntry>)
    ensures r.Ok? <==> model in AllLlms
    ensures r.Ok? ==> r.value == AllLlms[model]
    ensures r.Err? ==> r.error == UnknownModel(model)
  {
    if model in AllLlms then Ok(AllLlms[model]) else Err(UnknownModel(model))
  }

  // ---------------------------------------------------------------------------
  // Properties

  /** The provider tables share no model name, so no merge overwrites an entry. */
  lemma TablesDisjoint()
    ensures OpenaiLlms.Keys !! AnthropicLlms.Keys
    ensures OpenaiLlms.Keys !! GoogleLlms.Keys
    ensures AnthropicLlms.Keys !! GoogleLlms.Keys
  {
  }

  /** The keys of `ALL_LLMS` are exactly the union of the three tables, and
      each entry is its table's entry, unchanged, tagged with that table's
      provider and `max_temp`. */
  lemma AllLlmsProvenance()
    ensures AllLlms.Keys == OpenaiLlms.Keys + AnthropicLlms.Keys + GoogleLlms.Keys
    ensures forall k :: k in OpenaiLlms ==> AllLlms[k] == LlmEntry(OpenaiLlms[k], OpenAI, 2.0)
    ensures forall k :: k in AnthropicLlms ==> AllLlms[k] == LlmEntry(AnthropicLlms[k], Anthropic, 1.0)
    ensures forall k :: k in GoogleLlms ==> AllLlms[k] == LlmEntry(GoogleLlms[k], Google, 2.0)
  {
    TablesDisjoint();
  }

  /** `max_temp` is 1 for Anthropic models and 2 for every other model. */
  lemma MaxTempByProvider(model: string)
    requires model in AllLlms
    ensures AllLlms[model].provider in {OpenAI, Anthropic, Google}
    ensures AllLlms[model].maxTemp == if AllLlms[model].provider == Anthropic then 1.0 else 2.0
  {
    AllLlmsProvenance();
  }

  /** Only Anthropic entries list a cache-write price; the entries without a
      cache-read price are `gpt-3.5-turbo` and the Google models. */
  lemma CachePrices(model: string)
    requires model in AllLlms
    ensures AllLlms[model].data.cacheWriteCostPerM.Some? <==> AllLlms[model].provider == Anthropic
    ensures AllLlms[model].data.cacheReadCostPerM.None? <==>
      (model == "gpt-3.5-turbo" || AllLlms[model].provider == Google)
  {
    AllLlmsProvenance();
  }

  /** Every price in the catalog is positive. */
  lemma PricesPositive(model: string)
    requires model in AllLlms
    ensures AllLlms[model].data.inputCostPerM > 0.0 && AllLlms[model].data.outputCostPerM > 0.0
    ensures AllLlms[model].data.cacheWriteCostPerM.GetOr(0.0) >= 0.0
    ensures AllLlms[model].data.cacheReadCostPerM.GetOr(0.0) >= 0.0
  {
    AllLlmsProvenance();
  }

  /** The catalog and the `LLMsList` literal name the same models, and each
      provider's table matches its own literal. */
  lemma LlmNamesMatchCatalog()
    ensures forall k :: k in OpenaiLlms <==> k in OpenaiLlmNames
    ensures forall k :: k in AnthropicLlms <==> k in AnthropicLlmNames
    ensures forall k :: k in GoogleLlms <==> k in GoogleLlmNames
    ensures forall k :: k in AllLlms <==> k in LlmNames
  {
    AllLlmsProvenance();
  }

  /** `dall-e-2` and `dall-e-3` are OpenAI generators and `recraft` a Recraft
      one, each with its size list unchanged and drawn from its size literal. */
  lemma ImageGeneratorsProvenance()
    ensures AllImageGenerators.Keys == {"dall-e-2", "dall-e-3", "recraft"}
    ensures forall k :: k in OpenaiImageGenerators ==>
      AllImageGenerators[k] == ImageGenerator(OpenaiImageGenerators[k], OpenAI)
    ensures AllImageGenerators["recraft"] == ImageGenerator(RecraftImageSizes, Recraft)
    ensures forall k, s :: k in OpenaiImageGenerators && s in OpenaiImageGenerators[k] ==> s in OpenaiImageSizes
    ensures forall k :: k in AllImageGenerators <==> k in OpenaiImageGeneratorNames + RecraftImageGeneratorNames
  {
  }

  /** `whisper-1` is the one speech recogniser, an OpenAI model at $0.0006 a minute. */
  lemma SpeechRecProvenance()
    ensures AllSpeechRec == map["whisper-1" := SpeechRecognizer(0.0006, OpenAI)]
    ensures forall k :: k in AllSpeechRec <==> k in OpenaiSpeechRecNames
  {
  }
}

=== FILE: chat.dfy ===
/** `chat_with_llm`: the opening of a chat, the turn step on the formatted
    transcript, the sliding window of cache markers it keeps, and the usage
    totals it prices when the chat ends. Console input and the streamed
    replies are parameters; the chat is a finite sequence of turns. */
module Chat {
  import opened Results
  import opened Text
  import opened Messages
  import opened Catalog
  import opened Usage
  import opened ClaudeFormat
  import OF = OpenAIFormat
  import opened Dispatch

  // ---------------------------------------------------------------------------
  // The opening echo

  /** What the echo loop prints for one message: its text, or an image note. */
  datatype EchoLine = EchoText(text: string) | EchoImage

  /** One pass of the echo loop as written. For a bare string, `'text' in m`
      is a substring test, and a string containing "text" is then indexed
      with `m['text']`, which raises a `TypeError`. */
  function EchoLineAsWritten(m: Message): Result<seq<EchoLine>>
  {
    match m
    case Bare(s) =>
      if Contains(s, "text") then Err(KeyOnString("text"))
      else if Contains(s, "image") then Ok([EchoImage])
      else Ok([])
    case Fields(text, _, image, _) =>
      if text.Some? then Ok([EchoText(text.value)])
      else if image.Some? then Ok([EchoImage])
      else Ok([])
  }

  /** The echo loop as written. */
  function EchoAsWritten(ms: seq<Message>): Result<seq<EchoLine>>
  {
    if ms == [] then Ok([])
    else
      var prev :- EchoAsWritten(ms[..|ms| - 1]);
      var own :- EchoLineAsWritten(ms[|ms| - 1]);
      Ok(prev + own)
  }

  /** The line the echo loop evidently means to print: that of the
      normalised message, as every formatter treats a bare string. */
  function EchoLineOf(m: Message): (r: seq<EchoLine>)
    ensures PayloadOf(m).TextPayload? ==> r == [EchoText(PayloadOf(m).text)]
    ensures |r| <= 1
  {
    var n := Normalize(m);
    if n.text.Some? then [EchoText(n.text.value)]
    else if n.image.Some? then [EchoImage]
    else []
  }

  /** The echo loop, corrected: it never fails. */
  function Echo(ms: seq<Message>): (r: seq<EchoLine>)
    ensures |r| <= |ms|
  {
    if ms == [] then [] else Echo(ms[..|ms| - 1]) + EchoLineOf(ms[|ms| - 1])
  }

  /** When every message carries text, the echo prints one line per message,
      in order, each the message's text. */
  lemma {:induction false} EchoOfTextMessages(ms: seq<Message>)
    requires forall i :: 0 <= i < |ms| ==> PayloadOf(ms[i]).TextPayload?
    ensures |Echo(ms)| == |ms|
    ensures forall i :: 0 <= i < |ms| ==> Echo(ms)[i] == EchoText(PayloadOf(ms[i]).text)
  {
    if ms != [] {
      var init := ms[..|ms| - 1];
      assert forall i :: 0 <= i < |init| ==> init[i] == ms[i];
      EchoOfTextMessages(init);
    }
  }

  /** On dict messages the echo as written is the corrected one; so is it on
      any list once its bare strings are normalised. */
  lemma {:induction false} EchoAsWrittenOnDicts(ms: seq<Message>)
    ensures EchoAsWritten(NormalizeAll(ms)) == Ok(Echo(ms))
  {
    if ms != [] {
      assert NormalizeAll(ms)[..|ms| - 1] == NormalizeAll(ms[..|ms| - 1]);
      EchoAsWrittenOnDicts(ms[..|ms| - 1]);
    }
  }

  /** As written, a bare string mentioning "text" crashes the echo, and one
      mentioning "image" is echoed as an image; corrected, both are echoed
      as their text. */
  lemma EchoOfBareStrings()
    ensures EchoAsWritten([Bare("summarise this text")]) == Err(KeyOnString("text"))
    ensures EchoAsWritten([Bare("image")]) == Ok([EchoImage])
    ensures Echo([Bare("summarise this text")]) == [EchoText("summarise this text")]
    ensures Echo([Bare("image")]) == [EchoText("image")]
  {
    var a := [Bare("summarise this text")];
    assert a[..0] == [];
    assert OccursAt("summarise this text", "text", 15);
    var b := [Bare("image")];
    assert b[..0] == [];
    assert "image"[..4][0] != "text"[0];
    assert "image"[1..] == "mage";
    assert "mage"[..4][0] != "text"[0];
    assert "mage"[1..] == "age";
    assert !Contains("age", "text");
    assert !Contains("mage", "text");
    assert !Contains("image", "text");
    assert OccursAt("image", "image", 0);
    assert [] + [EchoImage] == [EchoImage];
  }

  // ---------------------------------------------------------------------------
  // The Anthropic transcript and its turn step

  /** `content[-1]` exists and carries `cache_control`. */
  predicate LastCached(m: Msg) {
    |m.content| > 0 && m.content[|m.content| - 1].cached
  }

  /** `del formatted_messages[i]['content'][-1]['cache_control']`: an empty
      content is an `IndexError`, an unmarked last block a `KeyError`. */
  function DropMarker(conv: seq<Msg>, i: int): (r: Result<seq<Msg>>)
    requires 0 <= i < |conv|
    ensures r.Ok? <==> LastCached(conv[i])
    ensures conv[i].content == [] ==> r == Err(IndexOutOfRange)
    ensures conv[i].content != [] && !LastCached(conv[i]) ==> r == Err(MissingKey("cache_control"))
    ensures r.Ok? ==> |r.value| == |conv| && !LastCached(r.value[i])
    ensures r.Ok? ==> r.value[i].role == conv[i].role && Erase(r.value[i].content) == Erase(conv[i].content)
    ensures r.Ok? ==> r.value[i].content[..|conv[i].content| - 1] == conv[i].content[..|conv[i].content| - 1]
    ensures r.Ok? ==> forall j :: 0 <= j < |conv| && j != i ==> r.value[j] == conv[j]
  {
    var m := conv[i];
    if m.content == [] then Err(IndexOutOfRange)
    else
      var n := |m.content|;
      if !m.content[n - 1].cached then Err(MissingKey("cache_control"))
      else
        var content := m.content[..n - 1] + [Uncached(m.content[n - 1])];
        assert Erase(content) == Erase(m.content) by {
          assert forall k :: 0 <= k < n ==> Erase(content)[k] == Erase(m.content)[k];
        }
        Ok(conv[i := Msg(m.role, content)])
  }

  /** `if cache and len(formatted_messages) >= back: del ...[-back]...` */
  function Prune(conv: seq<Msg>, cache: bool, back: nat): Result<seq<Msg>>
    requires back > 0
  {
    if cache && |conv| >= back then DropMarker(conv, |conv| - back) else Ok(conv)
  }

  /** `formatted_messages[-1]['content'][-1]['text'] += text` */
  function ExtendLastText(conv: seq<Msg>, text: string): (r: Result<seq<Msg>>)
    ensures r.Ok? <==> |conv| > 0 && |conv[|conv| - 1].content| > 0
                       && conv[|conv| - 1].content[|conv[|conv| - 1].content| - 1].TextBlock?
    ensures r.Ok? ==> |r.value| == |conv| && r.value[..|conv| - 1] == conv[..|conv| - 1]
  {
    if conv == [] then Err(IndexOutOfRange)
    else
      var m := conv[|conv| - 1];
      if m.content == [] then Err(IndexOutOfRange)
      else
        var n := |m.content|;
        match m.content[n - 1]
        case TextBlock(t, cached) =>
          Ok(conv[..|conv| - 1] + [Msg(m.role, m.content[..n - 1] + [TextBlock(t + text, cached)])])
        case ImageBlock(_, _, _) => Err(MissingKey("text"))
  }

  /** The assistant message a turn appends, and the prefill message before the reply. */
  function AssistantMsg(text: string): Msg {
    Msg(Assistant, [TextBlock(text, false)])
  }

  /** The user message a turn appends; its block is marked when caching is on. */
  function UserMsg(text: string, cache: bool): Msg {
    Msg(User, [TextBlock(text, cache)])
  }

  /** The first half of a turn: with a prefill, the prefill message is
      appended, the old marker removed and the reply added to the prefill's
      text; without one, the old marker is removed and the reply appended. */
  function Answered(conv: seq<Msg>, prefill: string, cache: bool, reply: string): Result<seq<Msg>>
  {
    if prefill != "" then
      var pruned :- Prune(conv + [AssistantMsg(prefill)], cache, 4);
      ExtendLastText(pruned, reply)
    else
      var pruned :- Prune(conv, cache, 3);
      Ok(pruned + [AssistantMsg(reply)])
  }

  /** One turn of the chat loop on the Anthropic transcript, with the
      streamed reply and the next user input passed in. */
  function ClaudeTurn(conv: seq<Msg>, prefill: string, cache: bool, reply: string, userText: string)
    : Result<seq<Msg>>
  {
    var answered :- Answered(conv, prefill, cache, reply);
    Ok(answered + [UserMsg(userText, cache)])
  }

  /** The window `chat_with_llm` keeps with caching on: user and assistant
      messages alternate, starting and ending with a user message, and a
      message's last block is marked exactly when the message is one of the
      two newest user messages. */
  predicate CacheWindow(conv: seq<Msg>) {
    && |conv| % 2 == 1
    && (forall i :: 0 <= i < |conv| ==> conv[i].role == if i % 2 == 0 then User else Assistant)
    && (forall i :: 0 <= i < |conv| ==> (LastCached(conv[i]) <==> i % 2 == 0 && i + 3 >= |conv|))
  }

  /** The indices of the messages whose last block is marked. */
  function MarkedMessages(conv: seq<Msg>): set<int> {
    set i | 0 <= i < |conv| && LastCached(conv[i])
  }

  // ---------------------------------------------------------------------------
  // Properties of the turn

  /** Removing a marker from a transcript with one more message at the end
      removes it from the same place. */
  lemma DropMarkerAppend(conv: seq<Msg>, m: Msg, i: int)
    requires 0 <= i < |conv|
    ensures DropMarker(conv + [m], i)
         == if DropMarker(conv, i).Ok? then Ok(DropMarker(conv, i).value + [m]) else DropMarker(conv, i)
  {
    assert (conv + [m])[i] == conv[i];
    if DropMarker(conv, i).Ok? {
      var n := |conv[i].content|;
      var content := conv[i].content[..n - 1] + [Uncached(conv[i].content[n - 1])];
      assert (conv + [m])[i := Msg(conv[i].role, content)] == conv[i := Msg(conv[i].role, content)] + [m];
    }
  }

  /** Adding the reply to a freshly appended prefill message. */
  lemma ExtendPrefill(v: seq<Msg>, prefill: string, reply: string)
    ensures ExtendLastText(v + [AssistantMsg(prefill)], reply) == Ok(v + [AssistantMsg(prefill + reply)])
  {
    var conv := v + [AssistantMsg(prefill)];
    assert conv[..|conv| - 1] == v;
    assert conv[|conv| - 1] == AssistantMsg(prefill);
    assert [TextBlock(prefill, false)][..0] + [TextBlock(prefill + reply, false)] == [TextBlock(prefill + reply, false)];
  }

  /** With a prefill, the reply half of a turn is that of a turn without
      one whose reply is the prefill followed by the streamed text: the `-4`
      delete after appending the prefill hits the message the `-3` delete
      hits without it. */
  lemma AnsweredPrefill(conv: seq<Msg>, prefill: string, cache: bool, reply: string)
    requires prefill != ""
    ensures Answered(conv, prefill, cache, reply) == Answered(conv, "", cache, prefill + reply)
  {
    var a := AssistantMsg(prefill);
    if cache && |conv| >= 3 {
      DropMarkerAppend(conv, a, |conv| - 3);
      if DropMarker(conv, |conv| - 3).Ok? {
        ExtendPrefill(DropMarker(conv, |conv| - 3).value, prefill, reply);
      }
    } else {
      ExtendPrefill(conv, prefill, reply);
    }
  }

  /** With a prefill, the turn is the turn without one whose reply is the
      prefill followed by the streamed text. */
  lemma PrefillAsReply(conv: seq<Msg>, prefill: string, cache: bool, reply: string, userText: string)
    requires prefill != ""
    ensures ClaudeTurn(conv, prefill, cache, reply, userText) == ClaudeTurn(conv, "", cache, prefill + reply, userText)
  {
    AnsweredPrefill(conv, prefill, cache, reply);
  }

  /** A successful turn appends exactly an assistant message holding the
      prefill and the reply and a one-block user message marked exactly when
      caching is on; earlier messages keep their roles and, markers aside,
      their blocks. */
  lemma TurnShape(conv: seq<Msg>, prefill: string, cache: bool, reply: string, userText: string)
    requires ClaudeTurn(conv, prefill, cache, reply, userText).Ok?
    ensures var r := ClaudeTurn(conv, prefill, cache, reply, userText).value;
      && |r| == |conv| + 2
      && r[|conv|] == AssistantMsg(prefill + reply)
      && r[|conv| + 1] == UserMsg(userText, cache)
      && (forall i :: 0 <= i < |conv| ==> r[i].role == conv[i].role && Erase(r[i].content) == Erase(conv[i].content))
  {
    if prefill != "" {
      AnsweredPrefill(conv, prefill, cache, reply);
    } else {
      assert prefill + reply == reply;
    }
    var v := Prune(conv, cache, 3).value;
    assert Answered(conv, "", cache, prefill + reply) == Ok(v + [AssistantMsg(prefill + reply)]);
    assert (v + [AssistantMsg(prefill + reply)]) + [UserMsg(userText, cache)]
        == v + [AssistantMsg(prefill + reply), UserMsg(userText, cache)];
  }

  /** With caching off the turn never fails and touches no earlier message. */
  lemma UncachedTurn(conv: seq<Msg>, prefill: string, reply: string, userText: string)
    ensures ClaudeTurn(conv, prefill, false, reply, userText)
         == Ok(conv + [AssistantMsg(prefill + reply), UserMsg(userText, false)])
  {
    if prefill != "" {
      AnsweredPrefill(conv, prefill, false, reply);
    } else {
      assert prefill + reply == reply;
    }
    assert Answered(conv, "", false, prefill + reply) == Ok(conv + [AssistantMsg(prefill + reply)]);
    assert (conv + [AssistantMsg(prefill + reply)]) + [UserMsg(userText, false)]
        == conv + [AssistantMsg(prefill + reply), UserMsg(userText, false)];
  }

  /** In the window, the delete always finds a marker: at `-3` of the
      transcript, and at `-4` once the prefill has been appended. */
  lemma DeleteHitsMarker(conv: seq<Msg>, prefill: string)
    requires CacheWindow(conv) && |conv| >= 3
    ensures LastCached(conv[|conv| - 3])
    ensures (conv + [AssistantMsg(prefill)])[|conv| + 1 - 4] == conv[|conv| - 3]
  {
  }

  /** In the window, the `-3` delete succeeds and leaves only the newest
      message marked. */
  lemma PruneWindow(conv: seq<Msg>)
    requires CacheWindow(conv)
    ensures Prune(conv, true, 3).Ok?
    ensures var v := Prune(conv, true, 3).value;
      && |v| == |conv|
      && (forall i :: 0 <= i < |v| ==> v[i].role == conv[i].role)
      && (forall i :: 0 <= i < |v| ==> (LastCached(v[i]) <==> i == |conv| - 1))
  {
    var n := |conv|;
    if n >= 3 {
      DeleteHitsMarker(conv, "");
      var v := DropMarker(conv, n - 3).value;
      forall i | 0 <= i < |v|
        ensures v[i].role == conv[i].role
        ensures LastCached(v[i]) <==> i == n - 1
      {
        if i != n - 3 {
          assert v[i] == conv[i];
        }
      }
    }
  }

  /** One turn with caching on never fails on a window and yields a window. */
  lemma TurnKeepsWindow(conv: seq<Msg>, prefill: string, reply: string, userText: string)
    requires CacheWindow(conv)
    ensures ClaudeTurn(conv, prefill, true, reply, userText).Ok?
    ensures CacheWindow(ClaudeTurn(conv, prefill, true, reply, userText).value)
  {
    if prefill != "" {
      AnsweredPrefill(conv, prefill, true, reply);
    } else {
      assert prefill + reply == reply;
    }
    var text := prefill + reply;
    var n := |conv|;
    PruneWindow(conv);
    var v := Prune(conv, true, 3).value;
    assert Answered(conv, "", true, text) == Ok(v + [AssistantMsg(text)]);
    var r := v + [AssistantMsg(text), UserMsg(userText, true)];
    assert ClaudeTurn(conv, prefill, true, reply, userText) == Ok(r) by {
      assert (v + [AssistantMsg(text)]) + [UserMsg(userText, true)] == r;
    }
    forall i | 0 <= i < |r|
      ensures r[i].role == (if i % 2 == 0 then User else Assistant)
      ensures LastCached(r[i]) <==> i % 2 == 0 && i + 3 >= |r|
    {
      if i < n {
        assert r[i] == v[i];
      }
    }
  }

  /** In the window, exactly the two newest user messages are marked (the
      single user message of a fresh chat is marked on its own). */
  lemma WindowMarksTwoNewestUsers(conv: seq<Msg>)
    requires CacheWindow(conv)
    ensures |conv| == 1 ==> MarkedMessages(conv) == {0}
    ensures |conv| >= 3 ==> MarkedMessages(conv) == {|conv| - 3, |conv| - 1}
    ensures forall i :: i in MarkedMessages(conv) ==> conv[i].role == User
  {
  }

  /** No block but a message's last carries a marker. The `del` of a turn
      only ever reaches `content[-1]`, so a marker placed on an earlier
      block by a `cache` key of the opening list is never removed. */
  predicate OnlyLastMarked(conv: seq<Msg>) {
    forall i, j :: 0 <= i < |conv| && 0 <= j < |conv[i].content| - 1 ==> !conv[i].content[j].cached
  }

  /** A turn changes at most the last block of an earlier message: every
      other block, marker included, stays as it was, so it keeps
      `OnlyLastMarked`. */
  lemma TurnKeepsEarlierBlocks(conv: seq<Msg>, prefill: string, cache: bool, reply: string, userText: string)
    requires ClaudeTurn(conv, prefill, cache, reply, userText).Ok?
    ensures var r := ClaudeTurn(conv, prefill, cache, reply, userText).value;
      && |r| == |conv| + 2
      && (forall i :: 0 <= i < |conv| ==> |r[i].content| == |conv[i].content|)
      && (forall i, j :: 0 <= i < |conv| && 0 <= j < |conv[i].content| - 1 ==> r[i].content[j] == conv[i].content[j])
    ensures OnlyLastMarked(conv) ==> OnlyLastMarked(ClaudeTurn(conv, prefill, cache, reply, userText).value)
  {
    if prefill != "" {
      AnsweredPrefill(conv, prefill, cache, reply);
    } else {
      assert prefill + reply == reply;
    }
    var text := prefill + reply;
    var n := |conv|;
    var v := Prune(conv, cache, 3).value;
    assert Answered(conv, "", cache, text) == Ok(v + [AssistantMsg(text)]);
    var r := v + [AssistantMsg(text), UserMsg(userText, cache)];
    assert ClaudeTurn(conv, prefill, cache, reply, userText) == Ok(r) by {
      assert (v + [AssistantMsg(text)]) + [UserMsg(userText, cache)] == r;
    }
    forall i | 0 <= i < n
      ensures |r[i].content| == |conv[i].content|
      ensures forall j :: 0 <= j < |conv[i].content| - 1 ==> r[i].content[j] == conv[i].content[j]
    {
      assert r[i] == v[i];
      if cache && n >= 3 && i == n - 3 {
        var k := |conv[i].content| - 1;
        assert |Erase(v[i].content)| == |Erase(conv[i].content)|;
        assert forall j :: 0 <= j < k ==> v[i].content[..k][j] == v[i].content[j];
      }
    }
  }

  /** Any number of successful turns keep `OnlyLastMarked`. */
  lemma {:induction false} TurnsKeepOnlyLastMarked(conv: seq<Msg>, prefill: string, cache: bool, turns: seq<TurnInput>)
    requires OnlyLastMarked(conv)
    requires ClaudeTurns(conv, prefill, cache, turns).Ok?
    ensures OnlyLastMarked(ClaudeTurns(conv, prefill, cache, turns).value)
  {
    if turns != [] {
      var init := turns[..|turns| - 1];
      TurnsKeepOnlyLastMarked(conv, prefill, cache, init);
      var t := turns[|turns| - 1];
      TurnKeepsEarlierBlocks(ClaudeTurns(conv, prefill, cache, init).value, prefill, cache, t.reply.text, t.userText);
    }
  }

  /** In a window where only last blocks are marked, the marked blocks are
      exactly the last blocks of the two newest user messages: two blocks in
      the whole transcript, or one in a fresh chat. */
  lemma WindowMarkedBlocks(conv: seq<Msg>)
    requires CacheWindow(conv) && OnlyLastMarked(conv)
    ensures forall i, j :: 0 <= i < |conv| && 0 <= j < |conv[i].content| ==>
      (conv[i].content[j].cached <==> j == |conv[i].content| - 1 && i % 2 == 0 && i + 3 >= |conv|)
  {
    forall i, j | 0 <= i < |conv| && 0 <= j < |conv[i].content|
      ensures conv[i].content[j].cached <==> j == |conv[i].content| - 1 && i % 2 == 0 && i + 3 >= |conv|
    {
      if j == |conv[i].content| - 1 {
        assert LastCached(conv[i]) <==> conv[i].content[j].cached;
      }
    }
  }

  /** Without `cache` keys in the opening list, the cached opening marks
      only the last block. */
  lemma OpeningOnlyLastMarked(opening: seq<Message>, system: Prompt, encode: string -> string)
    requires ClaudeOpening(opening, system, true, encode).Ok?
    requires forall i :: 0 <= i < |opening| ==> !HasCacheKey(opening[i])
    ensures OnlyLastMarked(ClaudeOpening(opening, system, true, encode).value.conv)
  {
    var f := FormatClaudeMessages(opening, User, true, encode).value;
    var conv := ClaudeOpening(opening, system, true, encode).value.conv;
    assert conv == f.msgs;
    forall j | 0 <= j < |conv[0].content| - 1
      ensures !conv[0].content[j].cached
    {
      FormatMarkers(opening, User, true, encode, j);
      assert BlocksOf(f)[j] == conv[0].content[j];
    }
  }

  /** With caching on and no `cache` key in the opening messages, the whole
      Anthropic transcript carries exactly the markers the source comment
      promises, "only ... the two most recent user messages": the last
      blocks of the two newest user messages, and no other block. */
  lemma CachedChatMarksTwoBlocks(ms: seq<Message>, model: string, system: Prompt, prefill: string,
                                 firstInput: string, encode: string -> string, turns: seq<TurnInput>)
    requires StartChat(ms, model, system, true, firstInput, encode).Ok?
    requires StartChat(ms, model, system, true, firstInput, encode).value.cache
    requires forall i :: 0 <= i < |OpeningMessages(ms, firstInput)| ==> !HasCacheKey(OpeningMessages(ms, firstInput)[i])
    ensures Converse(StartChat(ms, model, system, true, firstInput, encode).value, prefill, turns).Ok?
    ensures var t := Converse(StartChat(ms, model, system, true, firstInput, encode).value, prefill, turns).value;
      && t.ClaudeTranscript?
      && forall i, j :: 0 <= i < |t.conv| && 0 <= j < |t.conv[i].content| ==>
           (t.conv[i].content[j].cached <==> j == |t.conv[i].content| - 1 && i % 2 == 0 && i + 3 >= |t.conv|)
  {
    var session := StartChat(ms, model, system, true, firstInput, encode).value;
    var opening := OpeningMessages(ms, firstInput);
    assert session.transcript == ClaudeOpening(opening, system, true, encode).value;
    OpeningOnlyLastMarked(opening, system, encode);
    var conv := session.transcript.conv;
    TurnsKeepWindow(conv, prefill, turns);
    TurnsKeepOnlyLastMarked(conv, prefill, true, turns);
    WindowMarkedBlocks(ClaudeTurns(conv, prefill, true, turns).value);
  }

  /** A `cache` key in the opening list leaves a marker the turns never
      remove: `[{"text": "a", "cache": True}, "b"]` opens with both blocks
      marked, and after any number of cached turns the first block is still
      marked, on top of the two markers of the window. */
  lemma OpeningCacheKeyMarkerStays(encode: string -> string, prefill: string, turns: seq<TurnInput>)
    ensures FormatClaudeMessages([Fields(Some("a"), None, None, true), Bare("b")], User, true, encode)
         == Ok(Conversation([Msg(User, [TextBlock("a", true), TextBlock("b", true)])]))
    ensures var conv := [Msg(User, [TextBlock("a", true), TextBlock("b", true)])];
      && CacheWindow(conv)
      && ClaudeTurns(conv, prefill, true, turns).Ok?
      && |ClaudeTurns(conv, prefill, true, turns).value| > 0
      && |ClaudeTurns(conv, prefill, true, turns).value[0].content| == 2
      && ClaudeTurns(conv, prefill, true, turns).value[0].content[0].cached
  {
    var ms := [Fields(Some("a"), None, None, true), Bare("b")];
    assert ms[..1] == [Fields(Some("a"), None, None, true)];
    assert ms[..1][..0] == [];
    assert Content(ms[..1], encode) == Ok([TextBlock("a", true)]) by {
      assert BlockOf(ms[0], encode) == Ok([TextBlock("a", false)]);
      assert MarkLast([TextBlock("a", false)]) == [TextBlock("a", true)];
    }
    assert BlockOf(Bare("b"), encode) == Ok([TextBlock("b", false)]);
    assert Content(ms, encode) == Ok([TextBlock("a", true), TextBlock("b", false)]) by {
      assert ms[..|ms| - 1] == ms[..1] && ms[|ms| - 1] == Bare("b") && !HasCacheKey(Bare("b"));
      assert [TextBlock("a", true)] + [TextBlock("b", false)] == [TextBlock("a", true), TextBlock("b", false)];
    }
    assert MarkLast([TextBlock("a", true), TextBlock("b", false)]) == [TextBlock("a", true), TextBlock("b", true)];
    var conv := [Msg(User, [TextBlock("a", true), TextBlock("b", true)])];
    assert CacheWindow(conv);
    TurnsKeepWindow(conv, prefill, turns);
    FirstBlockStays(conv, prefill, turns);
  }

  /** The first block of the first message of a two-block opening survives
      every cached turn. */
  lemma {:induction false} FirstBlockStays(conv: seq<Msg>, prefill: string, turns: seq<TurnInput>)
    requires |conv| > 0 && |conv[0].content| >= 2
    requires ClaudeTurns(conv, prefill, true, turns).Ok?
    ensures var r := ClaudeTurns(conv, prefill, true, turns).value;
      |r| > 0 && |r[0].content| == |conv[0].content| && r[0].content[0] == conv[0].content[0]
  {
    if turns != [] {
      var init := turns[..|turns| - 1];
      FirstBlockStays(conv, prefill, init);
      var t := turns[|turns| - 1];
      TurnKeepsEarlierBlocks(ClaudeTurns(conv, prefill, true, init).value, prefill, true, t.reply.text, t.userText);
    }
  }

  // ---------------------------------------------------------------------------
  // The OpenAI transcript and its turn step

  /** `formatted_messages[-1]['content'][-1]['text'] += text` on OpenAI blocks. */
  function OpenAIExtendLastText(conv: seq<OF.Msg>, text: string): (r: Result<seq<OF.Msg>>)
    ensures r.Ok? <==> |conv| > 0 && |conv[|conv| - 1].content| > 0
                       && conv[|conv| - 1].content[|conv[|conv| - 1].content| - 1].TextBlock?
  {
    if conv == [] then Err(IndexOutOfRange)
    else
      var m := conv[|conv| - 1];
      if m.content == [] then Err(IndexOutOfRange)
      else
        var n := |m.content|;
        match m.content[n - 1]
        case TextBlock(t) => Ok(conv[..|conv| - 1] + [OF.Msg(m.role, m.content[..n - 1] + [OF.TextBlock(t + text)])])
        case ImageUrlBlock(_) => Err(MissingKey("text"))
  }

  /** One turn on the OpenAI transcript; caching is always off there. */
  function OpenAITurn(conv: seq<OF.Msg>, prefill: string, reply: string, userText: string): Result<seq<OF.Msg>>
  {
    var answered :- if prefill != "" then OpenAIExtendLastText(conv + [OF.Msg(Assistant, [OF.TextBlock(prefill)])], reply)
                    else Ok(conv + [OF.Msg(Assistant, [OF.TextBlock(reply)])]);
    Ok(answered + [OF.Msg(User, [OF.TextBlock(userText)])])
  }

  /** The OpenAI turn never fails: it appends the assistant message holding
      the prefill and the reply, then the user message. */
  lemma OpenAITurnAppends(conv: seq<OF.Msg>, prefill: string, reply: string, userText: string)
    ensures OpenAITurn(conv, prefill, reply, userText)
         == Ok(conv + [OF.Msg(Assistant, [OF.TextBlock(prefill + reply)]), OF.Msg(User, [OF.TextBlock(userText)])])
  {
    if prefill != "" {
      var withPrefill := conv + [OF.Msg(Assistant, [OF.TextBlock(prefill)])];
      assert withPrefill[..|withPrefill| - 1] == conv;
      assert withPrefill[|withPrefill| - 1].content == [OF.TextBlock(prefill)];
      assert [OF.TextBlock(prefill)][..0] + [OF.TextBlock(prefill + reply)] == [OF.TextBlock(prefill + reply)];
    } else {
      assert prefill + reply == reply;
    }
    var a := OF.Msg(Assistant, [OF.TextBlock(prefill + reply)]);
    var u := OF.Msg(User, [OF.TextBlock(userText)]);
    assert (conv + [a]) + [u] == conv + [a, u];
  }

  // ---------------------------------------------------------------------------
  // The whole chat

  /** What one streamed reply reports: its text and its four token counters
      (the cache counters are read only when caching is on). */
  datatype StreamReply = StreamReply(text: string, inputTokens: int, outputTokens: int,
                                     cacheWriteTokens: int, cacheReadTokens: int)

  /** One turn of the loop: the streamed reply and the user's next input. */
  datatype TurnInput = TurnInput(reply: StreamReply, userText: string)

  /** The dict `stream_claude` returns; the cache counters only with caching. */
  function StreamClaudeResponse(reply: StreamReply, caching: bool): (r: Response)
    ensures r.text == reply.text
    ensures r.counts.Keys == if caching then {InputKey, OutputKey, CacheWriteKey, CacheReadKey} else {InputKey, OutputKey}
  {
    var counts := map[InputKey := reply.inputTokens, OutputKey := reply.outputTokens];
    Response(reply.text,
      if caching then counts[CacheWriteKey := reply.cacheWriteTokens][CacheReadKey := reply.cacheReadTokens]
      else counts)
  }

  /** The dict `stream_openai` returns: no cache counters. */
  function StreamOpenAIResponse(reply: StreamReply): (r: Response)
    ensures r.text == reply.text
    ensures r.counts.Keys == {InputKey, OutputKey}
  {
    Response(reply.text, map[InputKey := reply.inputTokens, OutputKey := reply.outputTokens])
  }

  /** The formatted system prompt and conversation of a chat, per backend. */
  datatype Transcript =
    | ClaudeTranscript(system: seq<Block>, conv: seq<Msg>)
    | OpenAITranscript(openaiSystem: seq<OF.Msg>, openaiConv: seq<OF.Msg>)

  /** A chat after its opening: the model, whether caching stayed on, the
      echoed lines and the transcript. */
  datatype Session = Session(model: string, cache: bool, echo: seq<EchoLine>, transcript: Transcript)

  /** The messages a chat opens with: the given ones, or the first user
      input when none are given. */
  function OpeningMessages(ms: seq<Message>, firstInput: string): (r: seq<Message>)
    ensures ms != [] ==> r == ms
    ensures ms == [] ==> r == [Fields(Some(firstInput), None, None, false)]
  {
    if ms == [] then [Fields(Some(firstInput), None, None, false)] else ms
  }

  /** The Anthropic opening: the wrapped system prompt and the messages
      formatted with the cache flag; the messages become one user message. */
  function ClaudeOpening(opening: seq<Message>, system: Prompt, caching: bool, encode: string -> string)
    : (r: Result<Transcript>)
    ensures r.Ok? ==> r.value.ClaudeTranscript? && |r.value.conv| == 1 && r.value.conv[0].role == User
    ensures r.Ok? && caching ==> CacheWindow(r.value.conv)
    ensures r.Ok? <==> FormatClaudeMessages(WrapPrompt(system), System, caching, encode).Ok?
                       && FormatClaudeMessages(opening, User, caching, encode).Ok?
  {
    var sys :- FormatClaudeMessages(WrapPrompt(system), System, caching, encode);
    var conv :- FormatClaudeMessages(opening, User, caching, encode);
    if caching then
      OpeningIsWindow(conv);
      Ok(ClaudeTranscript(sys.blocks, conv.msgs))
    else
      Ok(ClaudeTranscript(sys.blocks, conv.msgs))
  }

  /** A single user message whose last block is marked is a window. */
  lemma OpeningIsWindow(f: Formatted)
    requires f.Conversation? && |f.msgs| == 1 && f.msgs[0].role == User
    requires |BlocksOf(f)| > 0 && BlocksOf(f)[|BlocksOf(f)| - 1].cached
    ensures CacheWindow(f.msgs)
  {
    assert LastCached(f.msgs[0]);
  }

  /** The OpenAI opening, which cannot fail. */
  function OpenAIOpening(opening: seq<Message>, system: Prompt, encode: string -> string): (r: Transcript)
    ensures r.OpenAITranscript? && |r.openaiConv| == 1 && r.openaiConv[0].role == User
  {
    OpenAITranscript(OF.FormatOpenAIMessages(WrapPrompt(system), System, false, encode),
                     OF.FormatOpenAIMessages(opening, User, false, encode))
  }

  /** The opening of `chat_with_llm` as written: the catalog lookup and the
      provider switch, caching forced off for any provider but Anthropic, the
      first user input when no messages are given (the given ones are echoed
      otherwise, with the echo loop as written), a string system prompt
      wrapped in a list, and both lists formatted with the cache flag. */
  function StartChat(ms: seq<Message>, model: string, system: Prompt, cache: bool, firstInput: string,
                     encode: string -> string): (r: Result<Session>)
    ensures model !in AllLlms ==> r == Err(UnknownModel(model))
    ensures model in AllLlms && AllLlms[model].provider !in {OpenAI, Anthropic}
            ==> r == Err(UnsupportedProvider(AllLlms[model].provider.Name()))
    ensures model in AllLlms && AllLlms[model].provider == OpenAI && EchoAsWritten(ms).Ok?
            ==> r.Ok? && r.value.transcript.OpenAITranscript?
    ensures r.Ok? ==> model in AllLlms && r.value.model == model
    ensures r.Ok? ==> (r.value.cache <==> cache && AllLlms[model].provider == Anthropic)
    ensures r.Ok? ==> (r.value.transcript.ClaudeTranscript? <==> AllLlms[model].provider == Anthropic)
    ensures r.Ok? && r.value.cache ==> CacheWindow(r.value.transcript.conv)
    ensures model in AllLlms && AllLlms[model].provider in {OpenAI, Anthropic} && EchoAsWritten(ms).Err?
            ==> r == Err(EchoAsWritten(ms).error)
    ensures r.Ok? ==> EchoAsWritten(ms) == Ok(r.value.echo)
  {
    var entry :- LookupLlm(model);
    var backend :- SelectBackend(entry.provider);
    var caching := cache && backend == AnthropicBackend;
    var opening := OpeningMessages(ms, firstInput);
    var echoed :- EchoAsWritten(ms);
    var transcript :- if backend == AnthropicBackend then ClaudeOpening(opening, system, caching, encode)
                      else Ok(OpenAIOpening(opening, system, encode));
    Ok(Session(model, caching, echoed, transcript))
  }

  /** As written, a chat opened with a bare string mentioning "text" fails
      in the echo, before anything is formatted. */
  lemma BareTextStopsTheChat(system: Prompt, cache: bool, firstInput: string, encode: string -> string)
    ensures StartChat([Bare("summarise this text")], "gpt-4o", system, cache, firstInput, encode)
         == Err(KeyOnString("text"))
  {
    EchoOfBareStrings();
    AllLlmsProvenance();
  }

  function ClaudeTurns(conv: seq<Msg>, prefill: string, cache: bool, turns: seq<TurnInput>): Result<seq<Msg>>
  {
    if turns == [] then Ok(conv)
    else
      var before :- ClaudeTurns(conv, prefill, cache, turns[..|turns| - 1]);
      var t := turns[|turns| - 1];
      ClaudeTurn(before, prefill, cache, t.reply.text, t.userText)
  }

  function OpenAITurns(conv: seq<OF.Msg>, prefill: string, turns: seq<TurnInput>): Result<seq<OF.Msg>>
  {
    if turns == [] then Ok(conv)
    else
      var before :- OpenAITurns(conv, prefill, turns[..|turns| - 1]);
      var t := turns[|turns| - 1];
      OpenAITurn(before, prefill, t.reply.text, t.userText)
  }

  /** The transcript after the turns. */
  function Converse(session: Session, prefill: string, turns: seq<TurnInput>): Result<Transcript>
  {
    match session.transcript
    case ClaudeTranscript(sys, conv) =>
      var conv' :- ClaudeTurns(conv, prefill, session.cache, turns);
      Ok(ClaudeTranscript(sys, conv'))
    case OpenAITranscript(sys, conv) =>
      var conv' :- OpenAITurns(conv, prefill, turns);
      Ok(OpenAITranscript(sys, conv'))
  }

  /** The responses the backend returned over the turns. */
  function Responses(session: Session, turns: seq<TurnInput>): (rs: seq<Response>)
    ensures |rs| == |turns|
  {
    seq(|turns|, i requires 0 <= i < |turns| =>
      if session.transcript.ClaudeTranscript? then StreamClaudeResponse(turns[i].reply, session.cache)
      else StreamOpenAIResponse(turns[i].reply))
  }

  /** The final `log_token_usage(usage, model)` as written: `usage` starts as
      `{}`, so a chat ended before its first reply has no `input_tokens`. */
  function ChatCostAsWritten(model: string, rs: seq<Response>): Result<real> {
    LogTokenUsage(Totals(rs), model)
  }

  /** The final cost, corrected: a chat without replies costs nothing. */
  function ChatCost(model: string, rs: seq<Response>): (r: Result<real>)
    ensures rs != [] ==> r == ChatCostAsWritten(model, rs)
  {
    if rs == [] then
      var _ :- LookupLlm(model);
      Ok(0.0)
    else LogTokenUsage(Totals(rs), model)
  }

  /** The outcome of a chat: its final transcript and the cost it logs. */
  datatype ChatEnd = ChatEnd(transcript: Transcript, cost: real)

  /** `chat_with_llm` as written, ended by the user after the given turns. */
  function RunChat(ms: seq<Message>, model: string, system: Prompt, prefill: string, cache: bool, firstInput: string,
                   encode: string -> string, turns: seq<TurnInput>): Result<ChatEnd>
  {
    var session :- StartChat(ms, model, system, cache, firstInput, encode);
    var transcript :- Converse(session, prefill, turns);
    var cost :- ChatCostAsWritten(model, Responses(session, turns));
    Ok(ChatEnd(transcript, cost))
  }

  /** `chat_with_llm` with both corrections: bare strings are normalised
      before the echo, as every formatter already treats them, and a chat
      without replies costs nothing. */
  function RunChatCorrected(ms: seq<Message>, model: string, system: Prompt, prefill: string, cache: bool,
                            firstInput: string, encode: string -> string, turns: seq<TurnInput>): Result<ChatEnd>
  {
    var session :- StartChat(NormalizeAll(ms), model, system, cache, firstInput, encode);
    var transcript :- Converse(session, prefill, turns);
    var cost :- ChatCost(model, Responses(session, turns));
    Ok(ChatEnd(transcript, cost))
  }

  // ---------------------------------------------------------------------------
  // Properties of the whole chat

  /** With caching on, every turn succeeds and keeps the window; each turn
      adds two messages. */
  lemma {:induction false} TurnsKeepWindow(conv: seq<Msg>, prefill: string, turns: seq<TurnInput>)
    requires CacheWindow(conv)
    ensures ClaudeTurns(conv, prefill, true, turns).Ok?
    ensures CacheWindow(ClaudeTurns(conv, prefill, true, turns).value)
    ensures |ClaudeTurns(conv, prefill, true, turns).value| == |conv| + 2 * |turns|
  {
    if turns != [] {
      var init := turns[..|turns| - 1];
      TurnsKeepWindow(conv, prefill, init);
      var before := ClaudeTurns(conv, prefill, true, init).value;
      var t := turns[|turns| - 1];
      TurnKeepsWindow(before, prefill, t.reply.text, t.userText);
      TurnShape(before, prefill, true, t.reply.text, t.userText);
    }
  }

  /** With caching off, every turn succeeds and each adds two messages. */
  lemma {:induction false} UncachedTurnsSucceed(conv: seq<Msg>, prefill: string, turns: seq<TurnInput>)
    ensures ClaudeTurns(conv, prefill, false, turns).Ok?
    ensures |ClaudeTurns(conv, prefill, false, turns).value| == |conv| + 2 * |turns|
  {
    if turns != [] {
      var init := turns[..|turns| - 1];
      UncachedTurnsSucceed(conv, prefill, init);
      var before := ClaudeTurns(conv, prefill, false, init).value;
      var t := turns[|turns| - 1];
      UncachedTurn(before, prefill, t.reply.text, t.userText);
    }
  }

  lemma {:induction false} OpenAITurnsSucceed(conv: seq<OF.Msg>, prefill: string, turns: seq<TurnInput>)
    ensures OpenAITurns(conv, prefill, turns).Ok?
    ensures |OpenAITurns(conv, prefill, turns).value| == |conv| + 2 * |turns|
  {
    if turns != [] {
      OpenAITurnsSucceed(conv, prefill, turns[..|turns| - 1]);
      var before := OpenAITurns(conv, prefill, turns[..|turns| - 1]).value;
      var t := turns[|turns| - 1];
      OpenAITurnAppends(before, prefill, t.reply.text, t.userText);
    }
  }

  /** Once a chat has opened, no turn can fail. */
  lemma ConverseSucceeds(ms: seq<Message>, model: string, system: Prompt, prefill: string, cache: bool,
                         firstInput: string, encode: string -> string, turns: seq<TurnInput>)
    requires StartChat(ms, model, system, cache, firstInput, encode).Ok?
    ensures Converse(StartChat(ms, model, system, cache, firstInput, encode).value, prefill, turns).Ok?
  {
    var session := StartChat(ms, model, system, cache, firstInput, encode).value;
    match session.transcript
    case ClaudeTranscript(_, conv) =>
      if session.cache {
        TurnsKeepWindow(conv, prefill, turns);
      } else {
        UncachedTurnsSucceed(conv, prefill, turns);
      }
    case OpenAITranscript(_, conv) =>
      OpenAITurnsSucceed(conv, prefill, turns);
  }

  /** Every response a chat receives can be priced at its model. */
  lemma ResponsesPriceable(session: Session, turns: seq<TurnInput>)
    requires session.model in AllLlms
    requires session.transcript.ClaudeTranscript? <==> AllLlms[session.model].provider == Anthropic
    ensures forall i :: 0 <= i < |turns| ==> LogTokenUsage(Responses(session, turns)[i].counts, session.model).Ok?
  {
    var d := AllLlms[session.model].data;
    CachePrices(session.model);
    forall i | 0 <= i < |turns|
      ensures LogTokenUsage(Responses(session, turns)[i].counts, session.model).Ok?
    {
      var counts := Responses(session, turns)[i].counts;
      assert InputKey in counts && OutputKey in counts;
      if session.transcript.ClaudeTranscript? {
        assert d.cacheWriteCostPerM.Some? && d.cacheReadCostPerM.Some?;
      } else {
        assert CacheWriteKey !in counts && CacheReadKey !in counts;
      }
      assert Priceable(counts, d);
    }
  }

  /** As written, a chat that opens and receives at least one reply ends
      with a logged cost, which is the sum of the costs of its single
      responses. */
  lemma ChatCompletes(ms: seq<Message>, model: string, system: Prompt, prefill: string, cache: bool,
                      firstInput: string, encode: string -> string, turns: seq<TurnInput>)
    requires StartChat(ms, model, system, cache, firstInput, encode).Ok?
    requires turns != []
    ensures RunChat(ms, model, system, prefill, cache, firstInput, encode, turns).Ok?
    ensures RunChat(ms, model, system, prefill, cache, firstInput, encode, turns).value.cost
         == SumCost(AllLlms[model].data, Responses(StartChat(ms, model, system, cache, firstInput, encode).value, turns))
  {
    var session := StartChat(ms, model, system, cache, firstInput, encode).value;
    ConverseSucceeds(ms, model, system, prefill, cache, firstInput, encode, turns);
    ResponsesPriceable(session, turns);
    TotalCostIsSumOfCosts(Responses(session, turns), model);
  }

  /** As written, a chat that opens and is ended before its first reply
      fails on the final log. */
  lemma ChatWithoutRepliesFails(ms: seq<Message>, model: string, system: Prompt, prefill: string, cache: bool,
                                firstInput: string, encode: string -> string)
    requires StartChat(ms, model, system, cache, firstInput, encode).Ok?
    ensures RunChat(ms, model, system, prefill, cache, firstInput, encode, []) == Err(MissingKey(InputKey))
  {
    var session := StartChat(ms, model, system, cache, firstInput, encode).value;
    assert Responses(session, []) == [];
  }

  /** Corrected, a chat fails only where its opening fails: the echo never
      does, and once opened the chat ends with a logged cost, the sum of the
      costs of its single responses, however many replies it received. */
  lemma CorrectedChatCompletes(ms: seq<Message>, model: string, system: Prompt, prefill: string, cache: bool,
                               firstInput: string, encode: string -> string, turns: seq<TurnInput>)
    requires StartChat(NormalizeAll(ms), model, system, cache, firstInput, encode).Ok?
    ensures StartChat(NormalizeAll(ms), model, system, cache, firstInput, encode).value.echo == Echo(ms)
    ensures RunChatCorrected(ms, model, system, prefill, cache, firstInput, encode, turns).Ok?
    ensures RunChatCorrected(ms, model, system, prefill, cache, firstInput, encode, turns).value.cost
         == SumCost(AllLlms[model].data,
                    Responses(StartChat(NormalizeAll(ms), model, system, cache, firstInput, encode).value, turns))
  {
    var ns := NormalizeAll(ms);
    EchoAsWrittenOnDicts(ms);
    var session := StartChat(ns, model, system, cache, firstInput, encode).value;
    ConverseSucceeds(ns, model, system, prefill, cache, firstInput, encode, turns);
    var rs := Responses(session, turns);
    if turns == [] {
      assert rs == [];
    } else {
      ResponsesPriceable(session, turns);
      TotalCostIsSumOfCosts(rs, model);
    }
  }

  /** As written, a chat ended before its first reply fails on the final log;
      corrected, it costs nothing. */
  lemma EmptyChatCost(model: string)
    requires model in AllLlms
    ensures ChatCostAsWritten(model, []) == Err(MissingKey(InputKey))
    ensures ChatCost(model, []) == Ok(0.0)
  {
  }
}

=== FILE: claude_format.dfy ===
/** `format_claude_messages`: generic messages to Anthropic content blocks,
    with the prompt-cache markers (`"cache_control": {"type": "ephemeral"}`). */
module ClaudeFormat {
  import opened Results
  import opened Messages

  /** A content block. `cached` stands for the presence of the
      `cache_control` entry. */
  datatype Block =
    | TextBlock(text: string, cached: bool)                      // {"type": "text", "text": ...}
    | ImageBlock(mediaType: string, data: string, cached: bool)  // {"type": "image", "source": {"type": "base64", ...}}

  /** `{"role": ..., "content": [...]}`; the role is `user` or `assistant`. */
  datatype Msg = Msg(role: Role, content: seq<Block>)

  /** The formatter returns the bare block list for the system role and a
      one-message list otherwise. */
  datatype Formatted = SystemBlocks(blocks: seq<Block>) | Conversation(msgs: seq<Msg>)

  function BlocksOf(f: Formatted): seq<Block> {
    match f
    case SystemBlocks(bs) => bs
    case Conversation(ms) => if |ms| > 0 then ms[0].content else []
  }

  function Uncached(b: Block): Block {
    b.(cached := false)
  }

  /** The blocks with every cache marker removed. */
  function Erase(bs: seq<Block>): (r: seq<Block>)
    ensures |r| == |bs|
    ensures forall i :: 0 <= i < |bs| ==> r[i] == Uncached(bs[i])
  {
    seq(|bs|, i requires 0 <= i < |bs| => Uncached(bs[i]))
  }

  /** `content[-1]["cache_control"] = {"type": "ephemeral"}` */
  function MarkLast(bs: seq<Block>): (r: seq<Block>)
    requires |bs| > 0
  {
    bs[..|bs| - 1] + [bs[|bs| - 1].(cached := true)]
  }

  /** The block one message contributes, before any cache marker: text as is,
      code fenced with a bare "```", an image checked and base64-embedded. */
  function BlockOf(m: Message, encode: string -> string): (r: Result<seq<Block>>)
    ensures r.Err? <==> PayloadOf(m).ImagePayload? && ImageMediaType(PayloadOf(m).path).Err?
    ensures r.Err? ==> r.error == ImageMediaType(PayloadOf(m).path).error
    ensures r.Ok? ==> |r.value| == (if PayloadOf(m).NoPayload? then 0 else 1)
    ensures r.Ok? ==> forall i :: 0 <= i < |r.value| ==> !r.value[i].cached
  {
    match PayloadOf(m)
    case TextPayload(t) => Ok([TextBlock(t, false)])
    case CodePayload(c) => Ok([TextBlock(Fence("", c), false)])
    case ImagePayload(path) =>
      var mediaType :- ImageMediaType(path);
      Ok([ImageBlock(mediaType, encode(path), false)])
    case NoPayload => Ok([])
  }

  /** Reference: the blocks of all messages in order, with no cache handling. */
  function PlainContent(ms: seq<Message>, encode: string -> string): Result<seq<Block>>
  {
    if ms == [] then Ok([])
    else
      var prev :- PlainContent(ms[..|ms| - 1], encode);
      var own :- BlockOf(ms[|ms| - 1], encode);
      Ok(prev + own)
  }

  /** The loop of the formatter: each message appends its block, and a
      message with a `cache` key then marks the last block produced so far. */
  function Content(ms: seq<Message>, encode: string -> string): Result<seq<Block>>
  {
    if ms == [] then Ok([])
    else
      var prev :- Content(ms[..|ms| - 1], encode);
      var m := ms[|ms| - 1];
      var own :- BlockOf(m, encode);
      var blocks := prev + own;
      if HasCacheKey(m) then
        if blocks == [] then Err(IndexOutOfRange) else Ok(MarkLast(blocks))
      else
        Ok(blocks)
  }

  /** `format_claude_messages(messages, role, cache_messages)` */
  function FormatClaudeMessages(ms: seq<Message>, role: Role, cacheMessages: bool, encode: string -> string)
    : (r: Result<Formatted>)
    ensures r.Ok? ==> (r.value.SystemBlocks? <==> role == System)
    ensures r.Ok? && role != System ==> |r.value.msgs| == 1 && r.value.msgs[0].role == role
    ensures r.Ok? ==> Content(ms, encode).Ok? && |BlocksOf(r.value)| == |Content(ms, encode).value|
    ensures r.Ok? && cacheMessages ==> |BlocksOf(r.value)| > 0 && BlocksOf(r.value)[|BlocksOf(r.value)| - 1].cached
    ensures Content(ms, encode) == Ok([]) && cacheMessages ==> r == Err(IndexOutOfRange)
  {
    var content :- Content(ms, encode);
    var content :- if !cacheMessages then Ok(content)
                   else if content == [] then Err(IndexOutOfRange)
                   else Ok(MarkLast(content));
    match role
    case System => Ok(SystemBlocks(content))
    case User => Ok(Conversation([Msg(User, content)]))
    case Assistant => Ok(Conversation([Msg(Assistant, content)]))
  }

  // ---------------------------------------------------------------------------
  // Properties

  /** The block of a single message: `text` wins over `code` and `image`,
      `code` over `image`; code is wrapped in a bare fence; an image becomes
      a base64 block with its media type; a dict with none of the three keys
      adds nothing. */
  lemma KeyPrecedence(t: string, c: string, path: string, code: Option<string>, image: Option<string>,
                      cache: bool, encode: string -> string)
    ensures BlockOf(Fields(Some(t), code, image, cache), encode) == Ok([TextBlock(t, false)])
    ensures BlockOf(Fields(None, Some(c), image, cache), encode) == Ok([TextBlock("```\n" + c + "\n```", false)])
    ensures ImageMediaType(path).Ok? ==>
      BlockOf(Fields(None, None, Some(path), cache), encode)
        == Ok([ImageBlock(ImageMediaType(path).value, encode(path), false)])
    ensures BlockOf(Fields(None, None, None, cache), encode) == Ok([])
  {
    assert Fence("", c) == "```\n" + c + "\n```";
  }

  /** One step of the loop, when it succeeds: the earlier messages succeeded,
      this message's block was appended, and the last block marked if it has
      a `cache` key. */
  lemma ContentStep(ms: seq<Message>, encode: string -> string)
    requires |ms| > 0 && Content(ms, encode).Ok?
    ensures Content(ms[..|ms| - 1], encode).Ok? && BlockOf(ms[|ms| - 1], encode).Ok?
    ensures var blocks := Content(ms[..|ms| - 1], encode).value + BlockOf(ms[|ms| - 1], encode).value;
      Content(ms, encode).value == if HasCacheKey(ms[|ms| - 1]) then MarkLast(blocks) else blocks
  {
  }

  /** Erasing distributes over an append of blocks that carry no marker. */
  lemma EraseAppendPlain(prev: seq<Block>, own: seq<Block>)
    requires forall i :: 0 <= i < |own| ==> !own[i].cached
    ensures Erase(prev + own) == Erase(prev) + own
  {
    var l, r := Erase(prev + own), Erase(prev) + own;
    assert |l| == |r|;
    forall i | 0 <= i < |l|
      ensures l[i] == r[i]
    {
      if i >= |prev| {
        assert (prev + own)[i] == own[i - |prev|];
      }
    }
  }

  /** Marking the last block is invisible once markers are erased. */
  lemma EraseMarkLast(bs: seq<Block>)
    requires |bs| > 0
    ensures Erase(MarkLast(bs)) == Erase(bs)
  {
    var l, r := Erase(MarkLast(bs)), Erase(bs);
    forall i | 0 <= i < |l|
      ensures l[i] == r[i]
    {
    }
  }

  /** Each message contributes at most one block, in input order: with the
      markers erased, the formatter's content is the reference concatenation,
      and it has one block per message with a `text`, `code` or `image`. */
  lemma {:induction false} ContentIsPlainContent(ms: seq<Message>, encode: string -> string)
    requires Content(ms, encode).Ok?
    ensures PlainContent(ms, encode) == Ok(Erase(Content(ms, encode).value))
    ensures |Content(ms, encode).value| == ProducerCount(ms)
  {
    if ms != [] {
      var init := ms[..|ms| - 1];
      ContentStep(ms, encode);
      ContentIsPlainContent(init, encode);
      var prev := Content(init, encode).value;
      var own := BlockOf(ms[|ms| - 1], encode).value;
      var blocks := prev + own;
      EraseAppendPlain(prev, own);
      if HasCacheKey(ms[|ms| - 1]) {
        EraseMarkLast(blocks);
      }
      assert Erase(Content(ms, encode).value) == Erase(prev) + own;
      assert PlainContent(ms, encode) == Ok(Erase(prev) + own);
    }
  }

  /** Every message with a `cache` key has a block at or before it to mark. */
  predicate CacheKeysReachable(ms: seq<Message>) {
    forall i :: 0 <= i < |ms| && HasCacheKey(ms[i]) ==> ProducedBy(ms, i) > 0
  }

  lemma CacheKeysReachableStep(ms: seq<Message>)
    requires |ms| > 0
    ensures CacheKeysReachable(ms) <==> (CacheKeysReachable(ms[..|ms| - 1]) &&
      (HasCacheKey(ms[|ms| - 1]) ==> ProducerCount(ms) > 0))
  {
    var init := ms[..|ms| - 1];
    ProducedByLast(ms);
    if CacheKeysReachable(ms) {
      forall i | 0 <= i < |init| && HasCacheKey(init[i])
        ensures ProducedBy(init, i) > 0
      {
        assert init[i] == ms[i];
        ProducedByInit(ms, i);
      }
    }
    if CacheKeysReachable(init) && (HasCacheKey(ms[|ms| - 1]) ==> ProducerCount(ms) > 0) {
      forall i | 0 <= i < |ms| && HasCacheKey(ms[i])
        ensures ProducedBy(ms, i) > 0
      {
        if i < |ms| - 1 {
          assert init[i] == ms[i];
          ProducedByInit(ms, i);
        }
      }
    }
  }

  /** The loop fails at a message exactly when the earlier messages succeed
      and this one has an unsupported image or a `cache` key with nothing to mark. */
  lemma ContentOkStep(ms: seq<Message>, encode: string -> string)
    requires |ms| > 0
    requires Content(ms[..|ms| - 1], encode).Ok?
    ensures Content(ms, encode).Ok? <==> (BlockOf(ms[|ms| - 1], encode).Ok? &&
      (HasCacheKey(ms[|ms| - 1]) ==> ProducerCount(ms) > 0))
  {
    ContentIsPlainContent(ms[..|ms| - 1], encode);
  }

  /** The loop succeeds exactly when every embedded image has a supported
      extension and every message with a `cache` key has some block at or
      before it to mark. */
  lemma {:induction false} ContentOkIff(ms: seq<Message>, encode: string -> string)
    ensures Content(ms, encode).Ok? <==> ImagesValid(ms) && CacheKeysReachable(ms)
  {
    if ms != [] {
      var init := ms[..|ms| - 1];
      ContentOkIff(init, encode);
      ImagesValidStep(ms);
      CacheKeysReachableStep(ms);
      if Content(init, encode).Ok? {
        ContentOkStep(ms, encode);
      }
    }
  }

  /** Some message with a `cache` key was processed while block `j` was the last one. */
  predicate MarkedBy(ms: seq<Message>, j: int) {
    exists i :: 0 <= i < |ms| && HasCacheKey(ms[i]) && ProducedBy(ms, i) == j + 1
  }

  /** A marker placed by an earlier message survives a new message. */
  lemma MarkedByExtend(ms: seq<Message>, j: int, i: int)
    requires |ms| > 0 && 0 <= i < |ms| - 1
    requires HasCacheKey(ms[..|ms| - 1][i]) && ProducedBy(ms[..|ms| - 1], i) == j + 1
    ensures MarkedBy(ms, j)
  {
    ProducedByInit(ms, i);
    assert ms[i] == ms[..|ms| - 1][i];
  }

  /** A marker of `ms` was placed by an earlier message or by the last one. */
  lemma MarkedBySplit(ms: seq<Message>, j: int, i: int)
    requires |ms| > 0 && 0 <= i < |ms|
    requires HasCacheKey(ms[i]) && ProducedBy(ms, i) == j + 1
    ensures MarkedBy(ms[..|ms| - 1], j) || (HasCacheKey(ms[|ms| - 1]) && ProducerCount(ms) == j + 1)
  {
    var init := ms[..|ms| - 1];
    if i < |init| {
      ProducedByInit(ms, i);
      assert init[i] == ms[i];
      assert HasCacheKey(init[i]) && ProducedBy(init, i) == j + 1;
    } else {
      ProducedByLast(ms);
    }
  }

  lemma MarkedByStep(ms: seq<Message>, j: int)
    requires |ms| > 0
    ensures MarkedBy(ms, j) <==> (MarkedBy(ms[..|ms| - 1], j) ||
      (HasCacheKey(ms[|ms| - 1]) && ProducerCount(ms) == j + 1))
  {
    var init := ms[..|ms| - 1];
    if MarkedBy(ms, j) {
      var i :| 0 <= i < |ms| && HasCacheKey(ms[i]) && ProducedBy(ms, i) == j + 1;
      MarkedBySplit(ms, j, i);
    }
    if MarkedBy(init, j) {
      var i :| 0 <= i < |init| && HasCacheKey(init[i]) && ProducedBy(init, i) == j + 1;
      MarkedByExtend(ms, j, i);
    }
    if HasCacheKey(ms[|ms| - 1]) && ProducerCount(ms) == j + 1 {
      ProducedByLast(ms);
      assert 0 <= |ms| - 1 < |ms| && HasCacheKey(ms[|ms| - 1]) && ProducedBy(ms, |ms| - 1) == j + 1;
    }
  }

  lemma MarkedByBound(ms: seq<Message>, j: int)
    requires MarkedBy(ms, j)
    ensures j < ProducerCount(ms)
  {
    var i :| 0 <= i < |ms| && HasCacheKey(ms[i]) && ProducedBy(ms, i) == j + 1;
    ProducedByBound(ms, i);
  }

  /** Block `j` carries a marker exactly when some message with a `cache` key
      was processed while `j` was the last block. */
  lemma {:induction false} ContentMarkers(ms: seq<Message>, encode: string -> string, j: int)
    requires Content(ms, encode).Ok?
    requires 0 <= j < |Content(ms, encode).value|
    ensures Content(ms, encode).value[j].cached <==> MarkedBy(ms, j)
  {
    var init := ms[..|ms| - 1];
    var m := ms[|ms| - 1];
    ContentStep(ms, encode);
    ContentIsPlainContent(ms, encode);
    ContentIsPlainContent(init, encode);
    MarkedByStep(ms, j);
    var prev := Content(init, encode).value;
    var own := BlockOf(m, encode).value;
    var c := Content(ms, encode).value;
    var lastMarked := HasCacheKey(m) && ProducerCount(ms) == j + 1;
    if j < |prev| {
      ContentMarkers(init, encode, j);
      assert c[j].cached <==> prev[j].cached || lastMarked;
    } else {
      assert c[j].cached <==> lastMarked;
      if MarkedBy(init, j) {
        MarkedByBound(init, j);
      }
    }
  }

  /** Normalising bare strings first changes nothing. */
  lemma {:induction false} ContentNormalized(ms: seq<Message>, encode: string -> string)
    ensures Content(NormalizeAll(ms), encode) == Content(ms, encode)
  {
    if ms != [] {
      assert NormalizeAll(ms)[..|ms| - 1] == NormalizeAll(ms[..|ms| - 1]);
      ContentNormalized(ms[..|ms| - 1], encode);
    }
  }

  /** A bare string message is formatted exactly like `{"text": s}`. */
  lemma FormatBareAsText(ms: seq<Message>, i: nat, s: string, role: Role, cacheMessages: bool, encode: string -> string)
    requires i < |ms| && ms[i] == Bare(s)
    ensures FormatClaudeMessages(ms, role, cacheMessages, encode)
         == FormatClaudeMessages(ms[i := Fields(Some(s), None, None, false)], role, cacheMessages, encode)
  {
    var ms' := ms[i := Fields(Some(s), None, None, false)];
    assert NormalizeAll(ms) == NormalizeAll(ms');
    ContentNormalized(ms, encode);
    ContentNormalized(ms', encode);
  }

  /** The role only decides the wrapping: the same blocks come back for the
      system role (bare) and for the user and assistant roles (one message). */
  lemma FormatRoleOnlyWraps(ms: seq<Message>, role: Role, cacheMessages: bool, encode: string -> string)
    ensures FormatClaudeMessages(ms, role, cacheMessages, encode).Ok?
        <==> FormatClaudeMessages(ms, System, cacheMessages, encode).Ok?
    ensures FormatClaudeMessages(ms, role, cacheMessages, encode).Ok? ==>
      BlocksOf(FormatClaudeMessages(ms, role, cacheMessages, encode).value)
        == FormatClaudeMessages(ms, System, cacheMessages, encode).value.blocks
  {
  }

  /** The message with its `cache` key removed. */
  function WithoutCacheKey(m: Message): (n: Message)
    ensures !HasCacheKey(n) && PayloadOf(n) == PayloadOf(m)
  {
    var n := Normalize(m);
    Fields(n.text, n.code, n.image, false)
  }

  function WithoutCacheKeys(ms: seq<Message>): (ns: seq<Message>)
    ensures |ns| == |ms|
    ensures forall i :: 0 <= i < |ms| ==> ns[i] == WithoutCacheKey(ms[i])
  {
    seq(|ms|, i requires 0 <= i < |ms| => WithoutCacheKey(ms[i]))
  }

  lemma {:induction false} PlainContentIgnoresCacheKeys(ms: seq<Message>, encode: string -> string)
    ensures PlainContent(WithoutCacheKeys(ms), encode) == PlainContent(ms, encode)
    ensures PlainContent(ms, encode) == Content(WithoutCacheKeys(ms), encode)
  {
    if ms != [] {
      assert WithoutCacheKeys(ms)[..|ms| - 1] == WithoutCacheKeys(ms[..|ms| - 1]);
      PlainContentIgnoresCacheKeys(ms[..|ms| - 1], encode);
    }
  }

  /** The cache flags change only `cache_control` entries: when the formatter
      succeeds, formatting without `cache_messages` and without any `cache`
      key gives the same output with every marker erased. */
  lemma CacheFlagsOnlyMark(ms: seq<Message>, role: Role, cacheMessages: bool, encode: string -> string)
    requires FormatClaudeMessages(ms, role, cacheMessages, encode).Ok?
    ensures FormatClaudeMessages(WithoutCacheKeys(ms), role, false, encode).Ok?
    ensures BlocksOf(FormatClaudeMessages(WithoutCacheKeys(ms), role, false, encode).value)
         == Erase(BlocksOf(FormatClaudeMessages(ms, role, cacheMessages, encode).value))
  {
    var content := Content(ms, encode).value;
    var plain := WithoutCacheKeys(ms);
    assert Content(plain, encode) == Ok(Erase(content)) by {
      ContentIsPlainContent(ms, encode);
      PlainContentIgnoresCacheKeys(ms, encode);
    }
    FormatBlocks(plain, role, false, encode);
    assert Erase(BlocksOf(FormatClaudeMessages(ms, role, cacheMessages, encode).value)) == Erase(content) by {
      FormatBlocks(ms, role, cacheMessages, encode);
      if cacheMessages {
        EraseMarkLast(content);
      }
    }
  }

  /** The blocks of a formatted result are the loop's content, with the last
      one marked under `cache_messages`. */
  lemma FormatBlocks(ms: seq<Message>, role: Role, cacheMessages: bool, encode: string -> string)
    requires Content(ms, encode).Ok?
    requires cacheMessages ==> Content(ms, encode).value != []
    ensures FormatClaudeMessages(ms, role, cacheMessages, encode).Ok?
    ensures BlocksOf(FormatClaudeMessages(ms, role, cacheMessages, encode).value)
         == if cacheMessages then MarkLast(Content(ms, encode).value) else Content(ms, encode).value
  {
  }

  /** Where the markers land: block `j` of the output is marked exactly when
      it is the final block and `cache_messages` is set, or a message with a
      `cache` key was processed while it was the last block. */
  lemma FormatMarkers(ms: seq<Message>, role: Role, cacheMessages: bool, encode: string -> string, j: int)
    requires FormatClaudeMessages(ms, role, cacheMessages, encode).Ok?
    requires 0 <= j < |BlocksOf(FormatClaudeMessages(ms, role, cacheMessages, encode).value)|
    ensures BlocksOf(FormatClaudeMessages(ms, role, cacheMessages, encode).value)[j].cached <==>
      (cacheMessages && j == |BlocksOf(FormatClaudeMessages(ms, role, cacheMessages, encode).value)| - 1) ||
      MarkedBy(ms, j)
  {
    ContentMarkers(ms, encode, j);
  }

  /** Validation never depends on the files' contents: if formatting fails
      for one reading of the files, it fails the same way for any other. */
  lemma {:induction false} ErrorsIgnoreFileContents(ms: seq<Message>, encode: string -> string, encode': string -> string)
    requires Content(ms, encode).Err?
    ensures Content(ms, encode') == Content(ms, encode)
  {
    var init := ms[..|ms| - 1];
    if Content(init, encode).Err? {
      ErrorsIgnoreFileContents(init, encode, encode');
    } else {
      if Content(init, encode').Err? {
        ErrorsIgnoreFileContents(init, encode', encode);
      }
      ContentIsPlainContent(init, encode);
      ContentIsPlainContent(init, encode');
      ContentOkIff(init, encode);
      ContentOkIff(init, encode');
    }
  }
}

=== FILE: dispatch.dfy ===
/** `prompt_llm`: the request guards, the provider switch, the response
    dicts of the two backends it can call, and the cost it logs. */
module Dispatch {
  import opened Results
  import opened Messages
  import opened Catalog
  import opened Usage
  import ClaudeFormat
  import OpenAIFormat

  /** The two backends the dispatchers know. */
  datatype Backend = OpenAIBackend | AnthropicBackend

  /** The provider switch of `prompt_llm` and `chat_with_llm`: `openai` and
      `anthropic` select their module, anything else is a `ValueError`. */
  function SelectBackend(provider: Provider): (r: Result<Backend>)
    ensures r.Ok? <==> provider == OpenAI || provider == Anthropic
    ensures r.Ok? ==> (r.value == AnthropicBackend <==> provider == Anthropic)
    ensures r.Err? ==> r.error == UnsupportedProvider(provider.Name())
  {
    match provider
    case OpenAI => Ok(OpenAIBackend)
    case Anthropic => Ok(AnthropicBackend)
    case _ => Err(UnsupportedProvider(provider.Name()))
  }

  /** The catalog lookup and the two assertions of `prompt_llm`, in order. */
  function CheckRequest(model: string, maxTokens: int, temperature: real): (r: Result<LlmEntry>)
    ensures r.Ok? <==> model in AllLlms && maxTokens <= AllLlms[model].data.outputLimit
                       && 0.0 <= temperature <= AllLlms[model].maxTemp
    ensures r.Ok? ==> r.value == AllLlms[model]
    ensures model !in AllLlms ==> r == Err(UnknownModel(model))
    ensures model in AllLlms && maxTokens > AllLlms[model].data.outputLimit
            ==> r == Err(MaxTokensTooLarge(AllLlms[model].data.outputLimit, maxTokens))
    ensures model in AllLlms && maxTokens <= AllLlms[model].data.outputLimit
            && !(0.0 <= temperature <= AllLlms[model].maxTemp)
            ==> r == Err(TemperatureOutOfRange(AllLlms[model].maxTemp, temperature))
  {
    var entry :- LookupLlm(model);
    if maxTokens > entry.data.outputLimit then Err(MaxTokensTooLarge(entry.data.outputLimit, maxTokens))
    else if !(0.0 <= temperature <= entry.maxTemp) then Err(TemperatureOutOfRange(entry.maxTemp, temperature))
    else Ok(entry)
  }

  /** What the vendor reports for one request: the reply text, the input
      tokens (OpenAI's `prompt_tokens`, which include the cached ones;
      Anthropic's `input_tokens`), OpenAI's cached prompt tokens, and the
      output tokens. */
  datatype Reply = Reply(text: string, inputTokens: int, cachedTokens: int, outputTokens: int)

  /** The dict `prompt_claude` returns: text, input and output tokens only. */
  function PromptClaudeResponse(text: string, inputTokens: int, outputTokens: int): (r: Response)
    ensures r.text == text
    ensures r.counts.Keys == {InputKey, OutputKey}
    ensures r.counts[InputKey] == inputTokens && r.counts[OutputKey] == outputTokens
  {
    Response(text, map[InputKey := inputTokens, OutputKey := outputTokens])
  }

  /** `prompt_claude` up to the request: a string system prompt is wrapped in
      a list, both lists are formatted without `cache_messages`, and a
      formatting error ends the call before anything is sent. */
  function PromptClaude(ms: seq<Message>, system: Prompt, encode: string -> string, reply: Reply): (r: Result<Response>)
    ensures r.Ok? <==> ClaudeFormat.Content(WrapPrompt(system), encode).Ok? && ClaudeFormat.Content(ms, encode).Ok?
    ensures r.Ok? ==> r.value == PromptClaudeResponse(reply.text, reply.inputTokens, reply.outputTokens)
  {
    var _ :- ClaudeFormat.FormatClaudeMessages(WrapPrompt(system), System, false, encode);
    var _ :- ClaudeFormat.FormatClaudeMessages(ms, User, false, encode);
    Ok(PromptClaudeResponse(reply.text, reply.inputTokens, reply.outputTokens))
  }

  /** `prompt_openai`: its formatter never fails, so the call always reaches
      the request. */
  function PromptOpenAI(reply: Reply): (r: Response)
    ensures r.text == reply.text
    ensures r.counts.Keys == {InputKey, CacheReadKey, OutputKey}
    ensures r.counts[InputKey] + r.counts[CacheReadKey] == reply.inputTokens
  {
    OpenAIFormat.PromptOpenAIResponse(reply.text, reply.inputTokens, reply.cachedTokens, reply.outputTokens)
  }

  /** What `prompt_llm` hands back (the reply text) and the cost it logs. */
  datatype Answer = Answer(text: string, cost: real)

  /** `prompt_llm(messages, model, system_prompt, max_tokens, temperature)`
      with the vendor's reply passed in. */
  function PromptLlm(ms: seq<Message>, model: string, system: Prompt, maxTokens: int, temperature: real,
                     encode: string -> string, reply: Reply): (r: Result<Answer>)
    ensures r.Ok? ==> CheckRequest(model, maxTokens, temperature).Ok?
    ensures r.Ok? ==> AllLlms[model].provider in {OpenAI, Anthropic}
    ensures r.Ok? ==> r.value.text == reply.text
    ensures CheckRequest(model, maxTokens, temperature).Err? ==> r == Err(CheckRequest(model, maxTokens, temperature).error)
    ensures CheckRequest(model, maxTokens, temperature).Ok? && AllLlms[model].provider !in {OpenAI, Anthropic}
            ==> r == Err(UnsupportedProvider(AllLlms[model].provider.Name()))
  {
    var entry :- CheckRequest(model, maxTokens, temperature);
    var backend :- SelectBackend(entry.provider);
    var response :- match backend
                    case OpenAIBackend => Ok(PromptOpenAI(reply))
                    case AnthropicBackend => PromptClaude(ms, system, encode, reply);
    var cost :- LogTokenUsage(response.counts, model);
    Ok(Answer(response.text, cost))
  }

  // ---------------------------------------------------------------------------
  // Properties

  /** `max_tokens` is accepted up to the model's output limit and rejected
      one above it; a temperature is accepted at 0 and at `max_temp` and
      rejected just outside. */
  lemma GuardBoundaries(model: string)
    requires model in AllLlms
    ensures var limit := AllLlms[model].data.outputLimit;
      && CheckRequest(model, limit, 0.0).Ok?
      && CheckRequest(model, limit + 1, 0.0) == Err(MaxTokensTooLarge(limit, limit + 1))
    ensures var limit := AllLlms[model].data.outputLimit; var t := AllLlms[model].maxTemp;
      && CheckRequest(model, limit, t).Ok?
      && CheckRequest(model, limit, t + 0.1) == Err(TemperatureOutOfRange(t, t + 0.1))
      && CheckRequest(model, limit, -0.1) == Err(TemperatureOutOfRange(t, -0.1))
  {
  }

  /** The defaults of `prompt_llm` (1000 tokens, temperature 1) and of
      `chat_with_llm` (1024 tokens) pass the guards for every catalog model. */
  lemma DefaultsAccepted(model: string)
    requires model in AllLlms
    ensures CheckRequest(model, 1000, 1.0).Ok?
    ensures CheckRequest(model, 1024, 1.0).Ok?
  {
    AllLlmsProvenance();
    MaxTempByProvider(model);
  }

  /** Exactly the OpenAI and Anthropic models have a backend; the Google
      models are listed in the catalog but always rejected. */
  lemma SupportedModels(model: string)
    requires model in AllLlms
    ensures SelectBackend(AllLlms[model].provider).Ok? <==> model in OpenaiLlms || model in AnthropicLlms
    ensures SelectBackend(AllLlms[model].provider) == Ok(AnthropicBackend) <==> model in AnthropicLlms
    ensures model in GoogleLlms ==> SelectBackend(AllLlms[model].provider) == Err(UnsupportedProvider("google"))
  {
    AllLlmsProvenance();
  }

  /** A Google model never gets a reply: it fails a guard or the provider switch. */
  lemma GoogleNeverPrompted(ms: seq<Message>, model: string, system: Prompt, maxTokens: int, temperature: real,
                            encode: string -> string, reply: Reply)
    requires model in GoogleLlms
    ensures PromptLlm(ms, model, system, maxTokens, temperature, encode, reply).Err?
    ensures CheckRequest(model, maxTokens, temperature).Ok?
            ==> PromptLlm(ms, model, system, maxTokens, temperature, encode, reply) == Err(UnsupportedProvider("google"))
  {
    SupportedModels(model);
  }

  /** For an OpenAI model that passes the guards, the call fails only when
      `gpt-3.5-turbo` reports cached tokens (it has no cache-read price), and
      otherwise costs the uncached input, the cached input and the output at
      their prices. */
  lemma OpenAIPromptCost(ms: seq<Message>, model: string, system: Prompt, maxTokens: int, temperature: real,
                         encode: string -> string, reply: Reply)
    requires model in OpenaiLlms && CheckRequest(model, maxTokens, temperature).Ok?
    ensures PromptLlm(ms, model, system, maxTokens, temperature, encode, reply).Ok?
        <==> reply.cachedTokens == 0 || model != "gpt-3.5-turbo"
    ensures PromptLlm(ms, model, system, maxTokens, temperature, encode, reply).Ok? ==>
      PromptLlm(ms, model, system, maxTokens, temperature, encode, reply).value
        == Answer(reply.text, LinearCost(AllLlms[model].data, PromptOpenAI(reply).counts))
  {
    SupportedModels(model);
    OpenAIFormat.PromptOpenAICostDefined(model, reply.text, reply.inputTokens, reply.cachedTokens, reply.outputTokens);
  }

  /** Anthropic replies carry no cache counters, so their cost is always defined. */
  lemma ClaudeResponseCost(model: string, reply: Reply)
    requires model in AnthropicLlms
    ensures model in AllLlms
    ensures LogTokenUsage(PromptClaudeResponse(reply.text, reply.inputTokens, reply.outputTokens).counts, model)
         == Ok(Weigh(AllLlms[model].data, reply.inputTokens, reply.outputTokens, 0, 0))
  {
    AllLlmsProvenance();
    var counts := PromptClaudeResponse(reply.text, reply.inputTokens, reply.outputTokens).counts;
    assert CacheWriteKey !in counts && CacheReadKey !in counts;
  }

  /** For an Anthropic model that passes the guards, the outcome is the
      outcome of `prompt_claude`, priced at the model's input and output rates. */
  lemma AnthropicDispatch(ms: seq<Message>, model: string, system: Prompt, maxTokens: int, temperature: real,
                          encode: string -> string, reply: Reply)
    requires model in AnthropicLlms && CheckRequest(model, maxTokens, temperature).Ok?
    ensures PromptLlm(ms, model, system, maxTokens, temperature, encode, reply)
         == if PromptClaude(ms, system, encode, reply).Ok?
            then Ok(Answer(reply.text, Weigh(AllLlms[model].data, reply.inputTokens, reply.outputTokens, 0, 0)))
            else Err(PromptClaude(ms, system, encode, reply).error)
  {
    SupportedModels(model);
    ClaudeResponseCost(model, reply);
  }

  /** For an Anthropic model that passes the guards, the call succeeds
      exactly when both the system prompt and the messages can be formatted,
      and costs its input and output tokens at the model's two prices. */
  lemma AnthropicPromptCost(ms: seq<Message>, model: string, system: Prompt, maxTokens: int, temperature: real,
                            encode: string -> string, reply: Reply)
    requires model in AnthropicLlms && CheckRequest(model, maxTokens, temperature).Ok?
    ensures PromptLlm(ms, model, system, maxTokens, temperature, encode, reply).Ok?
        <==> ImagesValid(WrapPrompt(system)) && ClaudeFormat.CacheKeysReachable(WrapPrompt(system))
             && ImagesValid(ms) && ClaudeFormat.CacheKeysReachable(ms)
    ensures PromptLlm(ms, model, system, maxTokens, temperature, encode, reply).Ok? ==>
      PromptLlm(ms, model, system, maxTokens, temperature, encode, reply).value
        == Answer(reply.text, Weigh(AllLlms[model].data, reply.inputTokens, reply.outputTokens, 0, 0))
  {
    AnthropicDispatch(ms, model, system, maxTokens, temperature, encode, reply);
    ClaudeFormat.ContentOkIff(WrapPrompt(system), encode);
    ClaudeFormat.ContentOkIff(ms, encode);
  }
}

=== FILE: gemini_format.dfy ===
/** `format_gemini_messages`: generic messages to Gemini `parts`. */
module GeminiFormat {
  import opened Results
  import opened Messages
  import ClaudeFormat

  /** A part. A text message is kept as the very dict it was (with any other
      keys it carries); code becomes a fresh `{"text": ...}`; an image becomes
      `{"inlineData": {"mimeType": ..., "data": ...}}`. */
  datatype Part =
    | DictPart(message: Message)
    | CodeText(text: string)
    | InlineData(mimeType: string, data: string)

  /** `{"role": "user" | "model", "parts": [...]}` */
  datatype Content = Content(role: string, parts: seq<Part>)

  /** A list of contents for `user` and `assistant`, a single dict for `system`. */
  datatype Formatted = Contents(contents: seq<Content>) | SystemInstruction(parts: seq<Part>)

  function PartOf(m: Message, encode: string -> string): (r: Result<seq<Part>>)
    ensures r.Err? <==> PayloadOf(m).ImagePayload? && ImageMediaType(PayloadOf(m).path).Err?
    ensures r.Err? ==> r.error == ImageMediaType(PayloadOf(m).path).error
    ensures r.Ok? ==> |r.value| == if PayloadOf(m).NoPayload? then 0 else 1
  {
    match PayloadOf(m)
    case TextPayload(_) => Ok([DictPart(Normalize(m))])
    case CodePayload(c) => Ok([CodeText(Fence("", c))])
    case ImagePayload(path) =>
      var mimeType :- ImageMediaType(path);
      Ok([InlineData(mimeType, encode(path))])
    case NoPayload => Ok([])
  }

  /** The loop of the formatter. */
  function Parts(ms: seq<Message>, encode: string -> string): Result<seq<Part>>
  {
    if ms == [] then Ok([])
    else
      var prev :- Parts(ms[..|ms| - 1], encode);
      var own :- PartOf(ms[|ms| - 1], encode);
      Ok(prev + own)
  }

  /** The role names Gemini uses: `assistant` is `model`. */
  function RoleName(role: Role): string
    requires role != System
  {
    if role == User then "user" else "model"
  }

  /** `format_gemini_messages(messages, role, cache_messages)` */
  function FormatGeminiMessages(ms: seq<Message>, role: Role, cacheMessages: bool, encode: string -> string)
    : (r: Result<Formatted>)
    ensures r.Ok? <==> Parts(ms, encode).Ok?
    ensures r.Ok? ==> (r.value.SystemInstruction? <==> role == System)
  {
    var parts :- Parts(ms, encode);
    match role
    case System => Ok(SystemInstruction(parts))
    case User => Ok(Contents([Content("user", parts)]))
    case Assistant => Ok(Contents([Content("model", parts)]))
  }

  // ---------------------------------------------------------------------------
  // Properties

  /** The loop succeeds exactly when every image passes the extension check,
      and then yields one part per message with a payload. */
  lemma {:induction false} PartsOkIff(ms: seq<Message>, encode: string -> string)
    ensures Parts(ms, encode).Ok? <==> ImagesValid(ms)
    ensures Parts(ms, encode).Ok? ==> |Parts(ms, encode).value| == ProducerCount(ms)
  {
    if ms != [] {
      PartsOkIff(ms[..|ms| - 1], encode);
      ImagesValidStep(ms);
    }
  }

  /** A bare string becomes `{"text": s}`, and a text dict is passed through
      unchanged, `cache` key included. */
  lemma TextPassesThrough(m: Message, role: Role, encode: string -> string)
    requires PayloadOf(m).TextPayload?
    ensures Parts([m], encode) == Ok([DictPart(Normalize(m))])
    ensures m.Bare? ==> Parts([m], encode) == Ok([DictPart(Fields(Some(m.s), None, None, false))])
  {
    var ms := [m];
    assert ms[..0] == [];
    assert Parts(ms[..0], encode) == Ok([]);
    var own := PartOf(ms[0], encode).value;
    assert [] + own == own;
  }

  /** Code becomes a fresh dict with the fenced text. */
  lemma CodeIsFenced(code: string, encode: string -> string)
    ensures Parts([Fields(None, Some(code), None, false)], encode) == Ok([CodeText("```\n" + code + "\n```")])
  {
    var ms := [Fields(None, Some(code), None, false)];
    assert ms[..0] == [];
    assert Parts(ms[..0], encode) == Ok([]);
    var own := PartOf(ms[0], encode).value;
    assert [] + own == own;
    assert Fence("", code) == "```\n" + code + "\n```";
  }

  /** User content keeps its role name, assistant content is sent as `model`,
      and the system role yields one bare `{"parts": ...}` dict with the same
      parts. The `cache_messages` flag changes nothing. */
  lemma RoleWrapping(ms: seq<Message>, cacheMessages: bool, encode: string -> string)
    requires Parts(ms, encode).Ok?
    ensures FormatGeminiMessages(ms, User, cacheMessages, encode)
         == Ok(Contents([Content("user", Parts(ms, encode).value)]))
    ensures FormatGeminiMessages(ms, Assistant, cacheMessages, encode)
         == Ok(Contents([Content("model", Parts(ms, encode).value)]))
    ensures FormatGeminiMessages(ms, System, cacheMessages, encode)
         == Ok(SystemInstruction(Parts(ms, encode).value))
  {
  }

  /** Gemini and Claude accept the same images: with no `cache` key in the
      messages, both formatters fail on exactly the same inputs. */
  lemma SameImageCheckAsClaude(ms: seq<Message>, encode: string -> string)
    requires forall i :: 0 <= i < |ms| ==> !HasCacheKey(ms[i])
    ensures Parts(ms, encode).Ok? <==> ImagesValid(ms)
    ensures FormatGeminiMessages(ms, User, false, encode).Ok? <==> ImagesValid(ms)
    ensures FormatGeminiMessages(ms, User, false, encode).Ok?
        <==> ClaudeFormat.FormatClaudeMessages(ms, User, false, encode).Ok?
  {
    PartsOkIff(ms, encode);
    ClaudeFormat.ContentOkIff(ms, encode);
  }
}

=== FILE: legacy_catalog.dfy ===
/** The older copy of the catalog in `third_party_apis/models.py`: OpenAI and
    Anthropic tables only, merged the same way as the current one. */
module LegacyCatalog {
  import opened Results
  import opened Catalog

  const OpenaiLlmNames: seq<string> := ["gpt-4o-mini", "gpt-3.5-turbo"]
  const AnthropicLlmNames: seq<string> := ["claude-3-5-sonnet-20240620", "claude-3-haiku-20240307"]
  /** `LLMsList = AnthropicLLMs | OpenaiLLMs` */
  const LlmNames: seq<string> := AnthropicLlmNames + OpenaiLlmNames

  const OpenaiLlms: map<string, ModelData> := map[
    "gpt-4o-mini" := ModelData(128000, 16384, 0.15, 0.60, None, None),
    "gpt-3.5-turbo" := ModelData(16385, 4096, 0.50, 1.50, None, None)
  ]

  const AnthropicLlms: map<string, ModelData> := map[
    "claude-3-5-sonnet-20240620" := ModelData(200000, 8192, 3.0, 15.0, Some(3.75), Some(0.3)),
    "claude-3-haiku-20240307" := ModelData(200000, 4096, 0.25, 1.25, Some(0.3), Some(0.03))
  ]

  const OpenaiSpeechRec: map<string, real> := map["whisper-1" := 0.0006]

  /** `ALL_LLMS` */
  const AllLlms: map<string, LlmEntry> :=
    Tag(OpenaiLlms, OpenAI, 2.0) + Tag(AnthropicLlms, Anthropic, 1.0)

  /** `ALL_SPEECH_REC` */
  const AllSpeechRec: map<string, SpeechRecognizer> :=
    map k | k in OpenaiSpeechRec :: SpeechRecognizer(OpenaiSpeechRec[k], OpenAI)

  /** The keys are the union of the two tables, each entry tagged with its
      table's provider and `max_temp` and otherwise unchanged. */
  lemma AllLlmsProvenance()
    ensures OpenaiLlms.Keys !! AnthropicLlms.Keys
    ensures AllLlms.Keys == OpenaiLlms.Keys + AnthropicLlms.Keys
    ensures forall k :: k in OpenaiLlms ==> AllLlms[k] == LlmEntry(OpenaiLlms[k], OpenAI, 2.0)
    ensures forall k :: k in AnthropicLlms ==> AllLlms[k] == LlmEntry(AnthropicLlms[k], Anthropic, 1.0)
  {
  }

  /** `max_temp` is 2 for OpenAI models and 1 for Anthropic ones, and only
      Anthropic entries carry cache prices. */
  lemma EntriesByProvider(model: string)
    requires model in AllLlms
    ensures AllLlms[model].provider in {OpenAI, Anthropic}
    ensures AllLlms[model].maxTemp == if AllLlms[model].provider == OpenAI then 2.0 else 1.0
    ensures AllLlms[model].data.cacheWriteCostPerM.Some? <==> AllLlms[model].provider == Anthropic
    ensures AllLlms[model].data.cacheReadCostPerM.Some? <==> AllLlms[model].provider == Anthropic
  {
    AllLlmsProvenance();
  }

  /** `whisper-1` is tagged `openai` with its per-minute cost unchanged, and
      every LLM key appears in `LLMsList`. */
  lemma NamesAndSpeechRec()
    ensures AllSpeechRec == map["whisper-1" := SpeechRecognizer(0.0006, OpenAI)]
    ensures forall k :: k in AllLlms <==> k in LlmNames
  {
    AllLlmsProvenance();
  }
}

/** The oldest catalog, `media_tools/models.py`: entries tagged with a
    provider only, with no `max_temp` and no cache prices. */
module LegacyModels {
  import opened Results
  import opened Catalog

  datatype TaggedEntry = TaggedEntry(data: ModelData, provider: Provider)

  /** The `ModelsList` literal. */
  const ModelNames: seq<string> := ["gpt-4o-mini", "gpt-3.5-turbo", "claude-3-5-sonnet-20240620", "claude-3-haiku-20240307"]

  const OpenaiModels: map<string, ModelData> := map[
    "gpt-4o-mini" := ModelData(128000, 16384, 0.15, 0.60, None, None),
    "gpt-3.5-turbo" := ModelData(16385, 4096, 0.50, 1.50, None, None)
  ]

  const AnthropicModels: map<string, ModelData> := map[
    "claude-3-5-sonnet-20240620" := ModelData(200000, 8192, 3.0, 15.0, None, None),
    "claude-3-haiku-20240307" := ModelData(200000, 4096, 0.25, 1.25, None, None)
  ]

  /** One merge loop: `{**model_data, "provider": p}`. */
  function TagProvider(table: map<string, ModelData>, provider: Provider): (r: map<string, TaggedEntry>)
    ensures r.Keys == table.Keys
    ensures forall k :: k in table ==> r[k] == TaggedEntry(table[k], provider)
  {
    map k | k in table :: TaggedEntry(table[k], provider)
  }

  /** `ALL_MODELS` */
  const AllModels: map<string, TaggedEntry> := TagProvider(OpenaiModels, OpenAI) + TagProvider(AnthropicModels, Anthropic)

  /** OpenAI-table entries are tagged `openai`, Anthropic-table entries
      `anthropic`, every other field is copied, and no entry has a cache price. */
  lemma AllModelsProvenance()
    ensures forall k :: k in OpenaiModels ==> AllModels[k] == TaggedEntry(OpenaiModels[k], OpenAI)
    ensures forall k :: k in AnthropicModels ==> AllModels[k] == TaggedEntry(AnthropicModels[k], Anthropic)
    ensures forall k :: k in AllModels ==>
      AllModels[k].data.cacheWriteCostPerM.None? && AllModels[k].data.cacheReadCostPerM.None?
  {
  }

  /** The key set of `ALL_MODELS` is exactly the `ModelsList` literal. */
  lemma AllModelsKeys()
    ensures forall k :: k in AllModels <==> k in ModelNames
  {
  }
}

=== FILE: messages.dfy ===
/** The provider-neutral message the formatters accept, the precedence they
    share, and the image checks two of them share. */
module Messages {
  import opened Results
  import opened Text
  import opened Paths

  /** The `role` argument of the formatters. */
  datatype Role = System | User | Assistant

  /** A generic message: a bare string, or a dict that may hold `text`,
      `code` and `image` keys and may hold a `cache` key (whose value is never
      read, only its presence). */
  datatype Message =
    | Bare(s: string)
    | Fields(text: Option<string>, code: Option<string>, image: Option<string>, cache: bool)

  /** `if type(message) is str: message = {"text": message}` */
  function Normalize(m: Message): (n: Message)
    ensures n.Fields?
  {
    match m
    case Bare(s) => Fields(Some(s), None, None, false)
    case Fields(_, _, _, _) => m
  }

  function NormalizeAll(ms: seq<Message>): (ns: seq<Message>)
    ensures |ns| == |ms|
    ensures forall i :: 0 <= i < |ms| ==> ns[i] == Normalize(ms[i])
  {
    seq(|ms|, i requires 0 <= i < |ms| => Normalize(ms[i]))
  }

  /** A `system_prompt` argument: a string or a list of messages. */
  datatype Prompt = PromptText(s: string) | PromptList(ms: seq<Message>)

  /** `if isinstance(system_prompt, str): system_prompt = [system_prompt]` */
  function WrapPrompt(p: Prompt): seq<Message>
  {
    match p
    case PromptText(s) => [Bare(s)]
    case PromptList(ms) => ms
  }

  /** Whether the message, once normalised, carries a `cache` key. */
  predicate HasCacheKey(m: Message) {
    Normalize(m).cache
  }

  /** What a message contributes, chosen in the formatters' order of
      precedence: `text`, else `code`, else `image`, else nothing. */
  datatype Payload = TextPayload(text: string) | CodePayload(code: string) | ImagePayload(path: string) | NoPayload

  function PayloadOf(m: Message): Payload
  {
    var n := Normalize(m);
    if n.text.Some? then TextPayload(n.text.value)
    else if n.code.Some? then CodePayload(n.code.value)
    else if n.image.Some? then ImagePayload(n.image.value)
    else NoPayload
  }

  /** The number of messages in `ms` that contribute a block. */
  function ProducerCount(ms: seq<Message>): nat
    ensures ProducerCount(ms) <= |ms|
  {
    if ms == [] then 0
    else ProducerCount(ms[..|ms| - 1]) + (if PayloadOf(ms[|ms| - 1]).NoPayload? then 0 else 1)
  }

  /** The number of blocks produced once message `i` has been processed. */
  function ProducedBy(ms: seq<Message>, i: int): nat
    requires 0 <= i < |ms|
  {
    ProducerCount(ms[..i + 1])
  }

  lemma ProducedByInit(ms: seq<Message>, i: int)
    requires 0 <= i < |ms| - 1
    ensures ProducedBy(ms, i) == ProducedBy(ms[..|ms| - 1], i)
  {
    assert ms[..i + 1] == ms[..|ms| - 1][..i + 1];
  }

  lemma ProducedByLast(ms: seq<Message>)
    requires |ms| > 0
    ensures ProducedBy(ms, |ms| - 1) == ProducerCount(ms)
  {
    assert ms[..|ms|] == ms;
  }

  lemma {:induction false} ProducedByBound(ms: seq<Message>, i: int)
    requires 0 <= i < |ms|
    ensures ProducedBy(ms, i) <= ProducerCount(ms)
    decreases |ms|
  {
    if i < |ms| - 1 {
      ProducedByInit(ms, i);
      ProducedByBound(ms[..|ms| - 1], i);
    } else {
      ProducedByLast(ms);
    }
  }

  /** A Markdown code fence around `code`, with an optional language tag. */
  function Fence(lang: string, code: string): string {
    "```" + lang + "\n" + code + "\n```"
  }

  /** The extensions the Anthropic and Google formatters accept. */
  const SupportedImageExtensions: seq<string> := ["png", "jpg", "jpeg", "gif", "webp"]

  /** `os.path.splitext(path)[1].strip('.').lower()` */
  function ImageExtension(path: string): string {
    Lower(Strip(SplitExt(path).1, '.'))
  }

  /** The extension check and `jpg` to `jpeg` rewrite of the Anthropic and
      Google formatters, giving the media type `"image/" + ext`. */
  function ImageMediaType(path: string): (r: Result<string>)
    ensures r.Ok? <==> ImageExtension(path) in SupportedImageExtensions
    ensures r.Err? ==> r.error == UnsupportedImageFormat(ImageExtension(path))
    ensures r.Ok? ==> r.value in ["image/png", "image/jpeg", "image/gif", "image/webp"]
    ensures r.Ok? && ImageExtension(path) != "jpg" ==> r.value == "image/" + ImageExtension(path)
    ensures r.Ok? && ImageExtension(path) == "jpg" ==> r.value == "image/jpeg"
  {
    var ext := ImageExtension(path);
    if ext !in SupportedImageExtensions then Err(UnsupportedImageFormat(ext))
    else
      var ext := if ext == "jpg" then "jpeg" else ext;
      MediaTypeNames(ext);
      Ok("image/" + ext)
  }

  lemma MediaTypeNames(ext: string)
    requires ext in ["png", "jpeg", "gif", "webp"]
    ensures "image/" + ext in ["image/png", "image/jpeg", "image/gif", "image/webp"]
  {
    if ext == "png" {
      assert "image/" + ext == "image/png";
    } else if ext == "jpeg" {
      assert "image/" + ext == "image/jpeg";
    } else if ext == "gif" {
      assert "image/" + ext == "image/gif";
    } else {
      assert "image/" + ext == "image/webp";
    }
  }

  /** Every image a message list would embed passes the extension check. */
  predicate ImagesValid(ms: seq<Message>) {
    forall i :: 0 <= i < |ms| && PayloadOf(ms[i]).ImagePayload? ==> ImageMediaType(PayloadOf(ms[i]).path).Ok?
  }

  lemma ImagesValidStep(ms: seq<Message>)
    requires |ms| > 0
    ensures ImagesValid(ms) <==> (ImagesValid(ms[..|ms| - 1]) &&
      (PayloadOf(ms[|ms| - 1]).ImagePayload? ==> ImageMediaType(PayloadOf(ms[|ms| - 1]).path).Ok?))
  {
    assert forall i :: 0 <= i < |ms| - 1 ==> ms[..|ms| - 1][i] == ms[i];
  }

  /** `strip('.')` of a dot followed by plain characters leaves the characters. */
  lemma StripDottedExtension(e: string)
    requires PlainChars(e)
    ensures Strip("." + e, '.') == e
  {
    var ext := "." + e;
    assert ext[1..] == e;
    assert TrimLeft(ext, '.') == TrimLeft(e, '.');
    assert e == [] || e[0] != '.';
    assert e == [] || e[|e| - 1] != '.';
  }

  /** For a file `root + "." + e` whose name has a stem, the check sees `e` lower-cased. */
  lemma ImageExtensionOfName(root: string, e: string)
    requires HasStem(root)
    requires PlainChars(e)
    ensures ImageExtension(root + "." + e) == Lower(e)
  {
    var ext := "." + e;
    assert ext[1..] == e;
    assert root + "." + e == root + ext;
    DottedIsExtension(e);
    SplitExtJoin(root, ext);
    StripDottedExtension(e);
  }

  /** Hence the check accepts exactly the five extensions, in any letter case,
      and emits `image/jpeg` for `jpg`. */
  lemma ImageMediaTypeOfName(root: string, e: string)
    requires HasStem(root)
    requires PlainChars(e)
    ensures ImageMediaType(root + "." + e).Ok? <==> Lower(e) in SupportedImageExtensions
    ensures Lower(e) == "jpg" ==> ImageMediaType(root + "." + e) == Ok("image/jpeg")
    ensures Lower(e) in SupportedImageExtensions && Lower(e) != "jpg" ==>
              ImageMediaType(root + "." + e) == Ok("image/" + Lower(e))
  {
    var path := root + "." + e;
    ImageExtensionOfName(root, e);
    var r := ImageMediaType(path);
    assert r.Ok? <==> Lower(e) in SupportedImageExtensions;
  }

  /** A name that is all extension, such as ".png", is a hidden file for
      `splitext` and has no extension, so the check rejects it. */
  lemma HiddenImageRejected(e: string)
    requires PlainChars(e)
    ensures ImageMediaType("." + e) == Err(UnsupportedImageFormat(""))
  {
    HiddenFileHasNoExtension(e);
    assert Strip([], '.') == [];
    assert ImageExtension("." + e) == [];
  }

  lemma HiddenFileHasNoExtension(e: string)
    requires PlainChars(e)
    ensures SplitExt("." + e).1 == []
  {
    var p := "." + e;
    RFindAppend(".", e, '.');
    RFindAppend(".", e, '/');
    assert RFind(e, '.') == -1;
    assert RFind(e, '/') == -1;
    assert RFind(".", '.') == 0 && RFindBefore(".", '/', 0) == -1;
    assert RFind(p, '.') == 0;
    assert RFind(p, '/') == -1;
  }

  /** The data URL the OpenAI code builds from a base64 payload, whatever the real image type. */
  function JpegDataUrl(base64: string): string {
    "data:image/jpeg;base64," + base64
  }
}

=== FILE: naming.dfy ===
/** File naming: `increment_file_name` (the same code appears in
    `aitools/media_tools/utils.py`, `utils.py` and `media_tools/utils.py`),
    the last-digit scheme of `create_image.py`, and `filenamify`. The file
    system is a finite set of existing paths. */
module Naming {
  import opened Results
  import opened Text
  import opened Paths

  // ---------------------------------------------------------------------------
  // `increment_file_name`

  /** `f"{base}_v{version}{ext}"`, where `base, ext = os.path.splitext(p)`. */
  function Versioned(p: string, n: nat): string {
    SplitExt(p).0 + "_v" + NatToString(n) + SplitExt(p).1
  }

  /** What `increment_file_name` promises: a free path is returned unchanged;
      otherwise the result is the versioned name for the least `N >= 2` whose
      name is free. */
  ghost predicate IsIncrement(p: string, existing: set<string>, r: string) {
    if p !in existing then r == p
    else exists n: nat :: IsLeastFreeVersion(p, existing, n) && r == Versioned(p, n)
  }

  /** `n >= 2` is the first version whose name is free. */
  predicate IsLeastFreeVersion(p: string, existing: set<string>, n: nat) {
    && n >= 2
    && Versioned(p, n) !in existing
    && forall k :: 2 <= k < n ==> Versioned(p, k) in existing
  }

  /** A versioned name is longer than the path it comes from. */
  lemma VersionedIsNew(p: string, n: nat)
    ensures Versioned(p, n) != p
  {
    SplitExtShape(p);
    assert |Versioned(p, n)| == |p| + 2 + |NatToString(n)|;
  }

  /** Different versions give different names. */
  lemma VersionedInjective(p: string, m: nat, n: nat)
    requires Versioned(p, m) == Versioned(p, n)
    ensures m == n
  {
    var (base, ext) := SplitExt(p);
    var a, b := NatToString(m), NatToString(n);
    var x, y := Versioned(p, m), Versioned(p, n);
    assert |a| == |b|;
    assert a == x[|base| + 2..|base| + 2 + |a|];
    assert b == y[|base| + 2..|base| + 2 + |b|];
    NatToStringInjective(m, n);
  }

  /** The name tried at step `v` of the loop: the path itself, then `_v2`, `_v3`, ... */
  function Candidate(p: string, v: nat): string {
    if v <= 1 then p else Versioned(p, v)
  }

  /** The names rejected before step `v`. */
  function Tried(p: string, v: nat): set<string> {
    if v <= 1 then {} else Tried(p, v - 1) + {Candidate(p, v - 1)}
  }

  /** No two steps try the same name. */
  lemma CandidatesDistinct(p: string, u: nat, v: nat)
    requires 1 <= u < v
    ensures Candidate(p, u) != Candidate(p, v)
  {
    if u == 1 {
      VersionedIsNew(p, v);
    } else if Versioned(p, u) == Versioned(p, v) {
      VersionedInjective(p, u, v);
    }
  }

  /** A name is never among those rejected before its own step. */
  lemma {:induction false} NotTriedBefore(p: string, u: nat, v: nat)
    requires 1 <= v <= u
    ensures Candidate(p, u) !in Tried(p, v)
  {
    if v > 1 {
      NotTriedBefore(p, u, v - 1);
      CandidatesDistinct(p, v - 1, u);
    }
  }

  /** Every earlier step's name is among the rejected ones. */
  lemma {:induction false} TriedHolds(p: string, u: nat, v: nat)
    requires 1 <= u < v
    ensures Candidate(p, u) in Tried(p, v)
  {
    if u < v - 1 {
      TriedHolds(p, u, v - 1);
    }
  }

  /** When every name before step `v >= 2` exists and the name of step `v`
      does not, `v` is the least free version. */
  lemma LeastFreeFromTried(p: string, existing: set<string>, v: nat)
    requires v >= 2 && Tried(p, v) <= existing && Versioned(p, v) !in existing
    ensures p in existing
    ensures IsLeastFreeVersion(p, existing, v)
  {
    TriedHolds(p, 1, v);
    forall k | 2 <= k < v
      ensures Versioned(p, k) in existing
    {
      TriedHolds(p, k, v);
    }
  }

  /** The loop of `increment_file_name`: it tries `_v2`, `_v3`, ... and
      stops at the first free name. It terminates because every name it
      rejects is an existing path it has not rejected before. */
  method IncrementFileName(p: string, existing: set<string>) returns (r: string)
    ensures r !in existing
    ensures IsIncrement(p, existing, r)
  {
    var version: nat := 1;
    r := p;
    ghost var seen: set<string> := {};
    while r in existing
      invariant version >= 1 && r == Candidate(p, version)
      invariant seen == Tried(p, version) && seen <= existing
      decreases |existing - seen|
    {
      NotTriedBefore(p, version, version);
      assert existing - (seen + {r}) < existing - seen;
      seen := seen + {r};
      version := version + 1;
      r := Versioned(p, version);
    }
    if version >= 2 {
      LeastFreeFromTried(p, existing, version);
    }
  }

  /** The promise fixes the result: two paths that both keep it are equal. */
  lemma IncrementIsUnique(p: string, existing: set<string>, r1: string, r2: string)
    requires IsIncrement(p, existing, r1) && IsIncrement(p, existing, r2)
    ensures r1 == r2
  {
    if p in existing {
      var n1: nat :| IsLeastFreeVersion(p, existing, n1) && r1 == Versioned(p, n1);
      var n2: nat :| IsLeastFreeVersion(p, existing, n2) && r2 == Versioned(p, n2);
      assert !(n1 < n2) && !(n2 < n1);
    }
  }

  /** The version suffix is inserted between the original root and the
      original extension: the extension is kept, and a versioned name's own
      root is the original root plus one suffix, so suffixes never stack. */
  lemma VersionedKeepsExtension(p: string, n: nat)
    ensures SplitExt(Versioned(p, n)) == (SplitExt(p).0 + "_v" + NatToString(n), SplitExt(p).1)
  {
    var t := "_v" + NatToString(n);
    var (root, ext) := SplitExt(p);
    assert root + "_v" + NatToString(n) == root + t;
    assert t[|t| - 1] == NatToString(n)[|NatToString(n)| - 1];
    assert forall i :: 0 <= i < |t| ==> t[i] != '.' by {
      forall i | 0 <= i < |t|
        ensures t[i] != '.'
      {
        if i >= 2 {
          assert t[i] == NatToString(n)[i - 2];
        }
      }
    }
    SplitExtInsert(p, t);
  }

  /** With the path and its `_v2` name taken, the result is the `_v3` name,
      whose root carries one suffix: suffixes do not stack. */
  lemma IncrementExample(p: string, r: string)
    requires IsIncrement(p, {p, Versioned(p, 2)}, r)
    ensures r == Versioned(p, 3)
    ensures SplitExt(r).0 == SplitExt(p).0 + "_v3"
  {
    var existing := {p, Versioned(p, 2)};
    VersionedIsNew(p, 3);
    if Versioned(p, 3) == Versioned(p, 2) {
      VersionedInjective(p, 3, 2);
    }
    assert IsLeastFreeVersion(p, existing, 3);
    IncrementIsUnique(p, existing, r, Versioned(p, 3));
    VersionedKeepsExtension(p, 3);
    assert NatToString(3) == "3";
  }

  // ---------------------------------------------------------------------------
  // The loop of `create_image.py`

  /** One step of the loop: the last character of the root is incremented
      if it is a digit (`9` becomes `10`), and `1` is appended otherwise.
      An empty root has no last character (`IndexError`). */
  function BumpName(p: string): (r: Result<string>)
    ensures r.Err? <==> p == []
  {
    SplitExtShape(p);
    var (base, ext) := SplitExt(p);
    if base == [] then Err(IndexOutOfRange)
    else
      var last := base[|base| - 1];
      if IsDigit(last) then Ok(base[..|base| - 1] + NatToString(DigitValue(last) + 1) + ext)
      else Ok(base + "1" + ext)
  }

  /** The order in which the loop visits names: by root length, then by the
      root's last digit. */
  function Rank(p: string): int {
    var base := SplitExt(p).0;
    if base == [] then -1
    else 10 * |base| + (if IsDigit(base[|base| - 1]) then DigitValue(base[|base| - 1]) else 0)
  }

  /** Replacing a final digit of a root by digits keeps the extension and
      gives the new root. */
  lemma ReplaceFinalDigit(p: string, t: string)
    requires SplitExt(p).0 != [] && IsDigit(SplitExt(p).0[|SplitExt(p).0| - 1])
    requires t != [] && AllDigits(t)
    ensures var (base, ext) := SplitExt(p);
      SplitExt(base[..|base| - 1] + t + ext) == (base[..|base| - 1] + t, ext)
  {
    var (base, ext) := SplitExt(p);
    SplitExtShape(p);
    var head := base[..|base| - 1];
    var c := base[|base| - 1];
    assert (head + t)[|head + t| - 1] == t[|t| - 1];
    if ext == [] {
      assert head + [c] == p && head + t + ext == head + t;
      NoExtDropLast(head, c);
      NoExtAppend(head, t);
    } else {
      HasStemOfLastChar(head + t);
      SplitExtJoin(head + t, ext);
    }
  }

  /** `str(d + 1)` for a digit `d`: one digit, or `10` after `9`. */
  lemma NextDigitString(d: nat)
    requires d < 10
    ensures d < 9 ==> NatToString(d + 1) == [DigitChar(d + 1)]
    ensures d == 9 ==> NatToString(d + 1) == "10"
  {
    if d == 9 {
      assert NatToString(10) == NatToString(1) + [DigitChar(0)];
    }
  }

  /** Every step moves to a higher rank and keeps the extension. */
  lemma BumpRaisesRank(p: string)
    requires BumpName(p).Ok?
    ensures Rank(BumpName(p).value) > Rank(p)
    ensures SplitExt(BumpName(p).value).1 == SplitExt(p).1
  {
    var (base, ext) := SplitExt(p);
    var last := base[|base| - 1];
    if IsDigit(last) {
      var d := DigitValue(last);
      var t := NatToString(d + 1);
      NextDigitString(d);
      ReplaceFinalDigit(p, t);
      var nb := base[..|base| - 1] + t;
      assert nb[|nb| - 1] == t[|t| - 1];
      if d == 9 {
        assert |nb| == |base| + 1;
      }
    } else {
      SplitExtInsert(p, "1");
    }
  }

  /** The name after `n` steps of the loop, or the error of the step that failed. */
  function Bumped(p: string, n: nat): Result<string> {
    if n == 0 then Ok(p)
    else
      var q :- Bumped(p, n - 1);
      BumpName(q)
  }

  /** Step `n` reaches the first free name: the names of all earlier steps exist. */
  predicate IsFirstFree(p: string, existing: set<string>, n: nat) {
    && Bumped(p, n).Ok? && Bumped(p, n).value !in existing
    && forall k :: 0 <= k < n ==> Bumped(p, k).Ok? && Bumped(p, k).value in existing
  }

  /** After `steps` steps the loop holds `path`, and every earlier name exists. */
  predicate OnChain(p: string, existing: set<string>, steps: nat, path: string) {
    && Bumped(p, steps) == Ok(path)
    && forall k :: 0 <= k < steps ==> Bumped(p, k).Ok? && Bumped(p, k).value in existing
  }

  /** One more step of the loop stays on the chain. */
  lemma OnChainStep(p: string, existing: set<string>, steps: nat, path: string)
    requires OnChain(p, existing, steps, path) && path in existing && BumpName(path).Ok?
    ensures OnChain(p, existing, steps + 1, BumpName(path).value)
  {
  }

  /** No step changes the extension. */
  lemma {:induction false} BumpedKeepsExtension(p: string, n: nat)
    requires Bumped(p, n).Ok?
    ensures SplitExt(Bumped(p, n).value).1 == SplitExt(p).1
  {
    if n > 0 {
      BumpedKeepsExtension(p, n - 1);
      BumpRaisesRank(Bumped(p, n - 1).value);
    }
  }

  /** What the loop keeps: it is on the chain, and every name it rejected
      exists and ranks below the current one. */
  predicate LoopState(p: string, existing: set<string>, steps: nat, path: string, seen: set<string>) {
    && OnChain(p, existing, steps, path)
    && seen <= existing
    && forall q :: q in seen ==> Rank(q) < Rank(path)
  }

  /** One step of the loop keeps its state and shrinks the set of existing
      names it can still visit. */
  lemma LoopStep(p: string, existing: set<string>, steps: nat, path: string, seen: set<string>)
    requires LoopState(p, existing, steps, path, seen) && path in existing && BumpName(path).Ok?
    ensures LoopState(p, existing, steps + 1, BumpName(path).value, seen + {path})
    ensures existing - (seen + {path}) < existing - seen
  {
    BumpRaisesRank(path);
    OnChainStep(p, existing, steps, path);
  }

  /** When the loop stops, it stopped at the first free name, which is the
      path itself when that is free. */
  lemma LoopExit(p: string, existing: set<string>, steps: nat, path: string)
    requires OnChain(p, existing, steps, path) && path !in existing
    ensures IsFirstFree(p, existing, steps)
    ensures p !in existing ==> path == p
    ensures SplitExt(path).1 == SplitExt(p).1
  {
    if steps > 0 {
      assert Bumped(p, 0) == Ok(p) && Bumped(p, 0).value in existing;
    }
    BumpedKeepsExtension(p, steps);
  }

  /** The loop of `create_image.py`: bump the name until it is free. It
      terminates because each step raises the rank, so no name comes back.
      The one failure is an existing empty path, whose root has no last
      character. */
  method FreeImagePath(p: string, existing: set<string>) returns (r: Result<string>)
    ensures p !in existing ==> r == Ok(p)
    ensures r.Ok? ==> r.value !in existing && SplitExt(r.value).1 == SplitExt(p).1
    ensures r.Ok? ==> exists n :: IsFirstFree(p, existing, n) && Bumped(p, n) == r
    ensures r.Err? ==> "" in existing && r == Err(IndexOutOfRange)
  {
    var path := p;
    ghost var steps: nat := 0;
    ghost var seen: set<string> := {};
    while path in existing
      invariant LoopState(p, existing, steps, path, seen)
      decreases |existing - seen|
    {
      var next := BumpName(path);
      if next.Err? {
        assert path == [];
        return Err(IndexOutOfRange);
      }
      LoopStep(p, existing, steps, path, seen);
      seen := seen + {path};
      steps := steps + 1;
      path := next.value;
    }
    LoopExit(p, existing, steps, path);
    return Ok(path);
  }

  /** `x9.png` becomes `x10.png`. */
  lemma BumpPastNine()
    ensures BumpName("x9.png") == Ok("x10.png")
  {
    assert "x9.png" == "x9" + ".png";
    assert PlainChars(".png"[1..]);
    HasStemOfLastChar("x9");
    SplitExtJoin("x9", ".png");
    NextDigitString(9);
    assert "x9"[..1] + "10" + ".png" == "x10.png";
  }

  /** `img.png` becomes `img1.png`. */
  lemma BumpAppendsOne()
    ensures BumpName("img.png") == Ok("img1.png")
  {
    assert "img.png" == "img" + ".png";
    assert PlainChars(".png"[1..]);
    HasStemOfLastChar("img");
    SplitExtJoin("img", ".png");
    assert "img" + "1" + ".png" == "img1.png";
  }

  // ---------------------------------------------------------------------------
  // `filenamify`

  /** `string.punctuation` */
  const Punctuation: string := "!\"#$%&'()*+,-./:;<=>?@[\\]^_`{|}~"

  /** `str.maketrans(' ', '_', string.punctuation)` applied to one character. */
  function TranslateChar(c: char): string {
    if c == ' ' then "_" else if c in Punctuation then "" else [c]
  }

  /** `s.translate(...)` */
  function Translate(s: string): string {
    if s == [] then [] else Translate(s[..|s| - 1]) + TranslateChar(s[|s| - 1])
  }

  /** `filenamify(s)`: spaces to `_`, punctuation (`_` included) removed,
      then lower-cased. */
  function Filenamify(s: string): string {
    Lower(Translate(s))
  }

  /** The output is no longer than the input, and holds no upper-case letter,
      no space and no punctuation but `_`. */
  lemma FilenamifyShape(s: string)
    ensures |Filenamify(s)| <= |s|
    ensures forall i :: 0 <= i < |Filenamify(s)| ==> !IsUpper(Filenamify(s)[i]) && Filenamify(s)[i] != ' '
    ensures forall i :: 0 <= i < |Filenamify(s)| ==> Filenamify(s)[i] in Punctuation ==> Filenamify(s)[i] == '_'
  {
    TranslateLength(s);
    TranslateNoSpace(s);
  }

  lemma {:induction false} TranslateLength(s: string)
    ensures |Translate(s)| <= |s|
  {
    if s != [] {
      TranslateLength(s[..|s| - 1]);
    }
  }

  /** Translation leaves no space, no punctuation but `_`, and no upper-case
      letter that lower-casing could turn into punctuation. */
  lemma {:induction false} TranslateNoSpace(s: string)
    ensures forall i :: 0 <= i < |Translate(s)| ==> Translate(s)[i] != ' '
    ensures forall i :: 0 <= i < |Translate(s)| ==> LowerChar(Translate(s)[i]) in Punctuation ==> Translate(s)[i] == '_'
  {
    if s != [] {
      TranslateNoSpace(s[..|s| - 1]);
    }
  }

  lemma {:induction false} TranslateAppend(a: string, b: string)
    ensures Translate(a + b) == Translate(a) + Translate(b)
  {
    if b == [] {
      assert a + b == a;
    } else {
      assert (a + b)[..|a + b| - 1] == a + b[..|b| - 1];
      TranslateAppend(a, b[..|b| - 1]);
    }
  }

  /** `filenamify` works character by character, in order: it distributes
      over concatenation, and maps a space to `_`, deletes punctuation and
      lower-cases every other character. */
  lemma FilenamifyCharwise(a: string, b: string, c: char)
    ensures Filenamify(a + b) == Filenamify(a) + Filenamify(b)
    ensures Filenamify([c]) == if c == ' ' then "_" else if c in Punctuation then "" else [LowerChar(c)]
  {
    TranslateAppend(a, b);
    assert Lower(Translate(a) + Translate(b)) == Lower(Translate(a)) + Lower(Translate(b));
    assert [c][..0] == [];
    assert Translate([c]) == TranslateChar(c);
  }

  /** One character yields one `_` exactly when it is a space. */
  lemma CharUnderscores(c: char)
    ensures Count('_', Filenamify([c])) == Count(' ', [c])
  {
    FilenamifyCharwise([], [], c);
    assert [c][..0] == [];
    assert Punctuation[26] == '_';
    var f := Filenamify([c]);
    if c == ' ' {
      assert f == "_" && f[..0] == [];
    } else if c !in Punctuation {
      assert f == [LowerChar(c)] && f[..0] == [];
    }
  }

  /** The output has exactly one `_` per space of the input. */
  lemma {:induction false} UnderscoresCountSpaces(s: string)
    ensures Count('_', Filenamify(s)) == Count(' ', s)
  {
    if s != [] {
      var init := s[..|s| - 1];
      var c := s[|s| - 1];
      assert s == init + [c];
      UnderscoresCountSpaces(init);
      FilenamifyCharwise(init, [c], c);
      CountAppend('_', Filenamify(init), Filenamify([c]));
      CountAppend(' ', init, [c]);
      CharUnderscores(c);
    }
  }

  /** A word character: neither a space nor punctuation. */
  predicate IsWordChar(c: char) {
    c != ' ' && c !in Punctuation
  }

  /** Lower-casing keeps a word character a word character. */
  lemma LowerWordChar(c: char)
    requires IsWordChar(c)
    ensures IsWordChar(LowerChar(c)) && LowerChar(LowerChar(c)) == LowerChar(c)
  {
    if IsUpper(c) {
      assert forall i :: 0 <= i < |Punctuation| ==> !('a' <= Punctuation[i] <= 'z');
    }
  }

  /** Two word characters around a space. */
  lemma SpacedPair(x: char, y: char)
    requires IsWordChar(x) && IsWordChar(y)
    ensures Filenamify([x, ' ', y]) == [LowerChar(x), '_', LowerChar(y)]
  {
    FilenamifyCharwise([x], [' ', y], x);
    FilenamifyCharwise([' '], [y], ' ');
    FilenamifyCharwise([], [], y);
    assert [x] + [' ', y] == [x, ' ', y] && [' '] + [y] == [' ', y];
  }

  /** Two word characters around `_`. */
  lemma UnderscoredPair(x: char, y: char)
    requires IsWordChar(x) && IsWordChar(y)
    ensures Filenamify([x, '_', y]) == [LowerChar(x), LowerChar(y)]
  {
    assert Punctuation[26] == '_';
    FilenamifyCharwise([x], ['_', y], x);
    FilenamifyCharwise(['_'], [y], '_');
    FilenamifyCharwise([], [], y);
    assert [x] + ['_', y] == [x, '_', y] && ['_'] + [y] == ['_', y];
  }

  /** `filenamify` is not idempotent: the `_` it makes for a space between
      two word characters is deleted by a second pass (`"A b"` becomes
      `"a_b"`, then `"ab"`). */
  lemma FilenamifyNotIdempotent(x: char, y: char)
    requires IsWordChar(x) && IsWordChar(y)
    ensures Filenamify([x, ' ', y]) == [LowerChar(x), '_', LowerChar(y)]
    ensures Filenamify(Filenamify([x, ' ', y])) == [LowerChar(x), LowerChar(y)]
    ensures Filenamify(Filenamify([x, ' ', y])) != Filenamify([x, ' ', y])
  {
    SpacedPair(x, y);
    LowerWordChar(x);
    LowerWordChar(y);
    UnderscoredPair(LowerChar(x), LowerChar(y));
  }
}

=== FILE: openai_format.dfy ===
/** `format_openai_messages`, the usage split of `prompt_openai` and the size
    guard of `generate_image_via_openai`. */
module OpenAIFormat {
  import opened Results
  import opened Text
  import opened Messages
  import opened Catalog
  import opened Usage

  /** A content part: `{"type": "text", ...}` or `{"type": "image_url", ...}`. */
  datatype Block = TextBlock(text: string) | ImageUrlBlock(url: string)

  /** `{"role": ..., "content": [...]}`, for any of the three roles. */
  datatype Msg = Msg(role: Role, content: seq<Block>)

  /** The block one message contributes: text as is, code fenced as `html`,
      an image as a JPEG data URL whatever its real type, with no check. */
  function BlockOf(m: Message, encode: string -> string): (r: seq<Block>)
    ensures |r| == if PayloadOf(m).NoPayload? then 0 else 1
    ensures PayloadOf(m).ImagePayload? ==> r == [ImageUrlBlock(JpegDataUrl(encode(PayloadOf(m).path)))]
  {
    match PayloadOf(m)
    case TextPayload(t) => [TextBlock(t)]
    case CodePayload(c) => [TextBlock(Fence("html", c))]
    case ImagePayload(path) => [ImageUrlBlock(JpegDataUrl(encode(path)))]
    case NoPayload => []
  }

  /** The loop of the formatter; it never fails. */
  function Content(ms: seq<Message>, encode: string -> string): seq<Block>
  {
    if ms == [] then [] else Content(ms[..|ms| - 1], encode) + BlockOf(ms[|ms| - 1], encode)
  }

  /** `format_openai_messages(messages, role, cache_messages)`: always a
      one-message list with the given role, `system` included. */
  function FormatOpenAIMessages(ms: seq<Message>, role: Role, cacheMessages: bool, encode: string -> string)
    : (r: seq<Msg>)
    ensures |r| == 1 && r[0].role == role
    ensures |r[0].content| == ProducerCount(ms)
  {
    ContentLength(ms, encode);
    [Msg(role, Content(ms, encode))]
  }

  // ---------------------------------------------------------------------------
  // Properties

  lemma {:induction false} ContentLength(ms: seq<Message>, encode: string -> string)
    ensures |Content(ms, encode)| == ProducerCount(ms)
  {
    if ms != [] {
      ContentLength(ms[..|ms| - 1], encode);
    }
  }

  /** Formatting distributes over concatenation: each message's block is
      computed on its own and they are kept in input order. */
  lemma {:induction false} ContentAppend(a: seq<Message>, b: seq<Message>, encode: string -> string)
    ensures Content(a + b, encode) == Content(a, encode) + Content(b, encode)
  {
    if b == [] {
      assert a + b == a;
    } else {
      assert (a + b)[..|a + b| - 1] == a + b[..|b| - 1];
      ContentAppend(a, b[..|b| - 1], encode);
    }
  }

  /** Each message that has a payload owns exactly one block, found at the
      position given by the number of payload messages up to it. */
  lemma BlockOfMessageAt(ms: seq<Message>, i: int, encode: string -> string)
    requires 0 <= i < |ms| && !PayloadOf(ms[i]).NoPayload?
    ensures 1 <= ProducedBy(ms, i) <= |Content(ms, encode)|
    ensures Content(ms, encode)[ProducedBy(ms, i) - 1] == BlockOf(ms[i], encode)[0]
  {
    var prefix := ms[..i + 1];
    assert ms == prefix + ms[i + 1..];
    ContentAppend(prefix, ms[i + 1..], encode);
    assert prefix[..i] == ms[..i];
    ContentLength(ms[..i], encode);
    assert prefix[..|prefix| - 1] == ms[..i];
    ContentLength(ms, encode);
    ProducedByBound(ms, i);
  }

  /** Normalising bare strings first changes nothing. */
  lemma {:induction false} ContentNormalized(ms: seq<Message>, encode: string -> string)
    ensures Content(NormalizeAll(ms), encode) == Content(ms, encode)
  {
    if ms != [] {
      assert NormalizeAll(ms)[..|ms| - 1] == NormalizeAll(ms[..|ms| - 1]);
      ContentNormalized(ms[..|ms| - 1], encode);
    }
  }

  /** A bare string message is formatted exactly like `{"text": s}`, and
      `cache_messages` has no effect on the output. */
  lemma FormatBareAsText(ms: seq<Message>, i: nat, s: string, role: Role, cacheMessages: bool, encode: string -> string)
    requires i < |ms| && ms[i] == Bare(s)
    ensures FormatOpenAIMessages(ms, role, cacheMessages, encode)
         == FormatOpenAIMessages(ms[i := Fields(Some(s), None, None, false)], role, false, encode)
  {
    var ms' := ms[i := Fields(Some(s), None, None, false)];
    assert NormalizeAll(ms) == NormalizeAll(ms');
    ContentNormalized(ms, encode);
    ContentNormalized(ms', encode);
  }

  /** `cache_messages` is accepted and ignored: the output never depends on it. */
  lemma CacheFlagIgnored(ms: seq<Message>, role: Role, encode: string -> string)
    ensures FormatOpenAIMessages(ms, role, true, encode) == FormatOpenAIMessages(ms, role, false, encode)
  {
  }

  /** A code message becomes one text block fenced as `html`. */
  lemma CodeIsFenced(code: string, role: Role, encode: string -> string)
    ensures FormatOpenAIMessages([Fields(None, Some(code), None, false)], role, false, encode)
         == [Msg(role, [TextBlock("```html\n" + code + "\n```")])]
  {
    var ms := [Fields(None, Some(code), None, false)];
    assert ms[..0] == [];
    assert Content(ms, encode) == BlockOf(ms[0], encode);
    assert Fence("html", code) == "```html\n" + code + "\n```";
  }

  /** Any image path, whatever its extension, becomes a JPEG data URL. */
  lemma AnyImageAccepted(path: string, role: Role, encode: string -> string)
    ensures FormatOpenAIMessages([Fields(None, None, Some(path), false)], role, false, encode)
         == [Msg(role, [ImageUrlBlock("data:image/jpeg;base64," + encode(path))])]
  {
    var ms := [Fields(None, None, Some(path), false)];
    assert ms[..0] == [];
    assert Content(ms, encode) == BlockOf(ms[0], encode);
  }

  // ---------------------------------------------------------------------------
  // `prompt_openai`

  /** The response dict of `prompt_openai`: the prompt tokens split into
      uncached input tokens and cache-read tokens. */
  function PromptOpenAIResponse(text: string, promptTokens: int, cachedTokens: int, completionTokens: int): (r: Response)
    ensures r.text == text
    ensures r.counts.Keys == {InputKey, CacheReadKey, OutputKey}
    ensures r.counts[InputKey] + r.counts[CacheReadKey] == promptTokens
    ensures r.counts[CacheReadKey] == cachedTokens && r.counts[OutputKey] == completionTokens
  {
    Response(text, map[InputKey := promptTokens - cachedTokens, CacheReadKey := cachedTokens, OutputKey := completionTokens])
  }

  /** Logging that response fails only for a model without a cache-read price
      (`gpt-3.5-turbo`) that reports cached tokens. */
  lemma PromptOpenAICostDefined(model: string, text: string, promptTokens: int, cachedTokens: int, completionTokens: int)
    requires model in OpenaiLlms
    ensures LogTokenUsage(PromptOpenAIResponse(text, promptTokens, cachedTokens, completionTokens).counts, model).Ok?
        <==> cachedTokens == 0 || model != "gpt-3.5-turbo"
  {
    AllLlmsProvenance();
    CachePrices(model);
  }

  /** As written, `prompt_openai` hands a string system prompt straight to the
      formatter, whose loop then walks the string one character at a time. */
  function CharMessages(s: string): (ms: seq<Message>)
    ensures |ms| == |s|
    ensures forall i :: 0 <= i < |s| ==> ms[i] == Bare([s[i]])
  {
    seq(|s|, i requires 0 <= i < |s| => Bare([s[i]]))
  }

  /** The messages the formatter sees for `system_prompt` in `prompt_openai` as written. */
  function SystemMessagesAsWritten(p: Prompt): seq<Message> {
    match p
    case PromptText(s) => CharMessages(s)
    case PromptList(ms) => ms
  }

  /** The system message `prompt_openai` sends, as written. */
  function PromptOpenAISystemAsWritten(p: Prompt, encode: string -> string): seq<Msg> {
    FormatOpenAIMessages(SystemMessagesAsWritten(p), System, false, encode)
  }

  /** The system message `prompt_openai` evidently means to send: a string
      prompt wrapped in a list first, as `prompt_claude` and `chat_with_llm` do. */
  function PromptOpenAISystem(p: Prompt, encode: string -> string): seq<Msg> {
    FormatOpenAIMessages(WrapPrompt(p), System, false, encode)
  }

  lemma {:induction false} CharContent(s: string, encode: string -> string)
    ensures Content(CharMessages(s), encode) == seq(|s|, i requires 0 <= i < |s| => TextBlock([s[i]]))
  {
    if s != [] {
      assert CharMessages(s)[..|s| - 1] == CharMessages(s[..|s| - 1]);
      CharContent(s[..|s| - 1], encode);
    }
  }

  /** As written, a string system prompt of `n` characters becomes `n`
      one-character text blocks, so the default prompt is sent in 28 pieces. */
  lemma SystemPromptSplitIntoCharacters(s: string, encode: string -> string)
    ensures PromptOpenAISystemAsWritten(PromptText(s), encode)
         == [Msg(System, seq(|s|, i requires 0 <= i < |s| => TextBlock([s[i]])))]
    ensures |PromptOpenAISystemAsWritten(PromptText("You are a helpful assistant."), encode)[0].content| == 28
  {
    CharContent(s, encode);
    CharContent("You are a helpful assistant.", encode);
  }

  /** Corrected, a string system prompt is one text block holding the whole string. */
  lemma SystemPromptIsOneBlock(s: string, encode: string -> string)
    ensures PromptOpenAISystem(PromptText(s), encode) == [Msg(System, [TextBlock(s)])]
  {
    var ms := [Bare(s)];
    assert ms[..0] == [];
    assert Content(ms, encode) == BlockOf(ms[0], encode);
  }

  // ---------------------------------------------------------------------------
  // `generate_image_via_openai`

  /** The size guard: the model is looked up in the OpenAI generator table
      (a `KeyError` for any other model) and the size must be listed for it. */
  function CheckImageSize(model: string, size: string): (r: Result<()>)
    ensures r.Ok? <==> model in OpenaiImageGenerators && size in OpenaiImageGenerators[model]
    ensures model !in OpenaiImageGenerators ==> r == Err(UnknownModel(model))
    ensures model in OpenaiImageGenerators && size !in OpenaiImageGenerators[model] ==> r == Err(InvalidImageSize(model, size))
  {
    if model !in OpenaiImageGenerators then Err(UnknownModel(model))
    else if size !in OpenaiImageGenerators[model] then Err(InvalidImageSize(model, size))
    else Ok(())
  }

  /** The guard accepts only sizes of the `OpenaiImageSizes` literal, rejects
      sizes the other DALL-E model lists, and does not know `recraft`. */
  lemma ImageSizeGuard()
    ensures forall model, size :: CheckImageSize(model, size).Ok? ==> size in OpenaiImageSizes
    ensures CheckImageSize("dall-e-2", "1792x1024") == Err(InvalidImageSize("dall-e-2", "1792x1024"))
    ensures CheckImageSize("dall-e-3", "256x256") == Err(InvalidImageSize("dall-e-3", "256x256"))
    ensures CheckImageSize("recraft", "1024x1024") == Err(UnknownModel("recraft"))
  {
    ImageGeneratorsProvenance();
  }
}

=== FILE: paths.dfy ===
/** POSIX `os.path.splitext`, which the image check, the mp3 conversion and
    the file-naming helpers all rely on, with the facts about it they need. */
module Paths {
  import opened Text

  /** Every character of `s` from `lo` up to `hi` is a dot (true of an empty range). */
  predicate DotsBetween(s: string, lo: int, hi: int)
    requires 0 <= lo <= hi <= |s|
  {
    forall i :: lo <= i < hi ==> s[i] == '.'
  }

  /** `s` holds neither an extension separator nor a path separator. */
  predicate PlainChars(s: string) {
    forall i :: 0 <= i < |s| ==> s[i] != '.' && s[i] != '/'
  }

  /** The last path component of `root` has a character other than '.', so a
      dot placed after it starts an extension rather than a hidden-file name. */
  predicate HasStem(root: string) {
    !DotsBetween(root, RFind(root, '/') + 1, |root|)
  }

  /** The shape of the extension `splitext` returns: empty, or one dot followed by plain characters. */
  predicate IsExtension(ext: string) {
    ext == [] || (ext[0] == '.' && forall i :: 1 <= i < |ext| ==> ext[i] != '.' && ext[i] != '/')
  }

  /** `os.path.splitext(p)`: the extension starts at the last '.', provided it
      lies in the last path component and that component does not consist of
      dots only up to it (so ".bashrc" and "a/.." have no extension). */
  function SplitExt(p: string): (string, string) {
    var sep := RFind(p, '/');
    var dot := RFind(p, '.');
    if dot > sep && !DotsBetween(p, sep + 1, dot) then (p[..dot], p[dot..]) else (p, [])
  }

  /** The two parts rebuild the path; the extension is empty or one dot and
      plain characters, and then follows a root with a stem; a non-empty path
      has a non-empty root. */
  lemma SplitExtShape(p: string)
    ensures SplitExt(p).0 + SplitExt(p).1 == p
    ensures IsExtension(SplitExt(p).1)
    ensures SplitExt(p).1 != [] ==> HasStem(SplitExt(p).0)
    ensures p != [] ==> SplitExt(p).0 != []
  {
    var sep := RFind(p, '/');
    var dot := RFind(p, '.');
    if dot > sep && !DotsBetween(p, sep + 1, dot) {
      var root, ext := p[..dot], p[dot..];
      assert root + ext == p;
      RFindIsLast(p, '.');
      RFindIsLast(p, '/');
      assert IsExtension(ext) by {
        forall i | 1 <= i < |ext|
          ensures ext[i] != '.' && ext[i] != '/'
        {
          assert ext[i] == p[dot + i];
        }
      }
      assert RFind(root, '/') == sep by {
        RFindAppend(root, ext, '/');
        assert RFind(ext, '/') == -1;
      }
      assert HasStem(root);
    }
  }

  /** A dot followed by plain characters is an extension. */
  lemma DottedIsExtension(e: string)
    requires PlainChars(e)
    ensures IsExtension("." + e)
  {
    var ext := "." + e;
    forall i | 1 <= i < |ext|
      ensures ext[i] != '.' && ext[i] != '/'
    {
      assert ext[i] == e[i - 1];
    }
  }

  /** Appending a plain extension to a root with a stem is undone by `splitext`. */
  lemma SplitExtJoin(root: string, ext: string)
    requires HasStem(root)
    requires ext != [] && IsExtension(ext)
    ensures SplitExt(root + ext) == (root, ext)
  {
    var p := root + ext;
    var sep := RFind(root, '/');
    assert RFind(p, '/') == sep by {
      RFindAppend(root, ext, '/');
      assert RFind(ext, '/') == -1;
    }
    assert RFind(p, '.') == |root| by {
      RFindAppend(root, ext, '.');
      RFindIsLast(ext, '.');
      assert RFind(ext, '.') == 0;
    }
    assert forall i :: 0 <= i < |root| ==> p[i] == root[i];
    assert DotsBetween(p, sep + 1, |root|) == DotsBetween(root, sep + 1, |root|);
  }

  /** Appending characters without a dot to a path without an extension gives none. */
  lemma NoExtAppend(p: string, t: string)
    requires SplitExt(p).1 == []
    requires forall i :: 0 <= i < |t| ==> t[i] != '.'
    ensures SplitExt(p + t) == (p + t, [])
  {
    var q := p + t;
    var sep, dot := RFind(p, '/'), RFind(p, '.');
    assert RFind(q, '.') == dot by {
      RFindAppend(p, t, '.');
      assert RFind(t, '.') == -1;
    }
    assert RFind(q, '/') >= |p| || RFind(q, '/') == sep by {
      RFindAppend(p, t, '/');
    }
    assert dot > sep ==> DotsBetween(q, sep + 1, dot) == DotsBetween(p, sep + 1, dot);
  }

  /** Dropping a final plain character from a path without an extension leaves none. */
  lemma NoExtDropLast(p: string, c: char)
    requires c != '.' && c != '/'
    requires SplitExt(p + [c]).1 == []
    ensures SplitExt(p).1 == []
  {
    var q := p + [c];
    var sep, dot := RFind(p, '/'), RFind(p, '.');
    assert RFind(q, '/') == sep && RFind(q, '.') == dot by {
      RFindAppend(p, [c], '/');
      RFindAppend(p, [c], '.');
      assert RFindBefore([c], '/', 0) == -1 && RFindBefore([c], '.', 0) == -1;
      assert RFind([c], '/') == -1 && RFind([c], '.') == -1;
    }
    assert forall i :: 0 <= i < |p| ==> q[i] == p[i];
    assert dot > sep ==> DotsBetween(q, sep + 1, dot) == DotsBetween(p, sep + 1, dot);
  }

  /** A path whose last character is plain has a stem. */
  lemma HasStemOfLastChar(b: string)
    requires |b| > 0 && b[|b| - 1] != '.' && b[|b| - 1] != '/'
    ensures HasStem(b)
  {
  }

  /** Inserting plain characters between the root and the extension keeps the
      extension and extends the root: this is why the naming helpers never
      change a file's type. */
  lemma SplitExtInsert(p: string, t: string)
    requires t != [] && t[|t| - 1] != '/'
    requires forall i :: 0 <= i < |t| ==> t[i] != '.'
    ensures SplitExt(SplitExt(p).0 + t + SplitExt(p).1) == (SplitExt(p).0 + t, SplitExt(p).1)
  {
    var (root, ext) := SplitExt(p);
    SplitExtShape(p);
    if ext == [] {
      assert root + t + ext == p + t;
      NoExtAppend(p, t);
    } else {
      assert (root + t)[|root + t| - 1] == t[|t| - 1];
      HasStemOfLastChar(root + t);
      SplitExtJoin(root + t, ext);
    }
  }
}

=== FILE: results.dfy ===
/** Failure-compatible wrappers and the errors the toolkit raises.

    Every Python exception the modelled code can raise on its own inputs is an
    `Error` here; a function that can raise returns a `Result`. */
module Results {

  datatype Option<+T> = None | Some(value: T) {

    /** `d.get(key, default)` on a value that may be absent. */
    function GetOr(default: T): T {
      match this
      case Some(v) => v
      case None => default
    }
  }

  /** The exceptions of the modelled code, one constructor per cause. */
  datatype Error =
    | UnsupportedImageFormat(ext: string)               // the formatters' `assert ext in [...]`
    | IndexOutOfRange                                   // `content[-1]` on an empty list
    | UnknownModel(model: string)                       // a catalog lookup `ALL_LLMS[model]` (KeyError)
    | MissingKey(key: string)                           // any other dict lookup (KeyError)
    | MaxTokensTooLarge(limit: int, maxTokens: int)     // `assert max_tokens <= output_limit`
    | TemperatureOutOfRange(maxTemp: real, temperature: real) // `assert 0 <= temperature <= max_temp`
    | UnsupportedProvider(provider: string)             // `raise ValueError(...)`
    | InvalidImageSize(model: string, size: string)     // `assert size in model_info['sizes']`
    | KeyOnString(key: string)                          // `s[key]` on a `str` (TypeError)

  datatype Result<+T> = Ok(value: T) | Err(error: Error) {

    predicate IsFailure() {
      Err?
    }

    function PropagateFailure<U>(): Result<U>
      requires Err?
    {
      Err(error)
    }

    function Extract(): T
      requires Ok?
    {
      value
    }
  }
}

=== FILE: text.dfy ===
/** String helpers the toolkit borrows from Python's `str`: ASCII case and
    digits, `str(n)` for naturals, substring search, `strip`, `rfind` and
    `endswith`. Strings are `seq<char>`; only the ASCII behaviour of `lower`
    and `isdigit` is modelled. */
module Text {

  predicate IsDigit(c: char) {
    '0' <= c <= '9'
  }

  predicate IsUpper(c: char) {
    'A' <= c <= 'Z'
  }

  predicate AllDigits(s: string) {
    forall i :: 0 <= i < |s| ==> IsDigit(s[i])
  }

  function DigitValue(c: char): nat
    requires IsDigit(c)
  {
    c as int - '0' as int
  }

  function DigitChar(d: nat): (c: char)
    requires d < 10
    ensures IsDigit(c) && DigitValue(c) == d
  {
    ('0' as int + d) as char
  }

  /** `c.lower()` for an ASCII character. */
  function LowerChar(c: char): (l: char)
    ensures !IsUpper(l)
    ensures !IsUpper(c) ==> l == c
  {
    if IsUpper(c) then (c as int + 32) as char else c
  }

  /** `s.lower()`, ASCII only. */
  function Lower(s: string): (r: string)
    ensures |r| == |s|
    ensures forall i :: 0 <= i < |r| ==> !IsUpper(r[i])
    ensures forall i :: 0 <= i < |r| ==> r[i] == LowerChar(s[i])
  {
    seq(|s|, i requires 0 <= i < |s| => LowerChar(s[i]))
  }

  /** Decimal digits to the number they spell (most significant first). */
  function ParseDigits(s: string): nat
    requires AllDigits(s)
  {
    if s == [] then 0 else 10 * ParseDigits(s[..|s| - 1]) + DigitValue(s[|s| - 1])
  }

  /** `str(n)` for a non-negative integer. */
  function NatToString(n: nat): (s: string)
    ensures |s| > 0 && AllDigits(s)
    ensures s[0] == '0' ==> n == 0
  {
    if n < 10 then [DigitChar(n)] else NatToString(n / 10) + [DigitChar(n % 10)]
  }

  lemma {:induction false} ParseNatToString(n: nat)
    ensures ParseDigits(NatToString(n)) == n
  {
    if n >= 10 {
      var s := NatToString(n);
      assert s[..|s| - 1] == NatToString(n / 10);
      ParseNatToString(n / 10);
    }
  }

  /** `str` is injective on naturals: distinct numbers never share a decimal form. */
  lemma NatToStringInjective(m: nat, n: nat)
    ensures NatToString(m) == NatToString(n) ==> m == n
  {
    ParseNatToString(m);
    ParseNatToString(n);
  }

  /** The number of occurrences of `c` in `s`. */
  function Count(c: char, s: string): nat
  {
    if s == [] then 0 else Count(c, s[..|s| - 1]) + (if s[|s| - 1] == c then 1 else 0)
  }

  lemma {:induction false} CountAppend(c: char, a: string, b: string)
    ensures Count(c, a + b) == Count(c, a) + Count(c, b)
  {
    if b != [] {
      assert (a + b)[..|a + b| - 1] == a + b[..|b| - 1];
      CountAppend(c, a, b[..|b| - 1]);
    } else {
      assert a + b == a;
    }
  }

  lemma {:induction false} CountZero(c: char, s: string)
    ensures Count(c, s) == 0 <==> forall i :: 0 <= i < |s| ==> s[i] != c
  {
    if s != [] {
      CountZero(c, s[..|s| - 1]);
    }
  }

  /** `sub` occurs in `s` starting at index `i`. */
  predicate OccursAt(s: string, sub: string, i: int) {
    0 <= i <= |s| - |sub| && s[i..i + |sub|] == sub
  }

  /** `sub in s` for strings: does `sub` occur in `s` as a contiguous slice? */
  function Contains(s: string, sub: string): (b: bool)
    ensures b <==> exists i :: OccursAt(s, sub, i)
    decreases |s|
  {
    if |s| < |sub| then false
    else if s[..|sub|] == sub then assert OccursAt(s, sub, 0); true
    else
      var rest := Contains(s[1..], sub);
      assert rest ==> exists i :: OccursAt(s, sub, i) by {
        if rest {
          var j :| OccursAt(s[1..], sub, j);
          assert s[j + 1..j + 1 + |sub|] == sub;
          assert OccursAt(s, sub, j + 1);
        }
      }
      assert (exists i :: OccursAt(s, sub, i)) ==> rest by {
        if exists i :: OccursAt(s, sub, i) {
          var i :| OccursAt(s, sub, i);
          assert i != 0;
          assert s[1..][i - 1..i - 1 + |sub|] == sub;
          assert OccursAt(s[1..], sub, i - 1);
        }
      }
      rest
  }

  /** `s.endswith(suffix)`. */
  predicate EndsWith(s: string, suffix: string) {
    |suffix| <= |s| && s[|s| - |suffix|..] == suffix
  }

  /** The index of the last `c` among the first `n` characters of `s`, or -1. */
  function RFindBefore(s: string, c: char, n: nat): (r: int)
    requires n <= |s|
    ensures -1 <= r < n
    ensures r >= 0 ==> s[r] == c
  {
    if n == 0 then -1 else if s[n - 1] == c then n - 1 else RFindBefore(s, c, n - 1)
  }

  /** `s.rfind(c)`: the index of the last `c` in `s`, or -1. */
  function RFind(s: string, c: char): (r: int)
    ensures -1 <= r < |s|
    ensures r >= 0 ==> s[r] == c
  {
    RFindBefore(s, c, |s|)
  }

  lemma {:induction false} RFindBeforeIsLast(s: string, c: char, n: nat)
    requires n <= |s|
    ensures forall j :: RFindBefore(s, c, n) < j < n ==> s[j] != c
  {
    if n > 0 && s[n - 1] != c {
      RFindBeforeIsLast(s, c, n - 1);
    }
  }

  /** No `c` follows the one `rfind` finds. */
  lemma RFindIsLast(s: string, c: char)
    ensures forall j :: RFind(s, c) < j < |s| ==> s[j] != c
  {
    RFindBeforeIsLast(s, c, |s|);
  }

  /** The search only looks at the characters before `n`. */
  lemma {:induction false} RFindBeforeAgree(s: string, t: string, c: char, n: nat)
    requires n <= |s| && n <= |t|
    requires forall i :: 0 <= i < n ==> s[i] == t[i]
    ensures RFindBefore(s, c, n) == RFindBefore(t, c, n)
  {
    if n > 0 {
      RFindBeforeAgree(s, t, c, n - 1);
    }
  }

  lemma {:induction false} RFindBeforeAppend(s: string, t: string, c: char, k: nat)
    requires k <= |t|
    ensures RFindBefore(s + t, c, |s| + k)
         == if RFindBefore(t, c, k) >= 0 then |s| + RFindBefore(t, c, k) else RFind(s, c)
  {
    if k == 0 {
      RFindBeforeAgree(s + t, s, c, |s|);
    } else {
      assert (s + t)[|s| + k - 1] == t[k - 1];
      RFindBeforeAppend(s, t, c, k - 1);
    }
  }

  /** `rfind` on a concatenation looks in the right part first. */
  lemma RFindAppend(s: string, t: string, c: char)
    ensures RFind(s + t, c) == if RFind(t, c) >= 0 then |s| + RFind(t, c) else RFind(s, c)
  {
    RFindBeforeAppend(s, t, c, |t|);
  }

  /** `s.lstrip(c)`. */
  function TrimLeft(s: string, c: char): (r: string)
    ensures |r| <= |s| && r == s[|s| - |r|..]
    ensures r == [] || r[0] != c
    ensures forall i :: 0 <= i < |s| - |r| ==> s[i] == c
  {
    if s != [] && s[0] == c then TrimLeft(s[1..], c) else s
  }

  /** `s.rstrip(c)`. */
  function TrimRight(s: string, c: char): (r: string)
    ensures |r| <= |s| && r == s[..|r|]
    ensures r == [] || r[|r| - 1] != c
    ensures forall i :: |r| <= i < |s| ==> s[i] == c
  {
    if s != [] && s[|s| - 1] == c then TrimRight(s[..|s| - 1], c) else s
  }

  /** `r` is the slice of `s` starting at index `i`. */
  predicate SliceAt(s: string, r: string, i: int) {
    0 <= i <= |s| - |r| && r == s[i..i + |r|]
  }

  /** `s.strip(c)`: the longest middle slice of `s` neither starting nor ending in `c`. */
  function Strip(s: string, c: char): (r: string)
    ensures exists i :: SliceAt(s, r, i)
    ensures r == [] || (r[0] != c && r[|r| - 1] != c)
  {
    var left := TrimLeft(s, c);
    var r := TrimRight(left, c);
    assert SliceAt(s, r, |s| - |left|);
    r
  }
}

=== FILE: usage.dfy ===
/** Token usage: the counters a backend reports, their running totals in the
    chat loop, and the dollar cost `log_token_usage` computes from them. */
module Usage {
  import opened Results
  import opened Text
  import opened Catalog

  /** What a backend returns: the reply text and its integer counters
      (`input_tokens`, `output_tokens`, possibly `cache_write_tokens` and
      `cache_read_tokens`). */
  datatype Response = Response(text: string, counts: map<string, int>)

  const InputKey: string := "input_tokens"
  const OutputKey: string := "output_tokens"
  const CacheWriteKey: string := "cache_write_tokens"
  const CacheReadKey: string := "cache_read_tokens"

  /** `'token' in key` */
  predicate IsTokenKey(k: string) {
    Contains(k, "token")
  }

  /** `usage.get(key, 0)` */
  function Get(usage: map<string, int>, k: string): int {
    if k in usage then usage[k] else 0
  }

  lemma CounterKeysAreTokenKeys()
    ensures IsTokenKey(InputKey) && IsTokenKey(OutputKey) && IsTokenKey(CacheWriteKey) && IsTokenKey(CacheReadKey)
  {
    assert OccursAt(InputKey, "token", 6);
    assert OccursAt(OutputKey, "token", 7);
    assert OccursAt(CacheWriteKey, "token", 12);
    assert OccursAt(CacheReadKey, "token", 11);
  }

  /** The usage update of the chat loop: every response key containing
      "token" is added to the running total; other keys are ignored. */
  function AddUsage(usage: map<string, int>, counts: map<string, int>): (r: map<string, int>)
    ensures forall k :: k in r <==> k in usage || (k in counts && IsTokenKey(k))
    ensures forall k :: IsTokenKey(k) ==> Get(r, k) == Get(usage, k) + Get(counts, k)
    ensures forall k :: !IsTokenKey(k) ==> Get(r, k) == Get(usage, k)
  {
    map k | k in usage.Keys + counts.Keys && (k in usage || IsTokenKey(k)) ::
      Get(usage, k) + (if IsTokenKey(k) then Get(counts, k) else 0)
  }

  /** The usage totals after a sequence of responses, starting from `{}`. */
  function Totals(rs: seq<Response>): map<string, int>
  {
    if rs == [] then map[] else AddUsage(Totals(rs[..|rs| - 1]), rs[|rs| - 1].counts)
  }

  /** Reference: the sum of one counter over a sequence of responses. */
  function SumOf(rs: seq<Response>, k: string): int
  {
    if rs == [] then 0 else SumOf(rs[..|rs| - 1], k) + Get(rs[|rs| - 1].counts, k)
  }

  /** Some response in `rs` reports counter `k`. */
  predicate Reports(rs: seq<Response>, k: string) {
    exists i :: 0 <= i < |rs| && k in rs[i].counts
  }

  lemma ReportsStep(rs: seq<Response>, k: string)
    requires |rs| > 0
    ensures Reports(rs, k) <==> (Reports(rs[..|rs| - 1], k) || k in rs[|rs| - 1].counts)
  {
    var init := rs[..|rs| - 1];
    if Reports(rs, k) {
      var i :| 0 <= i < |rs| && k in rs[i].counts;
      if i < |init| {
        assert init[i] == rs[i];
      }
    }
    if Reports(init, k) {
      var i :| 0 <= i < |init| && k in init[i].counts;
      assert rs[i] == init[i];
    }
  }

  /** The totals hold exactly the token counters some response reported, each
      the sum of that counter over all responses. */
  lemma {:induction false} TotalsAreSums(rs: seq<Response>, k: string)
    ensures k in Totals(rs) <==> IsTokenKey(k) && Reports(rs, k)
    ensures Get(Totals(rs), k) == if IsTokenKey(k) then SumOf(rs, k) else 0
  {
    if rs != [] {
      TotalsAreSums(rs[..|rs| - 1], k);
      ReportsStep(rs, k);
    }
  }

  /** The cost formula with every absent count and every absent price read as 0. */
  function LinearCost(d: ModelData, usage: map<string, int>): real {
    Weigh(d, Get(usage, InputKey), Get(usage, OutputKey), Get(usage, CacheWriteKey), Get(usage, CacheReadKey))
  }

  /** Dollars for the four counters at the prices `d`. */
  function Weigh(d: ModelData, tokIn: int, tokOut: int, tokWrite: int, tokRead: int): real {
    (tokIn as real * d.inputCostPerM
      + tokOut as real * d.outputCostPerM
      + tokWrite as real * d.cacheWriteCostPerM.GetOr(0.0)
      + tokRead as real * d.cacheReadCostPerM.GetOr(0.0)) / 1000000.0
  }

  /** The per-token rate of a cache price, looked up only for a nonzero count
      (`price / 1000000 if tokens else 0`); an absent price is a `KeyError`. */
  function CacheRate(tokens: int, price: Option<real>, key: string): (r: Result<real>)
    ensures r.Err? <==> tokens != 0 && price.None?
    ensures r.Err? ==> r.error == MissingKey(key)
    ensures r.Ok? ==> tokens as real * r.value == tokens as real * price.GetOr(0.0) / 1000000.0
  {
    if tokens == 0 then Ok(0.0)
    else if price.Some? then Ok(price.value / 1000000.0)
    else Err(MissingKey(key))
  }

  /** Every cache counter that is nonzero has a price at `d`. */
  predicate Priceable(usage: map<string, int>, d: ModelData) {
    && (Get(usage, CacheWriteKey) != 0 ==> d.cacheWriteCostPerM.Some?)
    && (Get(usage, CacheReadKey) != 0 ==> d.cacheReadCostPerM.Some?)
  }

  /** The cost of counts that hold both main counters, at the prices `d`. */
  function PricedCost(usage: map<string, int>, d: ModelData): (r: Result<real>)
    requires InputKey in usage && OutputKey in usage
    ensures r.Ok? <==> Priceable(usage, d)
    ensures r.Ok? ==> r.value == LinearCost(d, usage)
    ensures r.Err? ==> r.error in {MissingKey("cache_write_cost_per_M"), MissingKey("cache_read_cost_per_M")}
  {
    var tokIn := usage[InputKey];
    var tokOut := usage[OutputKey];
    var tokWrite := Get(usage, CacheWriteKey);
    var tokRead := Get(usage, CacheReadKey);
    var writeRate :- CacheRate(tokWrite, d.cacheWriteCostPerM, "cache_write_cost_per_M");
    var readRate :- CacheRate(tokRead, d.cacheReadCostPerM, "cache_read_cost_per_M");
    assert LinearCost(d, usage) == Weigh(d, tokIn, tokOut, tokWrite, tokRead);
    CostTerms(tokIn as real, tokOut as real, tokWrite as real * writeRate, tokRead as real * readRate, d,
              tokWrite as real * d.cacheWriteCostPerM.GetOr(0.0), tokRead as real * d.cacheReadCostPerM.GetOr(0.0));
    Ok(tokIn as real * d.inputCostPerM / 1000000.0
      + tokOut as real * d.outputCostPerM / 1000000.0
      + tokWrite as real * writeRate
      + tokRead as real * readRate)
  }

  lemma CostTerms(tokIn: real, tokOut: real, write: real, read: real, d: ModelData, write': real, read': real)
    requires write == write' / 1000000.0 && read == read' / 1000000.0
    ensures tokIn * d.inputCostPerM / 1000000.0 + tokOut * d.outputCostPerM / 1000000.0 + write + read
         == (tokIn * d.inputCostPerM + tokOut * d.outputCostPerM + write' + read') / 1000000.0
  {
  }

  /** The cost `log_token_usage` reports. The two main counters must be
      present; the cache counters default to 0, and a cache price is needed
      only for a nonzero cache counter. */
  function LogTokenUsage(usage: map<string, int>, model: string): (r: Result<real>)
    ensures r.Ok? <==> InputKey in usage && OutputKey in usage && model in AllLlms && Priceable(usage, AllLlms[model].data)
    ensures r.Ok? ==> r.value == LinearCost(AllLlms[model].data, usage)
    ensures InputKey !in usage ==> r == Err(MissingKey(InputKey))
    ensures InputKey in usage && OutputKey !in usage ==> r == Err(MissingKey(OutputKey))
    ensures InputKey in usage && OutputKey in usage && model !in AllLlms ==> r == Err(UnknownModel(model))
  {
    if InputKey !in usage then Err(MissingKey(InputKey))
    else if OutputKey !in usage then Err(MissingKey(OutputKey))
    else
      var entry :- LookupLlm(model);
      PricedCost(usage, entry.data)
  }

  // ---------------------------------------------------------------------------
  // Properties

  /** One million input tokens of `gpt-4o` and nothing else cost $2.50. */
  lemma GptFourOMillionInputTokens()
    ensures LogTokenUsage(map[InputKey := 1000000, OutputKey := 0], "gpt-4o") == Ok(2.5)
  {
    AllLlmsProvenance();
  }

  /** Absent cache counters cost exactly what zero counters cost. */
  lemma MissingCacheCountsAreZero(usage: map<string, int>, model: string)
    requires CacheWriteKey !in usage && CacheReadKey !in usage
    ensures LogTokenUsage(usage, model) == LogTokenUsage(usage[CacheWriteKey := 0][CacheReadKey := 0], model)
  {
    var zeroed := usage[CacheWriteKey := 0][CacheReadKey := 0];
    assert forall k :: k != CacheWriteKey && k != CacheReadKey ==> Get(zeroed, k) == Get(usage, k);
  }

  /** Every price in the catalog is positive, so non-negative counts never cost less than nothing. */
  lemma CostNonNegative(usage: map<string, int>, model: string)
    requires LogTokenUsage(usage, model).Ok?
    requires forall k :: k in usage ==> usage[k] >= 0
    ensures LogTokenUsage(usage, model).value >= 0.0
  {
    PricesPositive(model);
    var d := AllLlms[model].data;
    assert LinearCost(d, usage) == Weigh(d, Get(usage, InputKey), Get(usage, OutputKey), Get(usage, CacheWriteKey), Get(usage, CacheReadKey));
    WeighNonNegative(d, Get(usage, InputKey), Get(usage, OutputKey), Get(usage, CacheWriteKey), Get(usage, CacheReadKey));
  }

  lemma WeighNonNegative(d: ModelData, tokIn: int, tokOut: int, tokWrite: int, tokRead: int)
    requires tokIn >= 0 && tokOut >= 0 && tokWrite >= 0 && tokRead >= 0
    requires d.inputCostPerM > 0.0 && d.outputCostPerM > 0.0
    requires d.cacheWriteCostPerM.GetOr(0.0) >= 0.0 && d.cacheReadCostPerM.GetOr(0.0) >= 0.0
    ensures Weigh(d, tokIn, tokOut, tokWrite, tokRead) >= 0.0
  {
  }

  lemma Distribute(a: int, b: int, p: real)
    ensures (a + b) as real * p == a as real * p + b as real * p
  {
  }

  lemma SumOverMillion(x1: real, x2: real, x3: real, x4: real, y1: real, y2: real, y3: real, y4: real)
    ensures (x1 + y1 + (x2 + y2) + (x3 + y3) + (x4 + y4)) / 1000000.0
         == (x1 + x2 + x3 + x4) / 1000000.0 + (y1 + y2 + y3 + y4) / 1000000.0
  {
  }

  lemma WeighAdd(d: ModelData, ui: int, uo: int, uw: int, ur: int, ci: int, co: int, cw: int, cr: int)
    ensures Weigh(d, ui + ci, uo + co, uw + cw, ur + cr) == Weigh(d, ui, uo, uw, ur) + Weigh(d, ci, co, cw, cr)
  {
    var p, q, w, c := d.inputCostPerM, d.outputCostPerM, d.cacheWriteCostPerM.GetOr(0.0), d.cacheReadCostPerM.GetOr(0.0);
    Distribute(ui, ci, p);
    Distribute(uo, co, q);
    Distribute(uw, cw, w);
    Distribute(ur, cr, c);
    SumOverMillion(ui as real * p, uo as real * q, uw as real * w, ur as real * c,
                   ci as real * p, co as real * q, cw as real * w, cr as real * c);
  }

  lemma AddUsageCounters(usage: map<string, int>, counts: map<string, int>)
    ensures var r := AddUsage(usage, counts);
      && Get(r, InputKey) == Get(usage, InputKey) + Get(counts, InputKey)
      && Get(r, OutputKey) == Get(usage, OutputKey) + Get(counts, OutputKey)
      && Get(r, CacheWriteKey) == Get(usage, CacheWriteKey) + Get(counts, CacheWriteKey)
      && Get(r, CacheReadKey) == Get(usage, CacheReadKey) + Get(counts, CacheReadKey)
  {
    CounterKeysAreTokenKeys();
  }

  /** The cost formula is additive over the usage update. */
  lemma LinearCostAdd(d: ModelData, usage: map<string, int>, counts: map<string, int>)
    ensures LinearCost(d, AddUsage(usage, counts)) == LinearCost(d, usage) + LinearCost(d, counts)
  {
    AddUsageCounters(usage, counts);
    LinearCostOfSum(d, usage, counts, AddUsage(usage, counts));
  }

  lemma LinearCostOfSum(d: ModelData, usage: map<string, int>, counts: map<string, int>, r: map<string, int>)
    requires Get(r, InputKey) == Get(usage, InputKey) + Get(counts, InputKey)
    requires Get(r, OutputKey) == Get(usage, OutputKey) + Get(counts, OutputKey)
    requires Get(r, CacheWriteKey) == Get(usage, CacheWriteKey) + Get(counts, CacheWriteKey)
    requires Get(r, CacheReadKey) == Get(usage, CacheReadKey) + Get(counts, CacheReadKey)
    ensures LinearCost(d, r) == LinearCost(d, usage) + LinearCost(d, counts)
  {
    WeighAdd(d, Get(usage, InputKey), Get(usage, OutputKey), Get(usage, CacheWriteKey), Get(usage, CacheReadKey),
             Get(counts, InputKey), Get(counts, OutputKey), Get(counts, CacheWriteKey), Get(counts, CacheReadKey));
  }

  /** Reference: the sum of the per-response costs. */
  function SumCost(d: ModelData, rs: seq<Response>): real
  {
    if rs == [] then 0.0 else SumCost(d, rs[..|rs| - 1]) + LinearCost(d, rs[|rs| - 1].counts)
  }

  /** Adding priceable counts to priceable totals keeps them priceable. */
  lemma PriceableAdd(usage: map<string, int>, counts: map<string, int>, d: ModelData)
    requires Priceable(usage, d) && Priceable(counts, d)
    ensures Priceable(AddUsage(usage, counts), d)
  {
    AddUsageCounters(usage, counts);
  }

  /** When every response can be priced at `d`, so can the totals, and they
      cost the sum of the single responses' costs. */
  lemma {:induction false} TotalPricedCost(rs: seq<Response>, d: ModelData)
    requires |rs| > 0
    requires forall i :: 0 <= i < |rs| ==> InputKey in rs[i].counts && OutputKey in rs[i].counts && Priceable(rs[i].counts, d)
    ensures InputKey in Totals(rs) && OutputKey in Totals(rs)
    ensures Priceable(Totals(rs), d) && LinearCost(d, Totals(rs)) == SumCost(d, rs)
  {
    var init := rs[..|rs| - 1];
    var last := rs[|rs| - 1].counts;
    CounterKeysAreTokenKeys();
    if init == [] {
      AddUsageCounters(map[], last);
      PriceableAdd(map[], last, d);
      LinearCostAdd(d, map[], last);
      assert LinearCost(d, map[]) == 0.0;
    } else {
      assert forall i :: 0 <= i < |init| ==> init[i] == rs[i];
      TotalPricedCost(init, d);
      PriceableAdd(Totals(init), last, d);
      LinearCostAdd(d, Totals(init), last);
    }
  }

  lemma PricedResponses(rs: seq<Response>, model: string)
    requires |rs| > 0
    requires forall i :: 0 <= i < |rs| ==> LogTokenUsage(rs[i].counts, model).Ok?
    ensures model in AllLlms
    ensures forall i :: 0 <= i < |rs| ==>
      InputKey in rs[i].counts && OutputKey in rs[i].counts && Priceable(rs[i].counts, AllLlms[model].data)
  {
    assert LogTokenUsage(rs[0].counts, model).Ok?;
  }

  /** When every single response of a chat could be priced, the chat's totals
      can be priced too, and cost the sum of the single responses' costs. */
  lemma TotalCostIsSumOfCosts(rs: seq<Response>, model: string)
    requires |rs| > 0 && model in AllLlms
    requires forall i :: 0 <= i < |rs| ==> LogTokenUsage(rs[i].counts, model).Ok?
    ensures LogTokenUsage(Totals(rs), model) == Ok(SumCost(AllLlms[model].data, rs))
  {
    PricedResponses(rs, model);
    var d := AllLlms[model].data;
    TotalPricedCost(rs, d);
    PricedTotals(rs, model, d);
  }

  lemma PricedTotals(rs: seq<Response>, model: string, d: ModelData)
    requires model in AllLlms && d == AllLlms[model].data
    requires InputKey in Totals(rs) && OutputKey in Totals(rs)
    requires Priceable(Totals(rs), d) && LinearCost(d, Totals(rs)) == SumCost(d, rs)
    ensures LogTokenUsage(Totals(rs), model) == Ok(SumCost(d, rs))
  {
  }
}

=== FILE: vision.dfy ===
/** The image substitution loop of `ask_gpt4v` in `openai_llms.py`: every
    `image_url` item of every user message gets the same base64 data URL. */
module Vision {
  import opened Results
  import opened Messages

  /** The `image_url` dict of an item: its `url` and its optional `detail`. */
  datatype UrlDict = UrlDict(url: Option<string>, detail: Option<string>)

  /** A content item: `type` (absent in a malformed item), `text`, and the
      `image_url` dict when there is one. */
  datatype Item = Item(kind: Option<string>, text: Option<string>, imageUrl: Option<UrlDict>)

  /** A message's `content`: a string, a list of items, or no `content` key at all. */
  datatype Content = TextContent(s: string) | ItemList(items: seq<Item>) | NoContent

  /** A chat message; a missing `role` key is `None`. */
  datatype ChatMessage = ChatMessage(role: Option<string>, content: Content)

  function IsImageItem(it: Item): bool {
    it.kind == Some("image_url")
  }

  /** The item after the inner `if`: `image_url` items get the new URL, every
      other item is left alone. */
  function SubstituteItem(it: Item, url: string): (r: Result<Item>)
    ensures r.Err? <==> it.kind.None? || (IsImageItem(it) && it.imageUrl.None?)
    ensures it.kind.None? ==> r == Err(MissingKey("type"))
    ensures r.Ok? && !IsImageItem(it) ==> r.value == it
    ensures r.Ok? && IsImageItem(it) ==> r.value.imageUrl == Some(it.imageUrl.value.(url := Some(url)))
    ensures r.Ok? ==> r.value.kind == it.kind && r.value.text == it.text
  {
    if it.kind.None? then Err(MissingKey("type"))
    else if !IsImageItem(it) then Ok(it)
    else if it.imageUrl.None? then Err(MissingKey("image_url"))
    else Ok(it.(imageUrl := Some(it.imageUrl.value.(url := Some(url)))))
  }

  /** The inner loop over a user message's items. */
  function SubstituteItems(items: seq<Item>, url: string): Result<seq<Item>>
  {
    if items == [] then Ok([])
    else
      var prev :- SubstituteItems(items[..|items| - 1], url);
      var last :- SubstituteItem(items[|items| - 1], url);
      Ok(prev + [last])
  }

  /** One message: only user messages are touched. Iterating a string
      content yields characters, and indexing the first one with `'type'`
      is a `TypeError`; an empty string is never indexed. */
  function SubstituteMessage(m: ChatMessage, url: string): Result<ChatMessage>
  {
    if m.role.None? then Err(MissingKey("role"))
    else if m.role != Some("user") then Ok(m)
    else
      match m.content
      case TextContent(s) => if s == [] then Ok(m) else Err(KeyOnString("type"))
      case ItemList(items) =>
        var items' :- SubstituteItems(items, url);
        Ok(m.(content := ItemList(items')))
      case NoContent => Err(MissingKey("content"))
  }

  /** The outer loop. */
  function SubstituteMessages(ms: seq<ChatMessage>, url: string): Result<seq<ChatMessage>>
  {
    if ms == [] then Ok([])
    else
      var prev :- SubstituteMessages(ms[..|ms| - 1], url);
      var last :- SubstituteMessage(ms[|ms| - 1], url);
      Ok(prev + [last])
  }

  /** `ask_gpt4v`'s substitution, with `encode_image(image_path)` given as
      `base64`: every URL becomes `"data:image/jpeg;base64," + base64`. */
  function InsertImage(ms: seq<ChatMessage>, base64: string): Result<seq<ChatMessage>> {
    SubstituteMessages(ms, JpegDataUrl(base64))
  }

  // ---------------------------------------------------------------------------
  // Properties

  /** An item the loop can handle. */
  predicate ItemOk(it: Item) {
    it.kind.Some? && (IsImageItem(it) ==> it.imageUrl.Some?)
  }

  /** A message the loop can handle: it has a role, and a user message holds
      an item list of handled items, or an empty string. A user message
      without `content` is a `KeyError`. */
  predicate MessageOk(m: ChatMessage) {
    && m.role.Some?
    && (m.role == Some("user") ==>
          match m.content
          case TextContent(s) => s == []
          case ItemList(items) => forall j :: 0 <= j < |items| ==> ItemOk(items[j])
          case NoContent => false)
  }

  /** The item `it` becomes under `url`. */
  predicate ItemUpdated(it: Item, it': Item, url: string) {
    if IsImageItem(it) then it.imageUrl.Some? && it' == it.(imageUrl := Some(it.imageUrl.value.(url := Some(url))))
    else it' == it
  }

  /** The inner loop succeeds exactly on handled items, keeps their number
      and order, and changes each one as the inner `if` says. */
  lemma {:induction false} SubstituteItemsSpec(items: seq<Item>, url: string)
    ensures SubstituteItems(items, url).Ok? <==> forall j :: 0 <= j < |items| ==> ItemOk(items[j])
    ensures SubstituteItems(items, url).Ok? ==>
      && |SubstituteItems(items, url).value| == |items|
      && forall j :: 0 <= j < |items| ==> ItemUpdated(items[j], SubstituteItems(items, url).value[j], url)
  {
    if items != [] {
      var init := items[..|items| - 1];
      SubstituteItemsSpec(init, url);
      assert forall j :: 0 <= j < |init| ==> init[j] == items[j];
    }
  }

  /** The message a message becomes under `url`. */
  predicate MessageUpdated(m: ChatMessage, m': ChatMessage, url: string) {
    && m'.role == m.role
    && (m.role != Some("user") ==> m' == m)
    && (m.role == Some("user") ==>
          match m.content
          case TextContent(_) => m' == m
          case NoContent => m' == m
          case ItemList(items) =>
            && m'.content.ItemList?
            && |m'.content.items| == |items|
            && forall j :: 0 <= j < |items| ==> ItemUpdated(items[j], m'.content.items[j], url))
  }

  lemma SubstituteMessageSpec(m: ChatMessage, url: string)
    ensures SubstituteMessage(m, url).Ok? <==> MessageOk(m)
    ensures SubstituteMessage(m, url).Ok? ==> MessageUpdated(m, SubstituteMessage(m, url).value, url)
  {
    if m.role == Some("user") && m.content.ItemList? {
      SubstituteItemsSpec(m.content.items, url);
    }
  }

  /** The loop succeeds exactly when every message can be handled; it then
      keeps the number, order and roles of the messages, leaves every
      non-user message as it was, and updates exactly the `image_url` items
      of user messages. */
  lemma {:induction false} InsertImageSpec(ms: seq<ChatMessage>, base64: string)
    ensures InsertImage(ms, base64).Ok? <==> forall i :: 0 <= i < |ms| ==> MessageOk(ms[i])
    ensures InsertImage(ms, base64).Ok? ==>
      && |InsertImage(ms, base64).value| == |ms|
      && forall i :: 0 <= i < |ms| ==> MessageUpdated(ms[i], InsertImage(ms, base64).value[i], JpegDataUrl(base64))
  {
    if ms != [] {
      var init := ms[..|ms| - 1];
      InsertImageSpec(init, base64);
      SubstituteMessageSpec(ms[|ms| - 1], JpegDataUrl(base64));
      assert forall i :: 0 <= i < |init| ==> init[i] == ms[i];
    }
  }

  /** Every image in a user message ends up with the one data URL, however
      many images there are. */
  lemma AllImagesShareTheUrl(ms: seq<ChatMessage>, base64: string, i: int, j: int)
    requires InsertImage(ms, base64).Ok?
    requires 0 <= i < |ms| && ms[i].role == Some("user") && ms[i].content.ItemList?
    requires 0 <= j < |ms[i].content.items| && IsImageItem(ms[i].content.items[j])
    ensures |InsertImage(ms, base64).value| == |ms|
    ensures InsertImage(ms, base64).value[i].content.ItemList?
    ensures |InsertImage(ms, base64).value[i].content.items| == |ms[i].content.items|
    ensures InsertImage(ms, base64).value[i].content.items[j].imageUrl.Some?
    ensures InsertImage(ms, base64).value[i].content.items[j].imageUrl.value.url == Some(JpegDataUrl(base64))
  {
    InsertImageSpec(ms, base64);
  }

  /** Substituting twice is substituting once. */
  lemma {:induction false} SubstituteItemsIdempotent(items: seq<Item>, url: string)
    requires SubstituteItems(items, url).Ok?
    ensures SubstituteItems(SubstituteItems(items, url).value, url) == SubstituteItems(items, url)
  {
    if items != [] {
      var init := items[..|items| - 1];
      var once := SubstituteItems(items, url).value;
      SubstituteItemsIdempotent(init, url);
      var prev := SubstituteItems(init, url).value;
      var last := SubstituteItem(items[|items| - 1], url).value;
      assert once == prev + [last];
      assert once[..|once| - 1] == prev;
    }
  }

  lemma {:induction false} InsertImageIdempotent(ms: seq<ChatMessage>, base64: string)
    requires InsertImage(ms, base64).Ok?
    ensures InsertImage(InsertImage(ms, base64).value, base64) == InsertImage(ms, base64)
  {
    if ms != [] {
      var url := JpegDataUrl(base64);
      var init := ms[..|ms| - 1];
      var once := InsertImage(ms, base64).value;
      InsertImageIdempotent(init, base64);
      var prev := InsertImage(init, base64).value;
      var m := ms[|ms| - 1];
      var last := SubstituteMessage(m, url).value;
      assert once == prev + [last];
      assert once[..|once| - 1] == prev;
      if m.role == Some("user") && m.content.ItemList? {
        SubstituteItemsIdempotent(m.content.items, url);
      }
    }
  }

  /** A string content in a user message is a `TypeError` unless it is empty. */
  lemma StringContentRejected(s: string, base64: string)
    requires s != []
    ensures InsertImage([ChatMessage(Some("user"), TextContent(s))], base64) == Err(KeyOnString("type"))
  {
    var m := ChatMessage(Some("user"), TextContent(s));
    var ms := [m];
    assert ms[..0] == [];
    assert SubstituteMessages([], JpegDataUrl(base64)) == Ok([]);
    assert SubstituteMessage(m, JpegDataUrl(base64)) == Err(KeyOnString("type"));
  }
}
